=== FILE: README.md ===
# Multi-agent investment company, modelled in Dafny

This project models the decision core of a small "investment company" made of
cooperating agents. Each agent reads a shared analysis context and returns a
normalised report: a score, a rationale and metadata. The agents are:

- a **fundamental analyst**, which scores P/E, P/B, dividend yield, leverage and ESG;
- a **sentiment analyst**, which counts keywords in news headlines and squashes the mean with `tanh`;
- a **technical analyst**, which reads the latest SMA, MACD, RSI and Bollinger indicators and a volatility term;
- a **risk officer**, which penalises annualised volatility above a target and publishes position limits.

A **portfolio manager** averages the agents' scores and either holds cash or
places one order. Its size comes from the risk officer's `max_weight`. A
**backtest evaluator** applies the decision's effective weight to the price
path. It reports total and annualised return, Sharpe ratio and maximum
drawdown. The **indicator computation** builds the table the technical analyst
reads.

The code follows the Python sources module by module:

| Module | Models |
|---|---|
| `Utils` | `utils.py`, plus the part of Python's float and value semantics the agents rely on |
| `Data` | `compute_indicators` |
| `Base` | the shared records |
| `Fundamental` | the fundamental analyst |
| `Sentiment` | the sentiment analyst |
| `Technical` | the technical analyst |
| `Risk` | the risk officer |
| `Portfolio` | the portfolio manager |
| `Reports` | the backtest evaluator |

How the model represents the Python behaviour:

- **Floats.** A Python float is `Num`: a finite real, NaN or an infinity. `Add`, `Scale`, `MinNum` and `ClampNum` follow IEEE behaviour for the non-finite cases, so the NaN paths the code really has are kept.
- **Dynamic values.** A report score and metadata values are `Value`: None, bool, int, float, str, list or dict.
- **Mutating code.** Code that loops and mutates is written as methods with loop invariants. These are the indicator loop, the sentiment loop, the portfolio score loop and the per-block score updates of the analysts. Each method is proved equal to a specification function, and the properties are proved about those functions.
- **Vectorised code.** The pandas code in the backtest becomes recursive functions over sequences.
- **Rationales.** Rationales are lists of tags (`Reason`) carrying the numbers the formatted text shows, rather than strings.
- **Math functions.** `sqrt` and `tanh` come in as a parameter (`MathOps`). The predicate `Lawful` states the only facts the proofs use: `sqrt` is non-negative with `sqrt(0) = 0`, and `tanh` is strictly increasing, lies in (-1, 1) and maps 0 to 0.

## Model

| member | source | states |
|---|---|---|
| Utils.Clamp | investment_company/utils.py:8-17 | below `lower` gives `lower`; above `upper` (and not below `lower`) gives `upper`; otherwise the value itself; inside [lower, upper] whenever lower <= upper |
| Utils.ClampIdempotent | investment_company/utils.py:8-17 | clamping a clamped value changes nothing |
| Utils.ClampMonotone | investment_company/utils.py:8-17 | clamp preserves the order of its inputs |
| Utils.ClampNum | investment_company/utils.py:8-17 | on a Python float: NaN fails both comparisons and comes out unchanged; `+inf` always gives `upper` and `-inf` always gives `lower`, even with crossed bounds; a finite value is clamped as a real |
| Utils.Add | investment_company/agents/fundamental.py:40 | IEEE addition: finite plus finite is the real sum; a NaN operand gives NaN; NaN otherwise only from +inf plus -inf |
| Utils.Scale | investment_company/agents/portfolio.py:38 | a finite factor times a float: finite stays finite with the real product; NaN exactly for a NaN input or 0 times an infinity |
| Utils.MinNum | investment_company/agents/fundamental.py:40 | `min(v, c)` keeps NaN; a finite result is at most `c` and equals one of the two arguments |
| Utils.IsFiniteNumber | investment_company/utils.py:20-22 | a float is a finite number exactly when it is neither NaN nor infinite; every int and bool is one; None, strings, lists and dicts never are |
| Utils.SafeMean | investment_company/utils.py:25-30 | 0.0 when no entry is a finite number; otherwise the mean of the finite entries, which lies between the least and the greatest of them |
| Utils.FiniteEntriesEmpty | investment_company/utils.py:25-30 | the cleaned list is empty exactly when no entry is a finite number |
| Utils.FiniteEntriesAllFinite | investment_company/utils.py:27 | when every entry is finite nothing is dropped and each value is kept in place |
| Utils.SafeMeanNoFinite | investment_company/utils.py:28-29 | with no finite entry (the empty input included) the mean is 0.0 |
| Utils.SafeMeanWithinFinite | investment_company/utils.py:25-30 | with a finite entry the mean lies between the least and greatest finite entries |
| Utils.Get | investment_company/agents/portfolio.py:37 | `d.get(key, default)`: the stored value for a present key, the default otherwise |
| Utils.FiniteEntries | investment_company/utils.py:27 | the cleaned list is never longer than the input; the two rows above say what it keeps |
| Utils.PopVariance | investment_company/agents/risk.py:29 | the population variance is never negative |
| Utils.SampleVariance | investment_company/reports.py:42 | the sample variance of two or more values is never negative |
| Utils.RoundHalfEven | investment_company/agents/portfolio.py:43 | the chosen integer is within 0.5 of the input and non-negative for a non-negative input |
| Utils.Round4 | investment_company/agents/portfolio.py:43 | `round(x, 4)` is within 0.00005 of x, non-negative for non-negative x, and a multiple of 1/10000 |
| Utils.RoundHalfEvenAtMost | investment_company/agents/portfolio.py:43 | rounding never crosses an integer upper bound |
| Utils.Round4AtMost | investment_company/agents/portfolio.py:43 | rounding never crosses an upper bound that is itself a multiple of 1/10000 |
| Utils.RoundNum | investment_company/agents/portfolio.py:43 | NaN and the infinities come back unchanged; a finite float is rounded to four decimals |
| Data.PctChange | investment_company/agents/risk.py:24-25 | `pct_change().dropna()` has one return fewer than there are closes (none for an empty series) |
| Data.SmaAt | investment_company/data.py:70 | undefined exactly on the first w - 1 bars; afterwards between the least and greatest close of the w-bar window |
| Data.EmaAt | investment_company/data.py:71 | the definition `ewm(adjust=False)`: seeded with the first value, then alpha * x + (1 - alpha) * previous; Data.EmaWithin, Data.EmaOfConstant and Data.TableEmaRecurrence state its properties |
| Data.MacdAt | investment_company/data.py:81-83 | the definition EMA12 - EMA26 of the closes; Data.MacdOfConstant states it is 0 for constant prices |
| Data.SignalAt | investment_company/data.py:84 | the definition: the 9-span EMA of the MACD line; Data.MacdOfConstant states it is 0 for constant prices |
| Data.RsiAt | investment_company/data.py:73-79 | undefined on the first bar; whenever defined, within [0, 100] |
| Data.BandAt | investment_company/data.py:92-93 | defined exactly when both the SMA20 and the deviation are; with a non-negative multiplier the band is at or above SMA20 |
| Data.KeptRows | investment_company/data.py:95-96 | never more rows than bars; when the last bar has a value its row, with its date and cells, is the last row kept |
| Data.Closes | investment_company/data.py:66 | the close column: one close per bar, in order |
| Data.SmaSeries | investment_company/data.py:70 | the `sma_w` column: one entry per bar, entry i being `SmaAt` at bar i |
| Data.EmaSeries | investment_company/data.py:71 | the `ema_w` column: one entry per bar, entry i being `EmaAt` at bar i |
| Data.Deltas | investment_company/data.py:73 | `diff()` has one difference fewer than there are closes (none for an empty series) |
| Data.Gains | investment_company/data.py:74 | each gain is its difference when positive and 0 otherwise |
| Data.Losses | investment_company/data.py:75 | each loss is the negated difference when negative and 0 otherwise |
| Data.EmaNonNegative | investment_company/data.py:76-77 | the smoothing of non-negative gains or losses is never negative |
| Data.RsiSeries | investment_company/data.py:79 | the `rsi` column: one entry per bar, entry i being `RsiAt` at bar i |
| Data.MacdLine | investment_company/data.py:83 | the MACD line: one entry per bar, entry i being `MacdAt` at bar i |
| Data.HistogramSeries | investment_company/data.py:87 | the `macd_hist` column: one entry per bar, the line minus the signal at that bar |
| Data.RollingStd | investment_company/data.py:90 | the 20-bar sample deviation column: one entry per bar, entry i being the deviation at bar i |
| Data.Band | investment_company/data.py:92-93 | a band column: one entry per bar, entry i being `BandAt` of the SMA20 and deviation entries |
| Data.InsertKey | investment_company/data.py:69-71 | assigning a key in a dict keeps an existing key in its place and appends a new one at the end |
| Data.WithFixed | investment_company/data.py:73-93 | the columns after the loop: exactly `rsi`, `macd`, `macd_signal`, `macd_hist`, `bb_upper` and `bb_lower` are added, each holding its series, and every loop column is unchanged |
| Data.RowAt | investment_company/data.py:95 | a row of the table holds every column, with that column's cell at bar i |
| Data.AnnualizedVolatility | investment_company/agents/risk.py:26-29 | 0.0 without returns, never negative |
| Data.Alpha | investment_company/data.py:71 | the smoothing factor of a span of at least 1 lies in (0, 1] |
| Data.RsiValue | investment_company/data.py:78-79 | undefined exactly when there is neither gain nor loss (0/0); otherwise in [0, 100]; 100 when there are gains and no losses |
| Data.FillWindows | investment_company/data.py:69-71 | an error exactly when some window is below 1, naming the first such window in the order given; otherwise the SMA and EMA columns of every window, with the keys in first-insertion order |
| Data.ComputeIndicators | investment_company/data.py:60-97 | an error exactly when a window is below 1 or 20 is not a window; a window below 1 is reported first, naming the first such window, and the missing `sma_20` only when all windows are valid; otherwise the columns in insertion order, empty attrs, one row per bar with its date, holding a cell for exactly the table's columns and no other, and every cell equal to its indicator definition |
| Data.TableFacts | investment_company/data.py:95-96 | every row of the computed table has a value, so dropping all-NaN rows keeps every bar, each row satisfying the per-cell definitions |
| Data.WindowOrderKeys | investment_company/data.py:69-71 | the loop's dict has exactly the keys of its insertion order |
| Data.KeptRowsKeys | investment_company/data.py:95-96 | every kept row has a cell for each column and no other |
| Data.TableKeys | investment_company/data.py:60-97 | every row of the computed table has exactly the table's columns |
| Data.TableRowFacts | investment_company/data.py:67-93 | one row of the column map has a value and its cells match the SMA, EMA, RSI, MACD and Bollinger definitions |
| Data.WindowColumnsShape | investment_company/data.py:69-71 | the loop yields exactly an `sma_w` and an `ema_w` column per window, each as long as the history |
| Data.AllRowsKept | investment_company/data.py:95-96 | rows that have a value are all kept, in order, with their dates |
| Data.EmptyRowsDropped | investment_company/data.py:96 | every row kept has at least one value |
| Data.EmaWithin | investment_company/data.py:71 | an EMA never leaves the range of its inputs |
| Data.TableEmaRecurrence | investment_company/data.py:71 | in a computed table the `ema_w` cell of the first row is the first close, and every later cell is alpha * close + (1 - alpha) * the cell of the row before, with alpha = 2/(w+1) |
| Data.EmaOfConstant | investment_company/data.py:71 | a constant series has a constant EMA |
| Data.MacdOfConstant | investment_company/data.py:81-87 | constant prices give zero MACD, signal and histogram |
| Data.BandsSymmetric | investment_company/data.py:89-93 | the upper and lower Bollinger bands are equally far from SMA20 |
| Data.RsiBounded | investment_company/data.py:73-79 | RSI is undefined on the first bar and always within [0, 100] |
| Risk.Volatility | investment_company/agents/risk.py:20-29 | 0.0 without prices or with a single bar; never negative |
| Risk.Penalty | investment_company/agents/risk.py:31-35 | in [0, 1]; 0 for a non-positive target or volatility at or under the target; 1 from twice the target; the relative excess in between |
| Risk.RiskScore | investment_company/agents/risk.py:36 | the score is 0.5 minus the penalty, so it lies in [-0.5, 0.5] and the clamp never acts |
| Risk.CalmScore | investment_company/agents/risk.py:31-36 | volatility at or under a positive target scores 0.5 |
| Risk.StormScore | investment_company/agents/risk.py:31-36 | volatility at twice a positive target or more scores -0.5 |
| Risk.NoTargetScore | investment_company/agents/risk.py:31-36 | a non-positive target switches the penalty off |
| Risk.ScoreMonotone | investment_company/agents/risk.py:31-36 | more volatility never raises the score |
| Risk.Analyze | investment_company/agents/risk.py:19-49 | a finite score in [-0.5, 0.5] computed from the volatility, 0.5 without prices; metadata exactly `max_weight`, `max_sector_exposure` and `volatility` with the configured values; one rationale part carrying the volatility and the penalty that the text reports |
| Fundamental.Analyze | investment_company/agents/fundamental.py:15-66 | the score is the clamped sum of the five blocks; the rationale is the parts of the blocks that fired, or "limited fundamentals" when none did; the metadata is the fundamentals dict |
| Fundamental.PeStep | investment_company/agents/fundamental.py:20-27 | adds the P/E contribution and appends its part |
| Fundamental.PbStep | investment_company/agents/fundamental.py:29-36 | adds the P/B contribution and appends its part |
| Fundamental.DividendStep | investment_company/agents/fundamental.py:38-41 | adds the dividend contribution and appends its part |
| Fundamental.DebtStep | investment_company/agents/fundamental.py:43-50 | adds the leverage contribution and appends its part |
| Fundamental.EsgStep | investment_company/agents/fundamental.py:52-56 | adds the ESG contribution and appends its part |
| Fundamental.PeBlock | investment_company/agents/fundamental.py:20-27 | silent for a missing, NaN or -inf P/E; +inf counts as elevated (-0.15); when it fires it adds +0.25 or -0.15 |
| Fundamental.PbBlock | investment_company/agents/fundamental.py:29-36 | silent for a missing or NaN P/B; -inf counts as reasonable (+0.1) and +inf as high (-0.1); when it fires it adds +0.1 or -0.1 |
| Fundamental.DividendBlock | investment_company/agents/fundamental.py:38-41 | fires exactly when the yield is present, with its part; the amount is NaN exactly for a NaN yield, never +inf, and at most 0.1 when finite |
| Fundamental.DebtBlock | investment_company/agents/fundamental.py:43-50 | fires exactly when the ratio is present; a NaN ratio fails `< 0.6` and counts as high leverage (-0.15); -inf counts as manageable (+0.15) |
| Fundamental.EsgBlock | investment_company/agents/fundamental.py:52-56 | fires exactly when the ESG score is present, with its part; the amount is NaN exactly for a NaN score, otherwise finite in [-0.05, 0.1] |
| Fundamental.RawScore | investment_company/agents/fundamental.py:20-56 | the sum before the clamp is NaN whenever the dividend yield or the ESG score is NaN |
| Fundamental.Score | investment_company/agents/fundamental.py:58 | NaN exactly when the raw sum is NaN; otherwise a finite value in [-1, 1] |
| Fundamental.DividendAmount | investment_company/agents/fundamental.py:38-41 | `min(yield * 5, 0.1)` is NaN exactly for a NaN yield, otherwise finite or -inf and at most 0.1 |
| Fundamental.EsgAmount | investment_company/agents/fundamental.py:52-56 | the ESG adjustment is NaN exactly for a NaN score, otherwise finite in [-0.05, 0.1] |
| Fundamental.Metadata | investment_company/agents/fundamental.py:64 | the report's metadata has the fundamentals' keys, each value as a float or None |
| Fundamental.FundamentalsOf | investment_company/agents/fundamental.py:16 | `context.fundamentals or {}`: the given mapping, or an empty one when there is none |
| Fundamental.PeBands | investment_company/agents/fundamental.py:20-27 | +0.25 exactly on (0, 25), -0.15 exactly from 40 on, nothing otherwise |
| Fundamental.PbBands | investment_company/agents/fundamental.py:29-36 | +0.1 under 4, -0.1 over 8, nothing on [4, 8] |
| Fundamental.DividendMonotone | investment_company/agents/fundamental.py:38-41 | a higher finite yield never contributes less, and the contribution is capped at 0.1 |
| Fundamental.DebtAlwaysFires | investment_company/agents/fundamental.py:43-50 | a present ratio always contributes +0.15 (exactly when below 0.6) or -0.15 |
| Fundamental.EsgWithin | investment_company/agents/fundamental.py:52-56 | a non-NaN ESG score contributes a finite value in [-0.05, 0.1] |
| Fundamental.NoFundamentals | investment_company/agents/fundamental.py:15-66 | with every metric missing the score is 0.0 and no block fires |
| Fundamental.AddBlockNaN | investment_company/agents/fundamental.py:20-56 | adding a block never yields +inf, and yields NaN exactly when the running score or the block is NaN |
| Fundamental.NaNMetricGivesNaNScore | investment_company/agents/fundamental.py:38-58 | the score is NaN exactly when the dividend yield or the ESG score is NaN |
| Fundamental.NaNDividendExample | investment_company/agents/fundamental.py:38-41 | a NaN dividend yield alone makes the score NaN |
| Fundamental.ScoreBounded | investment_company/agents/fundamental.py:58 | without a NaN yield or ESG score, the score is a finite value in [-1, 1] |
| Fundamental.RawAtMost | investment_company/agents/fundamental.py:20-58 | the raw sum is at most 0.7, so a finite score is the raw sum floored at -1 |
| Fundamental.ReasonsInBlockOrder | investment_company/agents/fundamental.py:20-56 | the rationale parts come in block order: P/E, P/B, dividend, leverage, ESG |
| Fundamental.ReasonsPresent | investment_company/agents/fundamental.py:38-56 | the dividend, leverage and ESG parts appear exactly when those metrics are present |
| Fundamental.ScoreIgnoringNaN | investment_company/agents/fundamental.py:58 | the corrected score, with NaN metrics treated as missing, is always finite in [-1, 1] |
| Fundamental.ScoreIgnoringNaNAgrees | investment_company/agents/fundamental.py:58 | without NaN metrics the corrected score equals the score as written |
| Sentiment.KeywordsDisjoint | investment_company/agents/sentiment.py:12-33 | no keyword is both positive and negative, and neither list repeats a word |
| Sentiment.Lower | investment_company/agents/sentiment.py:37 | `lower()` keeps the length and lower-cases each character on its own |
| Sentiment.Hits | investment_company/agents/sentiment.py:38-40 | the keyword tokens counted with multiplicity: at most the number of words, none for an empty keyword list |
| Sentiment.LowerChar | investment_company/agents/sentiment.py:37 | lower-casing never turns a non-space character into whitespace |
| Sentiment.LowerIdempotent | investment_company/agents/sentiment.py:37 | lower-casing twice equals lower-casing once |
| Sentiment.DropSpaces | investment_company/agents/sentiment.py:37 | removes exactly the leading whitespace |
| Sentiment.WordPrefix | investment_company/agents/sentiment.py:37 | takes the longest whitespace-free prefix |
| Sentiment.Words | investment_company/agents/sentiment.py:37 | every word of `split()` is non-empty and free of whitespace |
| Sentiment.WordsKeepEveryOtherCharacter | investment_company/agents/sentiment.py:37 | the words, concatenated, are exactly the non-whitespace characters in order |
| Sentiment.OccurrencesOfDistinct | investment_company/agents/sentiment.py:39-40 | in a list without repeats a word occurs once if present and not at all otherwise |
| Sentiment.CounterSumIsHits | investment_company/agents/sentiment.py:38-40 | summing the Counter over the keywords counts every word that is a keyword, with multiplicity |
| Sentiment.HitRatio | investment_company/agents/sentiment.py:41-43 | in [-1, 1]; 0 without hits; 1 exactly for only positive hits, -1 exactly for only negative ones; the sign follows the larger count |
| Sentiment.ScoreHeadline | investment_company/agents/sentiment.py:36-43 | the same bounds and signs in terms of a headline's positive and negative keyword hits |
| Sentiment.CaseInsensitive | investment_company/agents/sentiment.py:37 | a headline and its lower-cased form score the same |
| Sentiment.HitsWithMultiplicity | investment_company/agents/sentiment.py:37-40 | the hits are counted over the lower-cased words of the headline |
| Sentiment.DropTrailingSpaces | investment_company/agents/sentiment.py:67 | removes exactly the trailing whitespace |
| Sentiment.Strip | investment_company/agents/sentiment.py:67 | the stripped text is empty exactly when the text is all whitespace |
| Sentiment.ItemScoresBounded | investment_company/agents/sentiment.py:64-71 | every per-article score lies in [-1, 1] |
| Sentiment.ItemScore | investment_company/agents/sentiment.py:65-70 | no score exactly for an article whose title and summary are blank; otherwise a score in [-1, 1] |
| Sentiment.ItemScores | investment_company/agents/sentiment.py:62-71 | at most one score per article; Sentiment.ItemScoresBounded and Sentiment.ScoresPerKeptItem state the bounds and the count |
| Sentiment.Processed | investment_company/agents/sentiment.py:63-72 | at most one processed entry per article; Sentiment.ScoresPerKeptItem makes it exactly one per article that is not skipped |
| Sentiment.PrefixStep | investment_company/agents/sentiment.py:64-72 | one more article adds nothing when its stripped text is blank, and otherwise its headline score to the scores and a `{"title", "score"}` entry to the processed list |
| Sentiment.ScoresPerKeptItem | investment_company/agents/sentiment.py:62-72 | one score and one processed entry per article that was not skipped |
| Sentiment.SkippedIffBlank | investment_company/agents/sentiment.py:65-69 | an article is skipped exactly when its title and summary are both missing or whitespace |
| Sentiment.Aggregate | investment_company/agents/sentiment.py:74-77 | 0.0 without scores, otherwise strictly inside (-1, 1) |
| Sentiment.AggregateSign | investment_company/agents/sentiment.py:77 | `tanh` of the mean has the sign of the mean |
| Sentiment.Analyze | investment_company/agents/sentiment.py:50-87 | no news gives score 0 with `news_count` 0; otherwise the score is `tanh` of the mean article score, with one rationale part naming it and the number of articles, and the processed articles as metadata |
| Sentiment.AnalyzeFacts | investment_company/agents/sentiment.py:62-87 | the score lies in (-1, 1), is 0 when every article was skipped, has the sign of the mean score, and the article count matches the processed list |
| Technical.Analyze | investment_company/agents/technical.py:18-129 | no prices gives score 0 and no metadata; insufficient indicators gives the second guard report; otherwise the score is the clamped trend score, the rationale the parts that fired plus the volatility note, and the metadata close, volatility and latest indicators |
| Technical.Trend | investment_company/agents/technical.py:59-115 | the four blocks and the volatility term produce the trend score, its parts and the annualised volatility |
| Technical.Scored | investment_company/agents/technical.py:56-129 | past both guards, the report carries the clamped trend score of the latest indicator row, its parts, and the close, the volatility and the row dict as metadata |
| Technical.ReturnsVolatility | investment_company/agents/technical.py:108-112 | the volatility is the annualised volatility of the closes: 0.0 without returns, else the population deviation times sqrt(252) |
| Technical.SmaTerm | investment_company/agents/technical.py:62-70 | fires exactly when both SMAs are defined; +0.3 ("above") exactly when SMA20 > SMA50, otherwise -0.3 ("below") |
| Technical.MacdTerm | investment_company/agents/technical.py:72-79 | fires exactly when the histogram is defined; +0.2 exactly when it is positive, otherwise -0.2 |
| Technical.RsiTerm | investment_company/agents/technical.py:81-91 | silent exactly for an undefined RSI or one in [35, 45) or (70, 75]; otherwise an amount in [-0.2, 0.2] that is positive exactly on [45, 70] |
| Technical.BandTerm | investment_company/agents/technical.py:93-106 | fires only with both bands defined; +0.1 exactly below the lower band, otherwise -0.1; with both bands defined, silent exactly between them |
| Technical.TrendScore | investment_company/agents/technical.py:59-114 | with no indicator cells only the volatility term remains; Technical.TrendWithinRange bounds it by [-1, 1] |
| Technical.CellValue | investment_company/agents/technical.py:126 | a defined cell is its float value; a missing or NaN cell is NaN |
| Technical.InsufficientIndicators | investment_company/agents/technical.py:32-40 | taken without indicators; with no `insufficient_history` flag exactly for an empty table; always when the flag is True |
| Technical.SmaStep | investment_company/agents/technical.py:62-70 | adds the SMA contribution and appends its part |
| Technical.MacdStep | investment_company/agents/technical.py:72-79 | adds the MACD contribution and appends its part |
| Technical.RsiStep | investment_company/agents/technical.py:81-91 | adds the RSI contribution and appends its part |
| Technical.BandStep | investment_company/agents/technical.py:93-106 | adds the Bollinger contribution and appends its part |
| Technical.VolatilityTerm | investment_company/agents/technical.py:113 | in [-0.2, 0.2], and for non-negative volatility never above 0.2 minus the volatility unless floored |
| Technical.RowDict | investment_company/agents/technical.py:126 | the latest-indicator dict's keys are exactly the column names |
| Technical.RowDictValue | investment_company/agents/technical.py:126 | under each column name the dict holds that column's cell as a float, NaN for a missing cell; a repeated name keeps its last column |
| Technical.SmaBands | investment_company/agents/technical.py:62-70 | nothing when either SMA is missing or NaN; +0.3 exactly when SMA20 is above SMA50; -0.3 otherwise, ties included |
| Technical.MacdBands | investment_company/agents/technical.py:72-79 | nothing for a missing or NaN histogram; +0.2 exactly when it is positive; -0.2 for zero or negative |
| Technical.RsiBands | investment_company/agents/technical.py:81-91 | +0.2 exactly on [45, 70], -0.1 under 35, -0.2 over 75, nothing on [35, 45) or (70, 75] |
| Technical.BandBands | investment_company/agents/technical.py:93-106 | +0.1 exactly below the lower band, -0.1 above the upper band, nothing between them |
| Technical.TrendWithinRange | investment_company/agents/technical.py:117 | the trend score lies in [-1, 1], so the clamp never acts; the volatility note is always the last part |
| Technical.SingleBarVolatility | investment_company/agents/technical.py:108-115 | a single bar has volatility 0.0 and gets the full +0.2 |
| Technical.ComputedTablesNeverFlagged | investment_company/agents/technical.py:32-40 | for tables with empty attrs, only an empty table takes the insufficient-history guard |
| Portfolio.Synthesize | investment_company/agents/portfolio.py:17-61 | returns or raises exactly what `Decide` describes, the order included |
| Portfolio.Decide | investment_company/agents/portfolio.py:17-61 | an empty report list is the first error; otherwise, with `SizingRaises` meaning the composite score reaches the threshold and `max_weight` is not a number: a `MaxWeightNotNumeric` error carrying that setting exactly when sizing raises, even without prices; the missing-price error exactly when sizing does not raise and there are no prices; a decision exactly when there are reports and prices and sizing does not raise. A decision carries the last date, the symbol, the composite score, the configured exposure and the reports unchanged; at most one order, none exactly under the threshold, with the hold note exactly then; the order is for the context's symbol, a buy exactly for a positive composite score and a hold otherwise, weighted by the rounded clamped score times `max_weight`, with the fixed entry rule, stop 0.08, take profit 0.2 and the joined non-empty rationales |
| Portfolio.Placement | investment_company/agents/portfolio.py:32-50 | an error exactly when the score reaches the threshold and `max_weight` is not a number, carrying that setting; otherwise at most one order, none exactly below the threshold, and the hold note exactly then; the order's symbol, action, rounded weight, entry rule, stop 0.08, take profit 0.2 and joined rationales |
| Portfolio.PlaceOrders | investment_company/agents/portfolio.py:32-50 | places exactly the orders, with their contents, and the notes `Placement` describes |
| Portfolio.ScoresOf | investment_company/agents/portfolio.py:21-27 | one score per report, in order: a finite score as it is, anything else as 0.0 |
| Portfolio.CleanScores | investment_company/agents/portfolio.py:21-27 | one score per report, each the report's finite score or 0.0 |
| Portfolio.Composite | investment_company/agents/portfolio.py:21-29 | the composite score lies between the least and greatest cleaned score |
| Portfolio.SafeMeanOfScores | investment_company/agents/portfolio.py:29 | `safe_mean` of the already-cleaned scores is their plain mean |
| Portfolio.MissingScoreDilutes | investment_company/agents/portfolio.py:21-29 | a report without a finite score adds 0 to the sum and 1 to the count |
| Portfolio.CompositeWithin | investment_company/agents/portfolio.py:21-29 | scores within [-1, 1] give a composite score within [-1, 1] |
| Portfolio.FirstRiskReport | investment_company/agents/portfolio.py:36 | finds the first Risk Officer report, with none before it; none exactly when no report is from the Risk Officer |
| Portfolio.MaxWeightSetting | investment_company/agents/portfolio.py:36-37 | 0.2 without a Risk Officer report; otherwise the first Risk Officer report's `max_weight` metadata entry, 0.2 when that entry is absent |
| Portfolio.OrderWeight | investment_company/agents/portfolio.py:38 | fails exactly for a `max_weight` that is not a float, int or bool; a NaN limit gives NaN; a finite limit (a bool as 0 or 1) gives the clamped score times the limit |
| Portfolio.OrderWeightWithin | investment_company/agents/portfolio.py:38 | with a finite limit the weight is the whole limit from a score of 1 up and 0 from a score of 0 down; with a non-negative limit it lies in [0, limit] |
| Portfolio.JoinedRationales | investment_company/agents/portfolio.py:47 | keeps every non-empty rationale and nothing else |
| Portfolio.JoinedRationalesAppend | investment_company/agents/portfolio.py:47 | joining two report lists joins their rationales in the same order, so order and repeats are kept |
| Portfolio.JoinedRationalesOne | investment_company/agents/portfolio.py:47 | one report contributes its rationale exactly when it is non-empty |
| Portfolio.BuyIffPositive | investment_company/agents/portfolio.py:42 | the order is a buy exactly when the composite score is positive |
| Portfolio.AllOrdersBuy | investment_company/agents/portfolio.py:32-42 | with a positive confidence threshold every order is a buy |
| Portfolio.WeightWithinLimit | investment_company/agents/portfolio.py:38-43 | with a non-negative numeric limit the order weight is finite, non-negative and at most the limit plus half a unit of the fourth decimal |
| Portfolio.RiskOfficerSetsLimit | investment_company/agents/portfolio.py:36-37 | when the first Risk Officer report comes from the risk officer's `analyze`, the limit is its `max_weight_per_asset` |
| Portfolio.NoRiskOfficerDefault | investment_company/agents/portfolio.py:36-37 | without a Risk Officer report the limit is 0.2 |
| Portfolio.DefaultLimitHolds | investment_company/agents/portfolio.py:37-43 | with the default limit of 0.2 the rounded weight lies in [0, 0.2] |
| Portfolio.HoldsBelowThreshold | investment_company/agents/portfolio.py:32-34 | under the threshold the decision holds cash: no order and the hold note |
| Reports.BuySymbols | investment_company/reports.py:26 | the weight dict's keys are exactly the buy symbols, each once |
| Reports.BuyWeights | investment_company/reports.py:26 | the weight dict has an entry exactly for each symbol with a buy order |
| Reports.BuyWeightIsLast | investment_company/reports.py:26 | each symbol keeps the weight of its last buy order |
| Reports.SumWeights | investment_company/reports.py:34 | the sum of finite weights is finite |
| Reports.EffectiveWeight | investment_company/reports.py:26-34 | without a buy order the weight is 0.0 |
| Reports.SingleBuy | investment_company/reports.py:26-34 | one buy order contributes exactly its weight |
| Reports.LaterBuyWins | investment_company/reports.py:26-34 | two buy orders for one symbol count once, with the later weight |
| Reports.SameSymbolOnce | investment_company/reports.py:26 | two buy orders for one symbol give a single key holding the later weight |
| Reports.DecisionWeight | investment_company/reports.py:26-34 | for a portfolio decision the weight is the order's weight when it buys and 0.0 otherwise |
| Reports.Returns | investment_company/reports.py:31 | one return per close, the first filled with 0.0; Reports.ReturnsExtendPctChange gives the rest |
| Reports.Growth | investment_company/reports.py:32 | the definition of the cumulative product `(1 + r).cumprod()`; Reports.GrowthIsPriceRatio states that it telescopes to close[i] / close[0] |
| Reports.ReturnsExtendPctChange | investment_company/reports.py:31 | the filled returns are 0.0 followed by the simple returns |
| Reports.GrowthIsPriceRatio | investment_company/reports.py:32 | the cumulative product telescopes to close[i] / close[0] |
| Reports.CurveFollowsPrice | investment_company/reports.py:32-35 | the curve starts at 1 and equals 1 + w * (close[i] / close[0] - 1) |
| Reports.Curve | investment_company/reports.py:35 | one point per return, each 1 + w * (growth - 1); starts at 1 when the first return is 0 |
| Reports.CurvePositive | investment_company/reports.py:35 | with a weight in [0, 1] the curve stays positive |
| Reports.TotalReturn | investment_company/reports.py:37 | the total return is the weight times the price return of the period |
| Reports.FinalCurveValue | investment_company/reports.py:35-37 | the last point of the curve is 1 plus the weight times the price return |
| Reports.PeriodsPerYear | investment_company/reports.py:38-40 | 52 exactly for weekly data, otherwise 252 |
| Reports.AnnualizedReturn | investment_company/reports.py:41 | zero without a position or periods; for a long position, non-negative when no period return is negative and non-positive when none is positive |
| Reports.WeightFloor | investment_company/reports.py:42 | `max(weight, 1e-9)` is at least both arguments and equals one of them |
| Reports.BacktestVolatility | investment_company/reports.py:42 | NaN exactly for fewer than two returns, otherwise finite, and non-negative under a lawful `sqrt` |
| Reports.ZeroReturnsZeroVariance | investment_company/reports.py:42 | two or more all-zero returns have zero sample variance |
| Reports.SharpeAsWritten | investment_company/reports.py:43 | for a finite or NaN volatility: 0.0 for zero volatility; NaN for NaN volatility; otherwise the ratio of return to volatility |
| Reports.SharpeGuarded | investment_company/reports.py:43 | the corrected ratio: 0.0 for zero or undefined volatility, otherwise the ratio |
| Reports.SharpeGuardedAgrees | investment_company/reports.py:43 | wherever the volatility is defined, both ratios agree |
| Reports.RunningMax | investment_company/reports.py:45 | the running maximum is at least every earlier value and equal to one of them |
| Reports.Drawdowns | investment_company/reports.py:46 | no drawdown is positive |
| Reports.MaxDrawdown | investment_company/reports.py:47 | the maximum drawdown is never positive |
| Reports.DrawdownAboveMinusOne | investment_company/reports.py:45-47 | a positive curve never draws down to -1 |
| Reports.Backtest | investment_company/reports.py:24-58 | an empty history is the only error; otherwise the first and last dates, the telescoped total return, the same value under "portfolio", the annualised return of the filled returns, the Sharpe ratio as written over the backtest volatility, and the maximum drawdown of the weighted curve, which is never positive |
| Reports.ZeroReturnZeroSharpe | investment_company/reports.py:43 | a zero return over a defined volatility gives a ratio of 0 |
| Reports.FlatWithoutWeight | investment_company/reports.py:35-47 | weight 0 gives zero total and annualised return, zero drawdown, and from two bars on a zero Sharpe ratio |
| Reports.DrawdownRange | investment_company/reports.py:35-47 | with a weight in [0, 1] the maximum drawdown lies in (-1, 0] |
| Reports.ConstantPricesZeroSharpe | investment_company/reports.py:41-43 | constant prices give a Sharpe ratio of 0 |
| Reports.SingleBarSharpeIsNaN | investment_company/reports.py:42-43 | as written, a one-bar history gives a NaN Sharpe ratio |
| Reports.SingleBarSharpeGuarded | investment_company/reports.py:42-43 | the corrected ratio is 0.0 on a one-bar history |

## Left out

- Downloading prices and fundamentals, generating mock data, the orchestrator, configuration and command-line entry point: these are I/O and wiring. `PriceData`, `download_price_history` and `fetch_fundamental_snapshot` are not part of this model.
- Floating-point rounding: arithmetic is over exact reals, with NaN and the infinities modelled explicitly. Only `round(x, 4)` is modelled to the digit.
- `sqrt` and `tanh`: these are parameters. Only the facts in `Lawful` are used.
- Lower-casing covers ASCII letters and the Kelvin sign. Other non-ASCII case mappings, including the one that lengthens U+0130, are left as identity because they cannot change a keyword hit. Unicode normalisation is not modelled. Whitespace for `split()` and `strip()` is the set Python uses for `str`.
- Open, high, low and volume columns: the model never reads them.
- Rationale strings: their number formatting (`:.1f`, `:.2%`) and the "; " joins are not modelled. The rationale is a list of tags carrying the numbers.
- `is_finite_number` on an int too large to convert to a float raises in Python. The model treats every int as finite.
- Portfolio.OrderWeight: an int `max_weight` too large for a float makes `clamp(...) * max_weight` raise `OverflowError` in Python (investment_company/agents/portfolio.py:38). The model gives the exact real product instead.
- Prices are positive reals in the model. Data.PctChange, Risk.Analyze and Technical.Analyze (through `ValidContext`) and the backtest lemmas require positive closes. In Python a zero close makes `pct_change` divide by zero, giving inf or NaN returns; those paths are not modelled.
- The weight computed at investment_company/agents/portfolio.py:30 is never used, so it is not modelled.
- Reports.Backtest: requires positive closes and a finite effective weight. A NaN or infinite order weight makes every pandas result NaN or infinite, and those cases are not modelled.
- Reports.Backtest: the weekly-or-daily choice from the pandas index `freq` attribute is the parameter `weekly`.
- Reports.Backtest: models the Sharpe ratio as written. The corrected `SharpeGuarded` stands beside it, not inside it.
- Fundamental.Analyze: models the score as written, NaN included. The corrected `ScoreIgnoringNaN` stands beside it.
- Data and Technical: pandas' `isna` on a missing cell is represented by `None` (`Option`), so NaN cells and missing columns are not told apart.
- Dates are strings taken as they are stored; `str(index.date())` formatting is not modelled.

## Findings

| source | as written | input that shows it | evidently intended | confidence | as-written member | corrected member |
|---|---|---|---|---|---|---|
| investment_company/agents/fundamental.py:38-58 | a NaN `dividend_yield` or `esg_score` passes the `is not None` test, NaN propagates through `+=` and `clamp`, and the report's score is NaN | fundamentals `{"dividend_yield": nan}` | a score in [-1, 1], with a NaN metric treated like a missing one; the correction also turns a NaN `debt_to_asset`, which as written fails `< 0.6` and counts as "leverage high" (-0.15), into no contribution | medium; not executed | Fundamental.NaNMetricGivesNaNScore | Fundamental.ScoreIgnoringNaN |
| investment_company/reports.py:42-43 | the sample standard deviation of a single return is NaN; `if volatility` treats NaN as true, so the Sharpe ratio is NaN | a price history with one bar | Sharpe ratio 0.0 when the volatility is undefined, as it is for zero volatility | medium; not executed | Reports.SingleBarSharpeIsNaN | Reports.SharpeGuarded |

=== FILE: base.dfy ===
/** The records every agent shares: the analysis context an agent reads and the
    normalised report it returns. Rationales are kept as ordered lists of tags
    rather than formatted strings; each tag carries the numbers its text shows. */
module Base {
  import opened Utils
  import opened Data

  /** One rationale part. */
  datatype Reason =
    // fundamental analyst
    | PeAttractive(pe: Num)
    | PeElevated(pe: Num)
    | PbReasonable(pb: Num)
    | PbHigh(pb: Num)
    | DividendYield(dividend: Num)
    | LeverageManageable(ratio: Num)
    | LeverageHigh(ratio: Num)
    | EsgScore(esg: Num)
    | LimitedFundamentals
    // sentiment analyst
    | NoRecentNews
    | AverageSentiment(average: real, articles: nat)
    // technical analyst
    | NoPriceHistory
    | InsufficientHistory
    | SmaAbove
    | SmaBelow
    | MacdPositive
    | MacdNegative
    | RsiNeutralPositive(rsi: real)
    | RsiOversold(rsi: real)
    | RsiOverbought(rsi: real)
    | NearLowerBand
    | NearUpperBand
    | VolatilityNote(volatility: real)
    // risk officer
    | VolatilityPenalty(volatility: real, penalty: real)

  /** A news item; a missing key and a `None` value are both `None`. */
  datatype NewsItem = NewsItem(title: Option<string>, summary: Option<string>)

  /** The bundle handed to every agent. `None` stands for a Python `None`. */
  datatype AnalysisContext = AnalysisContext(
    symbol: string,
    priceHistory: Option<seq<Bar>>,
    indicators: Option<IndicatorTable>,
    fundamentals: Option<map<string, Option<Num>>>,
    news: Option<seq<NewsItem>>)

  /** The report as the agents return it (`report.__dict__`). The score is a
      dynamically typed value because the portfolio manager also accepts
      reports whose score is missing (`Null`) or not a number. */
  datatype AgentReport = AgentReport(
    agent: string,
    symbol: string,
    score: Value,
    rationale: seq<Reason>,
    metadata: map<string, Value>)

  /** The data invariant on price series assumed throughout: closes are positive. */
  ghost predicate ValidContext(ctx: AnalysisContext)
  {
    ctx.priceHistory.Some? ==> PositiveCloses(ctx.priceHistory.value)
  }

  /** `price is None or price.empty` */
  predicate NoPrices(ctx: AnalysisContext)
  {
    ctx.priceHistory.None? || ctx.priceHistory.value == []
  }

  /** A score reported as a finite Python float. */
  predicate FiniteScore(r: AgentReport)
  {
    r.score.Float? && r.score.f.Fin?
  }
}

=== FILE: data.dfy ===
/** The indicator engine: `compute_indicators` turns a price series into a table
    of moving averages, RSI, MACD and Bollinger bands, one row per bar. */
module Data {
  import opened Utils

  /** One price bar. Only the date and the close are read by the core; open,
      high, low and volume are carried by the source but never used. */
  datatype Bar = Bar(date: string, close: real)

  /** The spec's data invariant on a price series: every close is positive. */
  ghost predicate PositiveCloses(history: seq<Bar>)
  {
    forall i :: 0 <= i < |history| ==> history[i].close > 0.0
  }

  function Closes(history: seq<Bar>): (c: seq<real>)
    ensures |c| == |history|
    ensures forall i :: 0 <= i < |history| ==> c[i] == history[i].close
  {
    seq(|history|, i requires 0 <= i < |history| => history[i].close)
  }

  function Dates(history: seq<Bar>): (d: seq<string>)
    ensures |d| == |history|
    ensures forall i :: 0 <= i < |history| ==> d[i] == history[i].date
  {
    seq(|history|, i requires 0 <= i < |history| => history[i].date)
  }

  // ------------------------------------------------ returns and volatility

  /** `close.pct_change().dropna()` on positive closes: the first bar has no
      predecessor and is dropped, every later bar gives `c[i] / c[i-1] - 1`. */
  function PctChange(c: seq<real>): (r: seq<real>)
    requires forall i :: 0 <= i < |c| ==> c[i] > 0.0
    ensures |r| == if c == [] then 0 else |c| - 1
  {
    if |c| <= 1 then []
    else seq(|c| - 1, i requires 0 <= i < |c| - 1 => c[i + 1] / c[i] - 1.0)
  }

  /** Annualised volatility as both agents compute it: the population standard
      deviation of the returns times sqrt(252), and 0.0 when there are no returns. */
  function AnnualizedVolatility(rets: seq<real>, m: MathOps): (vol: real)
    ensures rets == [] ==> vol == 0.0
    ensures Lawful(m) ==> 0.0 <= vol
  {
    if rets == [] then 0.0
    else
      var v := m.sqrt(PopVariance(rets)) * m.sqrt(252.0);
      assert Lawful(m) ==> 0.0 <= m.sqrt(PopVariance(rets)) && 0.0 <= m.sqrt(252.0);
      v
  }

  // ------------------------------------------------------------ columns

  /** The indicator table's column names. */
  datatype Column = Sma(window: int) | Ema(window: int) | Rsi | Macd | MacdSignal | MacdHist | BbUpper | BbLower

  function Digits(n: nat): (s: string)
    ensures s != []
  {
    var d := "0123456789"[n % 10];
    if n < 10 then [d] else Digits(n / 10) + [d]
  }

  /** `str(n)` for a Python int. */
  function IntToString(n: int): string
  {
    if n < 0 then "-" + Digits(-n) else Digits(n)
  }

  /** The column's name as a string key, e.g. `sma_20`. */
  function ColumnName(c: Column): string
  {
    match c
    case Sma(w) => "sma_" + IntToString(w)
    case Ema(w) => "ema_" + IntToString(w)
    case Rsi => "rsi"
    case Macd => "macd"
    case MacdSignal => "macd_signal"
    case MacdHist => "macd_hist"
    case BbUpper => "bb_upper"
    case BbLower => "bb_lower"
  }

  /** One row of the indicator table; a `None` cell is a NaN. */
  datatype IndicatorRow = IndicatorRow(date: string, cells: map<Column, Option<real>>)

  /** The indicator table: its columns in order, its rows, and the table-level
      `attrs` dictionary that downstream agents consult. */
  datatype IndicatorTable = IndicatorTable(columns: seq<Column>, rows: seq<IndicatorRow>, attrs: map<string, Value>)

  /** A pandas DataFrame is empty when it has no rows or no columns. */
  predicate IsEmpty(t: IndicatorTable)
  {
    |t.rows| == 0 || |t.columns| == 0
  }

  /** `row.get(column)`: `None` both for a missing column and for a NaN cell. */
  function Cell(cells: map<Column, Option<real>>, c: Column): Option<real>
  {
    if c in cells then cells[c] else None
  }

  // ----------------------------------------------------------- the series

  /** `close.rolling(window=w, min_periods=w).mean()` at bar `i`. */
  function SmaAt(c: seq<real>, w: int, i: nat): (r: Option<real>)
    requires w >= 1 && i < |c|
    ensures r.None? <==> i + 1 < w
    ensures r.Some? ==> Min(c[i + 1 - w .. i + 1]) <= r.value <= Max(c[i + 1 - w .. i + 1])
  {
    if i + 1 < w then None
    else
      var window := c[i + 1 - w .. i + 1];
      MeanWithin(window, Min(window), Max(window));
      Some(Mean(window))
  }

  function SmaSeries(c: seq<real>, w: int): (s: seq<Option<real>>)
    requires w >= 1
    ensures |s| == |c|
    ensures forall i :: 0 <= i < |c| ==> s[i] == SmaAt(c, w, i)
  {
    seq(|c|, i requires 0 <= i < |c| => SmaAt(c, w, i))
  }

  /** The smoothing factor of `ewm(span=w)`. */
  function Alpha(span: int): (a: real)
    requires span >= 1
    ensures 0.0 < a <= 1.0
  {
    2.0 / (span as real + 1.0)
  }

  /** `ewm(alpha, adjust=False).mean()` at position `i`: seeded by the first
      observation, then `alpha * x[i] + (1 - alpha) * ema[i-1]`. */
  function EmaAt(xs: seq<real>, i: nat, alpha: real): (e: real)
    requires i < |xs|
  {
    if i == 0 then xs[0] else alpha * xs[i] + (1.0 - alpha) * EmaAt(xs, i - 1, alpha)
  }

  function EmaSeries(xs: seq<real>, alpha: real): (s: seq<real>)
    ensures |s| == |xs|
    ensures forall i :: 0 <= i < |xs| ==> s[i] == EmaAt(xs, i, alpha)
  {
    seq(|xs|, i requires 0 <= i < |xs| => EmaAt(xs, i, alpha))
  }

  function Defined(xs: seq<real>): (s: seq<Option<real>>)
    ensures |s| == |xs|
    ensures forall i :: 0 <= i < |xs| ==> s[i] == Some(xs[i])
  {
    seq(|xs|, i requires 0 <= i < |xs| => Some(xs[i]))
  }

  /** The MACD line `EMA12 - EMA26` at bar `i`. */
  function MacdAt(c: seq<real>, i: nat): (m: real)
    requires i < |c|
  {
    EmaAt(c, i, Alpha(12)) - EmaAt(c, i, Alpha(26))
  }

  function MacdLine(c: seq<real>): (s: seq<real>)
    ensures |s| == |c|
    ensures forall i :: 0 <= i < |c| ==> s[i] == MacdAt(c, i)
  {
    seq(|c|, i requires 0 <= i < |c| => MacdAt(c, i))
  }

  /** The MACD signal line, the 9-span EMA of the MACD line, at bar `i`. */
  function SignalAt(c: seq<real>, i: nat): real
    requires i < |c|
  {
    EmaAt(MacdLine(c), i, Alpha(9))
  }

  /** The MACD histogram, line minus signal, at bar `i`. */
  function HistAt(c: seq<real>, i: nat): real
    requires i < |c|
  {
    MacdAt(c, i) - SignalAt(c, i)
  }

  /** `price.diff()` without its leading NaN: `deltas[j] = c[j+1] - c[j]`. */
  function Deltas(c: seq<real>): (d: seq<real>)
    ensures |d| == if c == [] then 0 else |c| - 1
  {
    if |c| <= 1 then [] else seq(|c| - 1, j requires 0 <= j < |c| - 1 => c[j + 1] - c[j])
  }

  /** `delta.clip(lower=0)` */
  function Gains(d: seq<real>): (g: seq<real>)
    ensures |g| == |d|
    ensures forall j :: 0 <= j < |d| ==> g[j] == (if d[j] > 0.0 then d[j] else 0.0)
  {
    seq(|d|, j requires 0 <= j < |d| => if d[j] > 0.0 then d[j] else 0.0)
  }

  /** `-delta.clip(upper=0)` */
  function Losses(d: seq<real>): (l: seq<real>)
    ensures |l| == |d|
    ensures forall j :: 0 <= j < |d| ==> l[j] == (if d[j] < 0.0 then -d[j] else 0.0)
  {
    seq(|d|, j requires 0 <= j < |d| => if d[j] < 0.0 then -d[j] else 0.0)
  }

  /** `100 - 100 / (1 + up / down)` in float arithmetic: a zero average loss
      makes the ratio infinite (RSI 100) unless the gain is zero too, when the
      ratio is 0/0 and the RSI is NaN. */
  function RsiValue(up: real, down: real): (r: Option<real>)
    requires 0.0 <= up && 0.0 <= down
    ensures r.None? <==> up == 0.0 && down == 0.0
    ensures r.Some? ==> 0.0 <= r.value <= 100.0
    ensures down == 0.0 && up > 0.0 ==> r == Some(100.0)
  {
    if down == 0.0 then (if up == 0.0 then None else Some(100.0))
    else
      var rs := up / down;
      assert 0.0 <= rs;
      assert 0.0 < 100.0 / (1.0 + rs) <= 100.0;
      Some(100.0 - 100.0 / (1.0 + rs))
  }

  /** The RSI column at bar `i`: NaN on the first bar (its delta is NaN), then
      built from the 1/14-decay averages of gains and losses, seeded at bar 1. */
  function RsiAt(c: seq<real>, i: nat): (r: Option<real>)
    requires i < |c|
    ensures i == 0 ==> r.None?
    ensures r.Some? ==> 0.0 <= r.value <= 100.0
  {
    if i == 0 then None
    else
      var d := Deltas(c);
      EmaNonNegative(Gains(d), i - 1, 1.0 / 14.0);
      EmaNonNegative(Losses(d), i - 1, 1.0 / 14.0);
      RsiValue(EmaAt(Gains(d), i - 1, 1.0 / 14.0), EmaAt(Losses(d), i - 1, 1.0 / 14.0))
  }

  /** An EMA of non-negative values is non-negative. */
  lemma EmaNonNegative(xs: seq<real>, i: nat, alpha: real)
    requires i < |xs| && 0.0 < alpha <= 1.0
    requires forall j :: 0 <= j < |xs| ==> 0.0 <= xs[j]
    ensures 0.0 <= EmaAt(xs, i, alpha)
  {
    EmaWithin(xs, i, alpha, 0.0, Max(xs));
  }

  function RsiSeries(c: seq<real>): (s: seq<Option<real>>)
    ensures |s| == |c|
    ensures forall i :: 0 <= i < |c| ==> s[i] == RsiAt(c, i)
  {
    seq(|c|, i requires 0 <= i < |c| => RsiAt(c, i))
  }

  /** `close.rolling(20, min_periods=20).std()` (sample deviation) at bar `i`. */
  function RollingStdAt(c: seq<real>, w: int, i: nat, m: MathOps): Option<real>
    requires w >= 2 && i < |c|
  {
    if i + 1 < w then None else Some(m.sqrt(SampleVariance(c[i + 1 - w .. i + 1])))
  }

  function RollingStd(c: seq<real>, w: int, m: MathOps): (s: seq<Option<real>>)
    requires w >= 2
    ensures |s| == |c|
    ensures forall i :: 0 <= i < |c| ==> s[i] == RollingStdAt(c, w, i, m)
  {
    seq(|c|, i requires 0 <= i < |c| => RollingStdAt(c, w, i, m))
  }

  /** `mid + k * std` at bar `i`, NaN where either operand is NaN. */
  function BandAt(mid: Option<real>, std: Option<real>, k: real): (b: Option<real>)
    ensures b.Some? <==> mid.Some? && std.Some?
    ensures b.Some? && 0.0 <= k && 0.0 <= std.value ==> mid.value <= b.value
  {
    if mid.Some? && std.Some? then
      (if 0.0 <= k && 0.0 <= std.value then ProductNonNegative(k, std.value); Some(mid.value + k * std.value)
       else Some(mid.value + k * std.value))
    else None
  }

  function Band(mid: seq<Option<real>>, std: seq<Option<real>>, k: real): (s: seq<Option<real>>)
    requires |mid| == |std|
    ensures |s| == |mid|
    ensures forall i :: 0 <= i < |mid| ==> s[i] == BandAt(mid[i], std[i], k)
  {
    seq(|mid|, i requires 0 <= i < |mid| => BandAt(mid[i], std[i], k))
  }

  // ---------------------------------------------------- the indicator dict

  const DefaultWindows: seq<int> := [5, 10, 20, 50, 100, 200]

  function WindowsOrDefault(windows: Option<seq<int>>): seq<int>
  {
    if windows.None? then DefaultWindows else windows.value
  }

  type Columns = map<Column, seq<Option<real>>>

  /** The dict after the loop over `ws`: an SMA and an EMA column per window. */
  function WindowColumns(c: seq<real>, ws: seq<int>): Columns
    requires forall j :: 0 <= j < |ws| ==> ws[j] >= 1
  {
    if ws == [] then map[]
    else AddWindow(WindowColumns(c, ws[..|ws| - 1]), c, ws[|ws| - 1])
  }

  /** One iteration of the loop: `sma_w`, then `ema_w`. */
  function AddWindow(cols: Columns, c: seq<real>, w: int): Columns
    requires w >= 1
  {
    cols[Sma(w) := SmaSeries(c, w)][Ema(w) := Defined(EmaSeries(c, Alpha(w)))]
  }

  /** A dict's key order after writing `key`: a key keeps the position of its first insertion. */
  function InsertKey(order: seq<Column>, key: Column): (o: seq<Column>)
    ensures key in o
    ensures key in order ==> o == order
    ensures key !in order ==> o == order + [key]
  {
    if key in order then order else order + [key]
  }

  /** The dict's key order after the loop over `ws`. */
  function WindowOrder(ws: seq<int>): seq<Column>
  {
    if ws == [] then []
    else
      var w := ws[|ws| - 1];
      InsertKey(InsertKey(WindowOrder(ws[..|ws| - 1]), Sma(w)), Ema(w))
  }

  /** `ws[j]` is the first window below 1. */
  predicate FirstBadWindow(ws: seq<int>, j: int)
  {
    0 <= j < |ws| && ws[j] < 1 && forall k :: 0 <= k < j ==> ws[k] >= 1
  }

  /** The loop over the windows. `ewm(span=w)` raises for the first window below 1. */
  method FillWindows(price: seq<real>, ws: seq<int>) returns (r: Result<(Columns, seq<Column>), IndicatorError>)
    ensures r.Err? <==> exists j :: 0 <= j < |ws| && ws[j] < 1
    ensures r.Err? ==> exists j :: FirstBadWindow(ws, j) && r.error == InvalidWindow(ws[j])
    ensures r.Ok? ==>
      && (forall j :: 0 <= j < |ws| ==> ws[j] >= 1)
      && r.value.0 == WindowColumns(price, ws)
      && r.value.1 == WindowOrder(ws)
  {
    var cols: Columns := map[];
    var order: seq<Column> := [];
    var k := 0;
    while k < |ws|
      invariant 0 <= k <= |ws|
      invariant forall j :: 0 <= j < k ==> ws[j] >= 1
      invariant cols == WindowColumns(price, ws[..k])
      invariant order == WindowOrder(ws[..k])
    {
      var w := ws[k];
      if w < 1 {
        assert FirstBadWindow(ws, k);
        return Err(InvalidWindow(w));
      }
      WindowStep(price, ws, k);
      order := InsertKey(order, Sma(w));
      order := InsertKey(order, Ema(w));
      cols := AddWindow(cols, price, w);
      k := k + 1;
    }
    assert ws[..k] == ws;
    r := Ok((cols, order));
  }

  /** One more iteration of the loop over the windows. */
  lemma WindowStep(c: seq<real>, ws: seq<int>, k: nat)
    requires k < |ws| && forall j :: 0 <= j <= k ==> ws[j] >= 1
    ensures WindowColumns(c, ws[..k + 1]) == AddWindow(WindowColumns(c, ws[..k]), c, ws[k])
    ensures WindowOrder(ws[..k + 1]) == InsertKey(InsertKey(WindowOrder(ws[..k]), Sma(ws[k])), Ema(ws[k]))
  {
    assert ws[..k + 1][..k] == ws[..k];
  }

  const FixedColumns: seq<Column> := [Rsi, Macd, MacdSignal, MacdHist, BbUpper, BbLower]

  lemma {:induction false} WindowColumnsShape(c: seq<real>, ws: seq<int>)
    requires forall j :: 0 <= j < |ws| ==> ws[j] >= 1
    ensures forall k :: k in WindowColumns(c, ws) ==> |WindowColumns(c, ws)[k]| == |c|
    ensures forall k :: k in WindowColumns(c, ws) ==> (k.Sma? || k.Ema?) && k.window in ws
    ensures forall w :: w in ws ==> Sma(w) in WindowColumns(c, ws) && Ema(w) in WindowColumns(c, ws)
    ensures forall w :: w in ws ==> WindowColumns(c, ws)[Sma(w)] == SmaSeries(c, w)
    ensures forall w :: w in ws ==> WindowColumns(c, ws)[Ema(w)] == Defined(EmaSeries(c, Alpha(w)))
  {
    if ws != [] {
      var init := ws[..|ws| - 1];
      WindowColumnsShape(c, init);
      assert forall w :: w in ws ==> w in init || w == ws[|ws| - 1];
    }
  }

  /** Whether row `i` has at least one defined (non-NaN) cell. */
  predicate HasValue(cols: Columns, i: nat)
  {
    exists k :: k in cols && i < |cols[k]| && cols[k][i].Some?
  }

  function RowAt(cols: Columns, i: nat): (cells: map<Column, Option<real>>)
    requires forall k :: k in cols ==> i < |cols[k]|
    ensures cells.Keys == cols.Keys
    ensures forall k :: k in cols ==> cells[k] == cols[k][i]
  {
    map k | k in cols :: cols[k][i]
  }

  /** `DataFrame(indicators, index=dates).dropna(how="all")` over the first `n` bars:
      a row is dropped exactly when every one of its cells is NaN. */
  function KeptRows(dates: seq<string>, cols: Columns, n: nat): (rows: seq<IndicatorRow>)
    requires n <= |dates|
    requires forall k :: k in cols ==> |cols[k]| == |dates|
    ensures |rows| <= n
    ensures n > 0 && HasValue(cols, n - 1) ==> rows != [] && rows[|rows| - 1] == IndicatorRow(dates[n - 1], RowAt(cols, n - 1))
  {
    if n == 0 then []
    else
      var row := IndicatorRow(dates[n - 1], RowAt(cols, n - 1));
      KeptRows(dates, cols, n - 1) + (if HasValue(cols, n - 1) then [row] else [])
  }

  /** A row is dropped only when all its indicators are NaN: when every row has a
      defined cell, the table keeps every bar. */
  lemma {:induction false} KeptRowsCount(dates: seq<string>, cols: Columns, n: nat)
    requires n <= |dates|
    requires forall k :: k in cols ==> |cols[k]| == |dates|
    requires forall i :: 0 <= i < n ==> HasValue(cols, i)
    ensures |KeptRows(dates, cols, n)| == n
  {
    if n > 0 {
      KeptRowsCount(dates, cols, n - 1);
    }
  }

  /** ... and keeps them in order, each with its date and its cells. */
  lemma {:induction false} AllRowsKept(dates: seq<string>, cols: Columns, n: nat)
    requires n <= |dates|
    requires forall k :: k in cols ==> |cols[k]| == |dates|
    requires forall i :: 0 <= i < n ==> HasValue(cols, i)
    ensures |KeptRows(dates, cols, n)| == n
    ensures forall i :: 0 <= i < n ==> KeptRows(dates, cols, n)[i] == IndicatorRow(dates[i], RowAt(cols, i))
  {
    KeptRowsCount(dates, cols, n);
    if n > 0 {
      AllRowsKept(dates, cols, n - 1);
      var prev := KeptRows(dates, cols, n - 1);
      var last := IndicatorRow(dates[n - 1], RowAt(cols, n - 1));
      assert KeptRows(dates, cols, n) == prev + [last];
      forall i | 0 <= i < n
        ensures KeptRows(dates, cols, n)[i] == IndicatorRow(dates[i], RowAt(cols, i))
      {
        if i < n - 1 {
          assert (prev + [last])[i] == prev[i];
        }
      }
    }
  }

  /** A row all of whose cells are NaN never reaches the table. */
  lemma {:induction false} EmptyRowsDropped(dates: seq<string>, cols: Columns, n: nat)
    requires n <= |dates|
    requires forall k :: k in cols ==> |cols[k]| == |dates|
    ensures forall r :: r in KeptRows(dates, cols, n) ==> exists k :: k in r.cells && r.cells[k].Some?
  {
    if n > 0 {
      EmptyRowsDropped(dates, cols, n - 1);
    }
  }

  /** The facts that every cell of row `i` of the table obeys. */
  ghost predicate RowFacts(cells: map<Column, Option<real>>, c: seq<real>, ws: seq<int>, i: nat, m: MathOps)
    requires i < |c|
    requires forall j :: 0 <= j < |ws| ==> ws[j] >= 1
  {
    WindowRowFacts(cells, c, ws, i) && FixedRowFacts(cells, c, ws, i, m)
  }

  /** The cells written by the loop over the windows. */
  ghost predicate WindowRowFacts(cells: map<Column, Option<real>>, c: seq<real>, ws: seq<int>, i: nat)
    requires i < |c|
    requires forall j :: 0 <= j < |ws| ==> ws[j] >= 1
  {
    && (forall w :: w in ws ==> Sma(w) in cells && cells[Sma(w)] == SmaAt(c, w, i))
    && (forall w :: w in ws ==> Ema(w) in cells && cells[Ema(w)] == Some(EmaAt(c, i, Alpha(w))))
  }

  /** The cells written by the six insertions after the loop. */
  ghost predicate FixedRowFacts(cells: map<Column, Option<real>>, c: seq<real>, ws: seq<int>, i: nat, m: MathOps)
    requires i < |c|
  {
    MomentumRowFacts(cells, c, i) && BandRowFacts(cells, c, ws, i, m)
  }

  /** The RSI and the three MACD cells. */
  ghost predicate MomentumRowFacts(cells: map<Column, Option<real>>, c: seq<real>, i: nat)
    requires i < |c|
  {
    && Rsi in cells && cells[Rsi] == RsiAt(c, i)
    && Macd in cells && cells[Macd] == Some(MacdAt(c, i))
    && MacdSignal in cells && cells[MacdSignal] == Some(SignalAt(c, i))
    && MacdHist in cells && cells[MacdHist] == Some(HistAt(c, i))
  }

  /** The two Bollinger band cells. */
  ghost predicate BandRowFacts(cells: map<Column, Option<real>>, c: seq<real>, ws: seq<int>, i: nat, m: MathOps)
    requires i < |c|
  {
    && 20 in ws
    && BbUpper in cells && cells[BbUpper] == BandAt(SmaAt(c, 20, i), RollingStdAt(c, 20, i, m), 2.0)
    && BbLower in cells && cells[BbLower] == BandAt(SmaAt(c, 20, i), RollingStdAt(c, 20, i, m), -2.0)
  }

  /** The dict after the six insertions that follow the loop over the windows. */
  function WithFixed(base: Columns, price: seq<real>, m: MathOps): (cols: Columns)
    ensures cols.Keys == base.Keys + {Rsi, Macd, MacdSignal, MacdHist, BbUpper, BbLower}
    ensures forall k :: k in base && (k.Sma? || k.Ema?) ==> cols[k] == base[k]
    ensures cols[Rsi] == RsiSeries(price)
    ensures cols[Macd] == Defined(MacdLine(price))
    ensures cols[MacdSignal] == Defined(EmaSeries(MacdLine(price), Alpha(9)))
    ensures cols[MacdHist] == Defined(HistogramSeries(price))
    ensures cols[BbUpper] == Band(SmaSeries(price, 20), RollingStd(price, 20, m), 2.0)
    ensures cols[BbLower] == Band(SmaSeries(price, 20), RollingStd(price, 20, m), -2.0)
  {
    base
      [Rsi := RsiSeries(price)]
      [Macd := Defined(MacdLine(price))]
      [MacdSignal := Defined(EmaSeries(MacdLine(price), Alpha(9)))]
      [MacdHist := Defined(HistogramSeries(price))]
      [BbUpper := Band(SmaSeries(price, 20), RollingStd(price, 20, m), 2.0)]
      [BbLower := Band(SmaSeries(price, 20), RollingStd(price, 20, m), -2.0)]
  }

  datatype IndicatorError =
    | InvalidWindow(window: int)  // `ewm(span=w)` rejects a span below 1
    | MissingSma20                // `indicators["sma_20"]` when 20 is not a window

  /** `compute_indicators`. The dict of columns is filled by a loop over the windows
      and then by six insertions; rows whose every cell is NaN are dropped. The
      source never writes the table's `attrs`, so they stay empty. */
  method ComputeIndicators(history: seq<Bar>, windows: Option<seq<int>>, m: MathOps)
    returns (r: Result<IndicatorTable, IndicatorError>)
    ensures var ws := WindowsOrDefault(windows);
      r.Err? <==> (exists j :: 0 <= j < |ws| && ws[j] < 1) || 20 !in ws
    ensures var ws := WindowsOrDefault(windows);
      r.Err? && (forall j :: 0 <= j < |ws| ==> ws[j] >= 1) ==> r.error == MissingSma20
    ensures var ws := WindowsOrDefault(windows);
      (exists j :: 0 <= j < |ws| && ws[j] < 1) ==>
        r.Err? && exists j :: FirstBadWindow(ws, j) && r.error == InvalidWindow(ws[j])
    ensures r.Ok? ==> r.value.attrs == map[]
    ensures r.Ok? ==> r.value.columns == WindowOrder(WindowsOrDefault(windows)) + FixedColumns
    ensures r.Ok? ==> |r.value.rows| == |history|
    ensures r.Ok? ==> forall i :: 0 <= i < |history| ==>
      && r.value.rows[i].date == history[i].date
      && RowFacts(r.value.rows[i].cells, Closes(history), WindowsOrDefault(windows), i, m)
    ensures r.Ok? ==> forall i :: 0 <= i < |r.value.rows| ==> r.value.rows[i].cells.Keys == set k | k in r.value.columns
  {
    var ws := WindowsOrDefault(windows);
    var price := Closes(history);
    var filled := FillWindows(price, ws);
    if filled.Err? {
      return Err(filled.error);
    }
    var (cols, order) := filled.value;
    WindowColumnsShape(price, ws);
    if Sma(20) !in cols {
      return Err(MissingSma20);
    }
    assert 20 in ws;
    cols := WithFixed(cols, price, m);
    order := order + FixedColumns;

    TableFacts(history, ws, m, cols);
    TableKeys(history, ws, m, cols, order);
    r := Ok(IndicatorTable(order, KeptRows(Dates(history), cols, |history|), map[]));
  }

  /** The MACD histogram, line minus signal, on every bar. */
  function HistogramSeries(c: seq<real>): (s: seq<real>)
    ensures |s| == |c|
    ensures forall i :: 0 <= i < |c| ==> s[i] == HistAt(c, i)
  {
    seq(|c|, i requires 0 <= i < |c| => HistAt(c, i))
  }

  /** The loop's dict has exactly the keys of its insertion order. */
  lemma {:induction false} WindowOrderKeys(c: seq<real>, ws: seq<int>)
    requires forall j :: 0 <= j < |ws| ==> ws[j] >= 1
    ensures WindowColumns(c, ws).Keys == set k | k in WindowOrder(ws)
  {
    if ws != [] {
      WindowOrderKeys(c, ws[..|ws| - 1]);
    }
  }

  /** Every kept row has a cell for each column of the dict, and no other. */
  lemma {:induction false} KeptRowsKeys(dates: seq<string>, cols: Columns, n: nat)
    requires n <= |dates|
    requires forall k :: k in cols ==> |cols[k]| == |dates|
    ensures forall i :: 0 <= i < |KeptRows(dates, cols, n)| ==> KeptRows(dates, cols, n)[i].cells.Keys == cols.Keys
  {
    if n > 0 {
      KeptRowsKeys(dates, cols, n - 1);
    }
  }

  /** The rows of the computed table have exactly the table's columns. */
  lemma TableKeys(history: seq<Bar>, ws: seq<int>, m: MathOps, cols: Columns, order: seq<Column>)
    requires forall j :: 0 <= j < |ws| ==> ws[j] >= 1
    requires cols == WithFixed(WindowColumns(Closes(history), ws), Closes(history), m)
    requires order == WindowOrder(ws) + FixedColumns
    requires forall k :: k in cols ==> |cols[k]| == |Dates(history)|
    ensures forall i :: 0 <= i < |KeptRows(Dates(history), cols, |history|)| ==>
      KeptRows(Dates(history), cols, |history|)[i].cells.Keys == set k | k in order
  {
    WindowOrderKeys(Closes(history), ws);
    assert cols.Keys == set k | k in order;
    KeptRowsKeys(Dates(history), cols, |history|);
  }

  /** Every bar of the history keeps its row, and each row obeys `RowFacts`. */
  lemma TableFacts(history: seq<Bar>, ws: seq<int>, m: MathOps, cols: Columns)
    requires forall j :: 0 <= j < |ws| ==> ws[j] >= 1
    requires 20 in ws
    requires cols == WithFixed(WindowColumns(Closes(history), ws), Closes(history), m)
    ensures forall k :: k in cols ==> |cols[k]| == |Dates(history)|
    ensures |KeptRows(Dates(history), cols, |history|)| == |history|
    ensures forall i :: 0 <= i < |history| ==>
      && KeptRows(Dates(history), cols, |history|)[i].date == history[i].date
      && RowFacts(KeptRows(Dates(history), cols, |history|)[i].cells, Closes(history), ws, i, m)
  {
    var price := Closes(history);
    var dates := Dates(history);
    ColumnLengths(price, ws, m, cols);
    forall i | 0 <= i < |history|
      ensures HasValue(cols, i) && RowFacts(RowAt(cols, i), price, ws, i, m)
    {
      TableRowFacts(price, ws, m, cols, i);
    }
    AllRowsKept(dates, cols, |history|);
    var rows := KeptRows(dates, cols, |history|);
    forall i | 0 <= i < |history|
      ensures rows[i].date == history[i].date && RowFacts(rows[i].cells, price, ws, i, m)
    {
      assert rows[i] == IndicatorRow(dates[i], RowAt(cols, i));
    }
  }

  /** Every column of the finished dict has one entry per bar. */
  lemma ColumnLengths(price: seq<real>, ws: seq<int>, m: MathOps, cols: Columns)
    requires forall j :: 0 <= j < |ws| ==> ws[j] >= 1
    requires cols == WithFixed(WindowColumns(price, ws), price, m)
    ensures forall k :: k in cols ==> |cols[k]| == |price|
  {
    WindowColumnsShape(price, ws);
  }

  /** Row `i` of the finished dict has a value and obeys `RowFacts`. */
  lemma TableRowFacts(price: seq<real>, ws: seq<int>, m: MathOps, cols: Columns, i: nat)
    requires forall j :: 0 <= j < |ws| ==> ws[j] >= 1
    requires 20 in ws && i < |price|
    requires cols == WithFixed(WindowColumns(price, ws), price, m)
    ensures forall k :: k in cols ==> |cols[k]| == |price|
    ensures HasValue(cols, i)
    ensures RowFacts(RowAt(cols, i), price, ws, i, m)
  {
    ColumnLengths(price, ws, m, cols);
    var cells := RowAt(cols, i);
    WindowCells(price, ws, m, cols, i);
    FixedCells(price, ws, m, cols, i);
    assert cells[Macd].Some?;
  }

  /** The loop's columns survive the six insertions. */
  lemma WindowCells(price: seq<real>, ws: seq<int>, m: MathOps, cols: Columns, i: nat)
    requires forall j :: 0 <= j < |ws| ==> ws[j] >= 1
    requires i < |price|
    requires cols == WithFixed(WindowColumns(price, ws), price, m)
    requires forall k :: k in cols ==> |cols[k]| == |price|
    ensures WindowRowFacts(RowAt(cols, i), price, ws, i)
  {
    var base := WindowColumns(price, ws);
    WindowColumnsShape(price, ws);
    var cells := RowAt(cols, i);
    forall w | w in ws
      ensures Sma(w) in cells && cells[Sma(w)] == SmaAt(price, w, i)
      ensures Ema(w) in cells && cells[Ema(w)] == Some(EmaAt(price, i, Alpha(w)))
    {
      assert cols[Sma(w)] == base[Sma(w)] == SmaSeries(price, w);
      assert cols[Ema(w)] == base[Ema(w)] == Defined(EmaSeries(price, Alpha(w)));
    }
  }

  /** The six inserted columns, read at row `i`. */
  lemma FixedCells(price: seq<real>, ws: seq<int>, m: MathOps, cols: Columns, i: nat)
    requires forall j :: 0 <= j < |ws| ==> ws[j] >= 1
    requires 20 in ws && i < |price|
    requires cols == WithFixed(WindowColumns(price, ws), price, m)
    requires forall k :: k in cols ==> |cols[k]| == |price|
    ensures FixedRowFacts(RowAt(cols, i), price, ws, i, m)
  {
    MomentumCells(price, ws, m, cols, i);
    BandCells(price, ws, m, cols, i);
  }

  lemma MomentumCells(price: seq<real>, ws: seq<int>, m: MathOps, cols: Columns, i: nat)
    requires forall j :: 0 <= j < |ws| ==> ws[j] >= 1
    requires i < |price|
    requires cols == WithFixed(WindowColumns(price, ws), price, m)
    requires forall k :: k in cols ==> |cols[k]| == |price|
    ensures MomentumRowFacts(RowAt(cols, i), price, i)
  {
    var cells := RowAt(cols, i);
    assert cells[Rsi] == RsiSeries(price)[i];
    assert cells[Macd] == Defined(MacdLine(price))[i];
    assert cells[MacdSignal] == Defined(EmaSeries(MacdLine(price), Alpha(9)))[i];
    assert cells[MacdHist] == Defined(HistogramSeries(price))[i];
  }

  lemma BandCells(price: seq<real>, ws: seq<int>, m: MathOps, cols: Columns, i: nat)
    requires forall j :: 0 <= j < |ws| ==> ws[j] >= 1
    requires 20 in ws && i < |price|
    requires cols == WithFixed(WindowColumns(price, ws), price, m)
    requires forall k :: k in cols ==> |cols[k]| == |price|
    ensures BandRowFacts(RowAt(cols, i), price, ws, i, m)
  {
    var cells := RowAt(cols, i);
    assert cells[BbUpper] == Band(SmaSeries(price, 20), RollingStd(price, 20, m), 2.0)[i];
    assert cells[BbLower] == Band(SmaSeries(price, 20), RollingStd(price, 20, m), -2.0)[i];
  }

  // ------------------------------------------------------------ lemmas

  /** Each EMA value is a weighted average of the inputs so far, so it stays
      within any bounds that hold for all of them. */
  lemma {:induction false} EmaWithin(xs: seq<real>, i: nat, alpha: real, lo: real, hi: real)
    requires i < |xs| && 0.0 < alpha <= 1.0
    requires forall j :: 0 <= j < |xs| ==> lo <= xs[j] <= hi
    ensures lo <= EmaAt(xs, i, alpha) <= hi
  {
    if i > 0 {
      EmaWithin(xs, i - 1, alpha, lo, hi);
      Convex(alpha, xs[i], EmaAt(xs, i - 1, alpha), lo, hi);
    }
  }

  /** A weighted average of two points of `[lo, hi]` stays in `[lo, hi]`. */
  lemma Convex(a: real, x: real, e: real, lo: real, hi: real)
    requires 0.0 < a <= 1.0 && lo <= x <= hi && lo <= e <= hi
    ensures lo <= a * x + (1.0 - a) * e <= hi
  {
    assert a * x + (1.0 - a) * e - lo == a * (x - lo) + (1.0 - a) * (e - lo);
    assert hi - (a * x + (1.0 - a) * e) == a * (hi - x) + (1.0 - a) * (hi - e);
    ProductNonNegative(a, x - lo);
    ProductNonNegative(1.0 - a, e - lo);
    ProductNonNegative(a, hi - x);
    ProductNonNegative(1.0 - a, hi - e);
  }

  lemma ProductNonNegative(p: real, q: real)
    requires 0.0 <= p && 0.0 <= q
    ensures 0.0 <= p * q
  {
  }

  /** In a table of indicator rows for `history` (what `compute_indicators`
      returns), the `ema_w` column is the `adjust=False` recurrence: it starts
      at the first close, and each later cell mixes the close with the cell
      above it using alpha = 2/(w+1). */
  lemma TableEmaRecurrence(history: seq<Bar>, ws: seq<int>, m: MathOps, rows: seq<IndicatorRow>, j: int, i: nat)
    requires forall k :: 0 <= k < |ws| ==> ws[k] >= 1
    requires |rows| == |history|
    requires forall k {:trigger RowFacts(rows[k].cells, Closes(history), ws, k, m)} :: 0 <= k < |history| ==>
      RowFacts(rows[k].cells, Closes(history), ws, k, m)
    requires 0 <= j < |ws| && 0 < i < |history|
    ensures Ema(ws[j]) in rows[0].cells && rows[0].cells[Ema(ws[j])] == Some(history[0].close)
    ensures Ema(ws[j]) in rows[i - 1].cells && rows[i - 1].cells[Ema(ws[j])].Some?
    ensures Ema(ws[j]) in rows[i].cells
    ensures rows[i].cells[Ema(ws[j])] == Some(EmaNext(Alpha(ws[j]), history[i].close, rows[i - 1].cells[Ema(ws[j])].value))
  {
    var c := Closes(history);
    var p: nat := i - 1;
    TableEmaCell(history, ws, m, rows, j, 0);
    TableEmaCell(history, ws, m, rows, j, p);
    TableEmaCell(history, ws, m, rows, j, i);
    assert c[0] == history[0].close && rows[i - 1] == rows[p];
    var alpha, x, prev := Alpha(ws[j]), history[i].close, rows[i - 1].cells[Ema(ws[j])].value;
    var cell := rows[i].cells[Ema(ws[j])];
    EmaStep(cell, c, i, alpha, x, prev);
  }

  /** The `ema_w` cell of row `r` of such a table. */
  lemma TableEmaCell(history: seq<Bar>, ws: seq<int>, m: MathOps, rows: seq<IndicatorRow>, j: int, r: nat)
    requires forall k :: 0 <= k < |ws| ==> ws[k] >= 1
    requires |rows| == |history|
    requires forall k {:trigger RowFacts(rows[k].cells, Closes(history), ws, k, m)} :: 0 <= k < |history| ==>
      RowFacts(rows[k].cells, Closes(history), ws, k, m)
    requires 0 <= j < |ws| && r < |history|
    ensures Ema(ws[j]) in rows[r].cells && rows[r].cells[Ema(ws[j])] == Some(EmaAt(Closes(history), r, Alpha(ws[j])))
  {
    EmaCell(rows[r].cells, Closes(history), ws, r, m, j);
  }

  /** The `ema_w` cell of one row, read off `RowFacts`. */
  lemma EmaCell(cells: map<Column, Option<real>>, c: seq<real>, ws: seq<int>, i: nat, m: MathOps, j: int)
    requires forall k :: 0 <= k < |ws| ==> ws[k] >= 1
    requires i < |c| && 0 <= j < |ws|
    requires RowFacts(cells, c, ws, i, m)
    ensures Ema(ws[j]) in cells && cells[Ema(ws[j])] == Some(EmaAt(c, i, Alpha(ws[j])))
  {
    assert ws[j] in ws;
  }

  /** A cell holding the EMA at bar `i` is the mix of that bar's close and the previous EMA. */
  lemma EmaStep(cell: Option<real>, xs: seq<real>, i: nat, alpha: real, x: real, prev: real)
    requires 0 < i < |xs| && x == xs[i] && prev == EmaAt(xs, i - 1, alpha)
    requires cell == Some(EmaAt(xs, i, alpha))
    ensures cell == Some(EmaNext(alpha, x, prev))
  {
    EmaStepValue(xs, i, alpha, x, prev);
  }

  /** One step of the `adjust=False` recurrence: alpha * x + (1 - alpha) * prev. */
  function EmaNext(alpha: real, x: real, prev: real): real
  {
    alpha * x + (1.0 - alpha) * prev
  }

  lemma EmaStepValue(xs: seq<real>, i: nat, alpha: real, x: real, prev: real)
    requires 0 < i < |xs| && x == xs[i] && prev == EmaAt(xs, i - 1, alpha)
    ensures EmaAt(xs, i, alpha) == EmaNext(alpha, x, prev)
  {
  }

  /** A constant series has a constant EMA. */
  lemma {:induction false} EmaOfConstant(xs: seq<real>, i: nat, alpha: real)
    requires i < |xs|
    requires forall j :: 0 <= j < |xs| ==> xs[j] == xs[0]
    ensures EmaAt(xs, i, alpha) == xs[0]
  {
    if i > 0 {
      EmaOfConstant(xs, i - 1, alpha);
      assert alpha * xs[0] + (1.0 - alpha) * xs[0] == xs[0];
    }
  }

  /** A constant close series gives a zero MACD line, signal and histogram on every bar. */
  lemma MacdOfConstant(c: seq<real>, i: nat)
    requires i < |c|
    requires forall j :: 0 <= j < |c| ==> c[j] == c[0]
    ensures MacdAt(c, i) == 0.0 && SignalAt(c, i) == 0.0 && HistAt(c, i) == 0.0
  {
    forall j | 0 <= j < |c|
      ensures MacdAt(c, j) == 0.0
    {
      EmaOfConstant(c, j, Alpha(12));
      EmaOfConstant(c, j, Alpha(26));
    }
    var line := MacdLine(c);
    EmaOfConstant(line, i, Alpha(9));
  }

  /** Wherever both bands are defined they lie symmetrically about the 20-bar SMA. */
  lemma BandsSymmetric(cells: map<Column, Option<real>>, c: seq<real>, ws: seq<int>, i: nat, m: MathOps)
    requires i < |c|
    requires forall j :: 0 <= j < |ws| ==> ws[j] >= 1
    requires RowFacts(cells, c, ws, i, m)
    requires cells[BbUpper].Some? && cells[BbLower].Some?
    ensures cells[Sma(20)].Some?
    ensures cells[BbUpper].value - cells[Sma(20)].value == cells[Sma(20)].value - cells[BbLower].value
  {
  }

  /** The RSI, where defined, is within [0, 100]; it is NaN on the first bar. */
  lemma RsiBounded(c: seq<real>, i: nat)
    requires i < |c|
    ensures i == 0 ==> RsiAt(c, i).None?
    ensures RsiAt(c, i).Some? ==> 0.0 <= RsiAt(c, i).value <= 100.0
  {
  }
}

=== FILE: fundamental.dfy ===
/** The fundamental analyst: five threshold blocks over P/E, P/B, dividend
    yield, debt/asset and ESG, each adding to a score and appending one
    rationale part, followed by a clamp to [-1, 1]. */
module Fundamental {
  import opened Utils
  import opened Base

  const Name: string := "Fundamental Analyst"

  /** The fundamentals mapping: a metric may be missing, `None`, or a float. */
  type Fundamentals = map<string, Option<Num>>

  /** `context.fundamentals or {}` */
  function FundamentalsOf(ctx: AnalysisContext): (f: Fundamentals)
    ensures ctx.fundamentals.Some? ==> f == ctx.fundamentals.value
    ensures ctx.fundamentals.None? ==> f == map[]
  {
    if ctx.fundamentals.None? then map[] else ctx.fundamentals.value
  }

  /** `fundamentals.get(key)`: `None` both for a missing key and for a `None` value. */
  function Metric(f: Fundamentals, key: string): Option<Num>
  {
    if key in f then f[key] else None
  }

  /** What one block does when it fires: the amount it adds and the part it appends. */
  datatype Contribution = Contribution(amount: Num, reason: Reason)

  /** P/E: attractive strictly between 0 and 25, elevated from 40 on, silent otherwise. */
  function PeBlock(pe: Option<Num>): (c: Option<Contribution>)
    ensures pe.None? || pe.value.NaN? || pe.value.NegInf? ==> c.None?
    ensures pe == Some(PosInf) ==> c == Some(Contribution(Fin(-0.15), PeElevated(PosInf)))
    ensures c.Some? ==> c.value.amount == Fin(0.25) || c.value.amount == Fin(-0.15)
  {
    if pe.None? then None
    else if Above(pe.value, 0.0) && Below(pe.value, 25.0) then Some(Contribution(Fin(0.25), PeAttractive(pe.value)))
    else if AtLeast(pe.value, 40.0) then Some(Contribution(Fin(-0.15), PeElevated(pe.value)))
    else None
  }

  /** P/B: reasonable under 4, high over 8, silent otherwise. */
  function PbBlock(pb: Option<Num>): (c: Option<Contribution>)
    ensures pb.None? || pb.value.NaN? ==> c.None?
    ensures pb == Some(NegInf) ==> c == Some(Contribution(Fin(0.1), PbReasonable(NegInf)))
    ensures pb == Some(PosInf) ==> c == Some(Contribution(Fin(-0.1), PbHigh(PosInf)))
    ensures c.Some? ==> c.value.amount == Fin(0.1) || c.value.amount == Fin(-0.1)
  {
    if pb.None? then None
    else if Below(pb.value, 4.0) then Some(Contribution(Fin(0.1), PbReasonable(pb.value)))
    else if Above(pb.value, 8.0) then Some(Contribution(Fin(-0.1), PbHigh(pb.value)))
    else None
  }

  /** `min(dividend_yield * 5, 0.1)` */
  function DividendAmount(y: Num): (a: Num)
    ensures a.NaN? <==> y.NaN?
    ensures !a.NaN? ==> a.Fin? || a.NegInf?
    ensures a.Fin? ==> a.r <= 0.1
  {
    MinNum(Scale(5.0, y), 0.1)
  }

  /** A present dividend yield always fires, with an amount of at most 0.1 that is NaN only for a NaN yield. */
  function DividendBlock(y: Option<Num>): (c: Option<Contribution>)
    ensures c.Some? <==> y.Some?
    ensures c.Some? ==> c.value.reason == DividendYield(y.value)
    ensures c.Some? ==> (c.value.amount.NaN? <==> y.value.NaN?) && !c.value.amount.PosInf?
    ensures c.Some? && c.value.amount.Fin? ==> c.value.amount.r <= 0.1
  {
    if y.None? then None else Some(Contribution(DividendAmount(y.value), DividendYield(y.value)))
  }

  /** Debt/asset: manageable under 0.6, high otherwise (NaN included, as every comparison with it fails). */
  function DebtBlock(d: Option<Num>): (c: Option<Contribution>)
    ensures c.Some? <==> d.Some?
    ensures d == Some(NaN) ==> c == Some(Contribution(Fin(-0.15), LeverageHigh(NaN)))
    ensures d == Some(NegInf) ==> c == Some(Contribution(Fin(0.15), LeverageManageable(NegInf)))
  {
    if d.None? then None
    else if Below(d.value, 0.6) then Some(Contribution(Fin(0.15), LeverageManageable(d.value)))
    else Some(Contribution(Fin(-0.15), LeverageHigh(d.value)))
  }

  /** `clamp((esg - 50) / 200, -0.05, 0.1)` */
  function EsgAmount(esg: Num): (a: Num)
    ensures a.NaN? <==> esg.NaN?
    ensures !esg.NaN? ==> a.Fin? && -0.05 <= a.r <= 0.1
  {
    ClampNum(Scale(1.0 / 200.0, Add(esg, Fin(-50.0))), -0.05, 0.1)
  }

  /** A present ESG score always fires; its amount is NaN for a NaN score and otherwise finite in [-0.05, 0.1]. */
  function EsgBlock(esg: Option<Num>): (c: Option<Contribution>)
    ensures c.Some? <==> esg.Some?
    ensures c.Some? ==> c.value.reason == EsgScore(esg.value)
    ensures c.Some? ==> (c.value.amount.NaN? <==> esg.value.NaN?)
    ensures c.Some? && !esg.value.NaN? ==> c.value.amount.Fin? && -0.05 <= c.value.amount.r <= 0.1
  {
    if esg.None? then None else Some(Contribution(EsgAmount(esg.value), EsgScore(esg.value)))
  }

  /** `score += amount` when the block fires. */
  function AddBlock(score: Num, c: Option<Contribution>): Num
  {
    if c.Some? then Add(score, c.value.amount) else score
  }

  /** The rationale part a block appends, if it fires. */
  function Part(c: Option<Contribution>): seq<Reason>
  {
    if c.Some? then [c.value.reason] else []
  }

  /** The score before the final clamp: the five contributions added in block order. */
  function RawScore(f: Fundamentals): (s: Num)
    ensures Metric(f, "dividend_yield") == Some(NaN) ==> s.NaN?
    ensures Metric(f, "esg_score") == Some(NaN) ==> s.NaN?
  {
    var s1 := AddBlock(Fin(0.0), PeBlock(Metric(f, "pe_ratio")));
    var s2 := AddBlock(s1, PbBlock(Metric(f, "pb_ratio")));
    var s3 := AddBlock(s2, DividendBlock(Metric(f, "dividend_yield")));
    var s4 := AddBlock(s3, DebtBlock(Metric(f, "debt_to_asset")));
    AddBlock(s4, EsgBlock(Metric(f, "esg_score")))
  }

  /** `float(clamp(score, -1.0, 1.0))` */
  function Score(f: Fundamentals): (s: Num)
    ensures s.NaN? <==> RawScore(f).NaN?
    ensures !s.NaN? ==> s.Fin? && -1.0 <= s.r <= 1.0
  {
    ClampNum(RawScore(f), -1.0, 1.0)
  }

  /** The rationale parts, one per block that fired, in block order. */
  function Reasons(f: Fundamentals): seq<Reason>
  {
    Part(PeBlock(Metric(f, "pe_ratio"))) + Part(PbBlock(Metric(f, "pb_ratio")))
      + Part(DividendBlock(Metric(f, "dividend_yield"))) + Part(DebtBlock(Metric(f, "debt_to_asset")))
      + Part(EsgBlock(Metric(f, "esg_score")))
  }

  /** The fundamentals mapping republished as the report's metadata. */
  function Metadata(f: Fundamentals): (md: map<string, Value>)
    ensures md.Keys == f.Keys
    ensures forall k :: k in f ==> md[k] == (if f[k].Some? then Float(f[k].value) else Null)
  {
    map k | k in f :: if f[k].Some? then Float(f[k].value) else Null
  }

  /** `FundamentalAnalyst.analyze`: the five blocks update `score` and `rationale` in turn. */
  method Analyze(ctx: AnalysisContext) returns (r: AgentReport)
    ensures r.agent == Name && r.symbol == ctx.symbol
    ensures r.score == Float(Score(FundamentalsOf(ctx)))
    ensures Reasons(FundamentalsOf(ctx)) == [] ==> r.rationale == [LimitedFundamentals]
    ensures Reasons(FundamentalsOf(ctx)) != [] ==> r.rationale == Reasons(FundamentalsOf(ctx))
    ensures r.metadata == Metadata(FundamentalsOf(ctx))
  {
    var f := FundamentalsOf(ctx);
    var score := Fin(0.0);
    var rationale: seq<Reason> := [];
    score, rationale := PeStep(score, rationale, Metric(f, "pe_ratio"));
    assert rationale == Part(PeBlock(Metric(f, "pe_ratio")));
    score, rationale := PbStep(score, rationale, Metric(f, "pb_ratio"));
    score, rationale := DividendStep(score, rationale, Metric(f, "dividend_yield"));
    score, rationale := DebtStep(score, rationale, Metric(f, "debt_to_asset"));
    score, rationale := EsgStep(score, rationale, Metric(f, "esg_score"));
    assert score == RawScore(f) && rationale == Reasons(f);
    score := ClampNum(score, -1.0, 1.0);
    r := AgentReport(Name, ctx.symbol, Float(score),
                     if rationale == [] then [LimitedFundamentals] else rationale,
                     Metadata(f));
  }

  /** The P/E block of `analyze`. */
  method PeStep(score: Num, rationale: seq<Reason>, pe: Option<Num>) returns (score': Num, rationale': seq<Reason>)
    ensures score' == AddBlock(score, PeBlock(pe)) && rationale' == rationale + Part(PeBlock(pe))
  {
    score', rationale' := score, rationale;
    if pe.Some? {
      if Above(pe.value, 0.0) && Below(pe.value, 25.0) {
        score' := Add(score', Fin(0.25));
        rationale' := rationale' + [PeAttractive(pe.value)];
      } else if AtLeast(pe.value, 40.0) {
        score' := Add(score', Fin(-0.15));
        rationale' := rationale' + [PeElevated(pe.value)];
      }
    }
  }

  /** The P/B block of `analyze`. */
  method PbStep(score: Num, rationale: seq<Reason>, pb: Option<Num>) returns (score': Num, rationale': seq<Reason>)
    ensures score' == AddBlock(score, PbBlock(pb)) && rationale' == rationale + Part(PbBlock(pb))
  {
    score', rationale' := score, rationale;
    if pb.Some? {
      if Below(pb.value, 4.0) {
        score' := Add(score', Fin(0.1));
        rationale' := rationale' + [PbReasonable(pb.value)];
      } else if Above(pb.value, 8.0) {
        score' := Add(score', Fin(-0.1));
        rationale' := rationale' + [PbHigh(pb.value)];
      }
    }
  }

  /** The dividend block of `analyze`. */
  method DividendStep(score: Num, rationale: seq<Reason>, dividend: Option<Num>) returns (score': Num, rationale': seq<Reason>)
    ensures score' == AddBlock(score, DividendBlock(dividend)) && rationale' == rationale + Part(DividendBlock(dividend))
  {
    score', rationale' := score, rationale;
    if dividend.Some? {
      score' := Add(score', MinNum(Scale(5.0, dividend.value), 0.1));
      rationale' := rationale' + [DividendYield(dividend.value)];
    }
  }

  /** The leverage block of `analyze`. */
  method DebtStep(score: Num, rationale: seq<Reason>, debt: Option<Num>) returns (score': Num, rationale': seq<Reason>)
    ensures score' == AddBlock(score, DebtBlock(debt)) && rationale' == rationale + Part(DebtBlock(debt))
  {
    score', rationale' := score, rationale;
    if debt.Some? {
      if Below(debt.value, 0.6) {
        score' := Add(score', Fin(0.15));
        rationale' := rationale' + [LeverageManageable(debt.value)];
      } else {
        score' := Add(score', Fin(-0.15));
        rationale' := rationale' + [LeverageHigh(debt.value)];
      }
    }
  }

  /** The ESG block of `analyze`. */
  method EsgStep(score: Num, rationale: seq<Reason>, esg: Option<Num>) returns (score': Num, rationale': seq<Reason>)
    ensures score' == AddBlock(score, EsgBlock(esg)) && rationale' == rationale + Part(EsgBlock(esg))
  {
    score', rationale' := score, rationale;
    if esg.Some? {
      var adjustment := ClampNum(Scale(1.0 / 200.0, Add(esg.value, Fin(-50.0))), -0.05, 0.1);
      score' := Add(score', adjustment);
      rationale' := rationale' + [EsgScore(esg.value)];
    }
  }

  // ------------------------------------------------------------ properties

  /** P/E adds +0.25 exactly on (0, 25), -0.15 exactly from 40 on, and nothing otherwise. */
  lemma PeBands(x: real)
    ensures 0.0 < x < 25.0 <==> PeBlock(Some(Fin(x))) == Some(Contribution(Fin(0.25), PeAttractive(Fin(x))))
    ensures 40.0 <= x <==> PeBlock(Some(Fin(x))) == Some(Contribution(Fin(-0.15), PeElevated(Fin(x))))
    ensures (x <= 0.0 || 25.0 <= x < 40.0) <==> PeBlock(Some(Fin(x))).None?
  {
  }

  /** P/B adds +0.1 under 4, -0.1 over 8 and nothing on [4, 8]. */
  lemma PbBands(x: real)
    ensures x < 4.0 <==> PbBlock(Some(Fin(x))) == Some(Contribution(Fin(0.1), PbReasonable(Fin(x))))
    ensures 8.0 < x <==> PbBlock(Some(Fin(x))) == Some(Contribution(Fin(-0.1), PbHigh(Fin(x))))
    ensures 4.0 <= x <= 8.0 <==> PbBlock(Some(Fin(x))).None?
  {
  }

  /** The dividend contribution is `min(5y, 0.1)`: never above 0.1 and monotone in the yield. */
  lemma DividendMonotone(y1: real, y2: real)
    requires y1 <= y2
    ensures DividendAmount(Fin(y1)).Fin? && DividendAmount(Fin(y2)).Fin?
    ensures DividendAmount(Fin(y1)).r <= DividendAmount(Fin(y2)).r <= 0.1
    ensures DividendAmount(Fin(y1)).r == (if 5.0 * y1 > 0.1 then 0.1 else 5.0 * y1)
  {
  }

  /** A present debt/asset ratio always moves the score by exactly 0.15 one way or the other. */
  lemma DebtAlwaysFires(d: Num)
    ensures DebtBlock(Some(d)).Some?
    ensures DebtBlock(Some(d)).value.amount == Fin(0.15) || DebtBlock(Some(d)).value.amount == Fin(-0.15)
    ensures DebtBlock(Some(d)).value.amount == Fin(0.15) <==> Below(d, 0.6)
  {
  }

  /** A present, non-NaN ESG score contributes a finite value in [-0.05, 0.1]. */
  lemma EsgWithin(esg: Num)
    requires !esg.NaN?
    ensures EsgBlock(Some(esg)).value.amount.Fin?
    ensures -0.05 <= EsgBlock(Some(esg)).value.amount.r <= 0.1
  {
  }

  /** With no metric at all, the score is 0.0 and the rationale the fallback note. */
  lemma NoFundamentals(f: Fundamentals)
    requires forall k :: k in f ==> f[k].None?
    ensures Score(f) == Fin(0.0)
    ensures Reasons(f) == []
  {
    assert Metric(f, "pe_ratio") == None && Metric(f, "pb_ratio") == None;
    assert Metric(f, "dividend_yield") == None && Metric(f, "debt_to_asset") == None;
    assert Metric(f, "esg_score") == None;
    assert RawScore(f) == Fin(0.0);
  }

  /** Adding a finite amount or -inf never produces +inf, and only a NaN operand gives NaN. */
  lemma AddBlockNaN(s: Num, c: Option<Contribution>)
    requires !s.PosInf?
    requires c.Some? ==> !c.value.amount.PosInf?
    ensures !AddBlock(s, c).PosInf?
    ensures AddBlock(s, c).NaN? <==> s.NaN? || (c.Some? && c.value.amount.NaN?)
  {
  }

  /** The score is NaN exactly when a present dividend yield or ESG score is NaN:
      `clamp` lets NaN through, so the promised range [-1, 1] is lost. */
  lemma {:induction false} NaNMetricGivesNaNScore(f: Fundamentals)
    ensures Score(f).NaN? <==>
      Metric(f, "dividend_yield") == Some(NaN) || Metric(f, "esg_score") == Some(NaN)
  {
    var pe := PeBlock(Metric(f, "pe_ratio"));
    var pb := PbBlock(Metric(f, "pb_ratio"));
    var dy := DividendBlock(Metric(f, "dividend_yield"));
    var debt := DebtBlock(Metric(f, "debt_to_asset"));
    var esg := EsgBlock(Metric(f, "esg_score"));
    var s1 := AddBlock(Fin(0.0), pe);
    AddBlockNaN(Fin(0.0), pe);
    var s2 := AddBlock(s1, pb);
    AddBlockNaN(s1, pb);
    var s3 := AddBlock(s2, dy);
    AddBlockNaN(s2, dy);
    var s4 := AddBlock(s3, debt);
    AddBlockNaN(s3, debt);
    AddBlockNaN(s4, esg);
  }

  /** A concrete witness: a NaN dividend yield alone makes the score NaN. */
  lemma NaNDividendExample()
    ensures Score(map["dividend_yield" := Some(NaN)]) == NaN
  {
    NaNMetricGivesNaNScore(map["dividend_yield" := Some(NaN)]);
  }

  /** When no metric is NaN the score is a finite value in [-1, 1]. */
  lemma ScoreBounded(f: Fundamentals)
    requires Metric(f, "dividend_yield") != Some(NaN) && Metric(f, "esg_score") != Some(NaN)
    ensures Score(f).Fin? && -1.0 <= Score(f).r <= 1.0
  {
    NaNMetricGivesNaNScore(f);
  }

  /** Addition result is finite only when both operands are. */
  lemma AddFinite(a: Num, b: Num)
    ensures Add(a, b).Fin? ==> a.Fin? && b.Fin?
  {
  }

  /** Every contribution is at most 0.25 + 0.1 + 0.1 + 0.15 + 0.1 = 0.7 in total, so the
      upper clamp never acts: a finite score is the raw sum, floored at -1. */
  lemma {:induction false} RawAtMost(f: Fundamentals)
    ensures RawScore(f).Fin? ==> RawScore(f).r <= 0.7
    ensures RawScore(f).Fin? ==> Score(f) == Fin(if RawScore(f).r < -1.0 then -1.0 else RawScore(f).r)
  {
    var pe := PeBlock(Metric(f, "pe_ratio"));
    var pb := PbBlock(Metric(f, "pb_ratio"));
    var dy := DividendBlock(Metric(f, "dividend_yield"));
    var debt := DebtBlock(Metric(f, "debt_to_asset"));
    var esg := EsgBlock(Metric(f, "esg_score"));
    var s1 := AddBlock(Fin(0.0), pe);
    var s2 := AddBlock(s1, pb);
    var s3 := AddBlock(s2, dy);
    var s4 := AddBlock(s3, debt);
    var s5 := AddBlock(s4, esg);
    if s5.Fin? {
      if esg.Some? { AddFinite(s4, esg.value.amount); }
      if debt.Some? { AddFinite(s3, debt.value.amount); }
      if dy.Some? { AddFinite(s2, dy.value.amount); }
      if pb.Some? { AddFinite(s1, pb.value.amount); }
      if pe.Some? { AddFinite(Fin(0.0), pe.value.amount); }
      assert s1.r <= 0.25;
      assert s2.r <= 0.35;
      assert s3.r <= 0.45;
      assert s4.r <= 0.6;
      assert s5.r <= 0.7;
    }
  }

  /** The rank of a rationale part: the block that appends it. */
  function Rank(r: Reason): nat
  {
    match r
    case PeAttractive(_) => 0
    case PeElevated(_) => 0
    case PbReasonable(_) => 1
    case PbHigh(_) => 1
    case DividendYield(_) => 2
    case LeverageManageable(_) => 3
    case LeverageHigh(_) => 3
    case EsgScore(_) => 4
    case _ => 5
  }

  /** Parts whose blocks come strictly in order. */
  predicate InBlockOrder(rs: seq<Reason>)
  {
    forall i, j :: 0 <= i < j < |rs| ==> Rank(rs[i]) < Rank(rs[j])
  }

  /** Appending at most one part of rank `k` after parts of lower rank keeps the order. */
  lemma AppendPart(xs: seq<Reason>, p: seq<Reason>, k: nat)
    requires InBlockOrder(xs) && forall x :: x in xs ==> Rank(x) < k
    requires |p| <= 1 && forall y :: y in p ==> Rank(y) == k
    ensures InBlockOrder(xs + p)
    ensures forall x :: x in xs + p ==> Rank(x) <= k
  {
    if p != [] {
      forall i, j | 0 <= i < j < |xs + p|
        ensures Rank((xs + p)[i]) < Rank((xs + p)[j])
      {
        if j < |xs| {
          assert (xs + p)[i] == xs[i] && (xs + p)[j] == xs[j];
        } else {
          assert (xs + p)[i] == xs[i] && (xs + p)[j] == p[0];
        }
      }
    } else {
      assert xs + p == xs;
    }
  }

  /** Each block appends at most one part, of that block's rank. */
  lemma PartRanks(f: Fundamentals)
    ensures |Part(PeBlock(Metric(f, "pe_ratio")))| <= 1
    ensures forall y :: y in Part(PeBlock(Metric(f, "pe_ratio"))) ==> Rank(y) == 0
    ensures |Part(PbBlock(Metric(f, "pb_ratio")))| <= 1
    ensures forall y :: y in Part(PbBlock(Metric(f, "pb_ratio"))) ==> Rank(y) == 1
    ensures |Part(DividendBlock(Metric(f, "dividend_yield")))| <= 1
    ensures forall y :: y in Part(DividendBlock(Metric(f, "dividend_yield"))) ==> Rank(y) == 2
    ensures |Part(DebtBlock(Metric(f, "debt_to_asset")))| <= 1
    ensures forall y :: y in Part(DebtBlock(Metric(f, "debt_to_asset"))) ==> Rank(y) == 3
    ensures |Part(EsgBlock(Metric(f, "esg_score")))| <= 1
    ensures forall y :: y in Part(EsgBlock(Metric(f, "esg_score"))) ==> Rank(y) == 4
  {
  }

  /** At most one part per block, in the block order PE, PB, dividend, leverage, ESG. */
  lemma ReasonsInBlockOrder(f: Fundamentals)
    ensures InBlockOrder(Reasons(f))
    ensures forall x :: x in Reasons(f) ==> Rank(x) < 5
  {
    var a := Part(PeBlock(Metric(f, "pe_ratio")));
    var b := Part(PbBlock(Metric(f, "pb_ratio")));
    var c := Part(DividendBlock(Metric(f, "dividend_yield")));
    var d := Part(DebtBlock(Metric(f, "debt_to_asset")));
    var e := Part(EsgBlock(Metric(f, "esg_score")));
    PartRanks(f);
    AppendPart([], a, 0);
    assert [] + a == a;
    AppendPart(a, b, 1);
    AppendPart(a + b, c, 2);
    AppendPart(a + b + c, d, 3);
    AppendPart(a + b + c + d, e, 4);
    assert Reasons(f) == a + b + c + d + e;
  }

  /** The dividend, leverage and ESG parts appear exactly when their metric is present. */
  lemma ReasonsPresent(f: Fundamentals)
    ensures (exists x :: x in Reasons(f) && Rank(x) == 2) <==> Metric(f, "dividend_yield").Some?
    ensures (exists x :: x in Reasons(f) && Rank(x) == 3) <==> Metric(f, "debt_to_asset").Some?
    ensures (exists x :: x in Reasons(f) && Rank(x) == 4) <==> Metric(f, "esg_score").Some?
  {
    var a := Part(PeBlock(Metric(f, "pe_ratio")));
    var b := Part(PbBlock(Metric(f, "pb_ratio")));
    var c := Part(DividendBlock(Metric(f, "dividend_yield")));
    var d := Part(DebtBlock(Metric(f, "debt_to_asset")));
    var e := Part(EsgBlock(Metric(f, "esg_score")));
    var rs := Reasons(f);
    PartRanks(f);
    assert rs == a + b + c + d + e;
    forall x | x in rs
      ensures Rank(x) == 2 ==> x in c
      ensures Rank(x) == 3 ==> x in d
      ensures Rank(x) == 4 ==> x in e
    {
      assert x in a || x in b || x in c || x in d || x in e;
    }
    if Metric(f, "dividend_yield").Some? { assert c[0] in rs; }
    if Metric(f, "debt_to_asset").Some? {
      DebtAlwaysFires(Metric(f, "debt_to_asset").value);
      assert d[0] in rs;
    }
    if Metric(f, "esg_score").Some? { assert e[0] in rs; }
  }

  // ------------------------------------------------- the NaN-safe variant

  /** A NaN metric treated like a missing one. */
  function DropNaN(f: Fundamentals): (g: Fundamentals)
    ensures g.Keys == f.Keys
    ensures forall k :: k in f ==> g[k] == (if f[k] == Some(NaN) then None else f[k])
  {
    map k | k in f :: if f[k] == Some(NaN) then None else f[k]
  }

  /** The score the clamp evidently intends: NaN metrics are skipped, and the result
      is always a finite number in [-1, 1]. */
  function ScoreIgnoringNaN(f: Fundamentals): (s: Num)
    ensures s.Fin? && -1.0 <= s.r <= 1.0
  {
    var g := DropNaN(f);
    ScoreBounded(g);
    Score(g)
  }

  /** On inputs free of NaN the NaN-safe score agrees with the code. */
  lemma ScoreIgnoringNaNAgrees(f: Fundamentals)
    requires forall k :: k in f ==> f[k] != Some(NaN)
    ensures ScoreIgnoringNaN(f) == Score(f)
  {
    assert DropNaN(f) == f;
  }
}

=== FILE: portfolio.dfy ===
/** The portfolio manager: averages the agents' scores (a missing or non-finite
    score counts as 0.0), holds cash under a confidence threshold, and otherwise
    places one order sized by the Risk Officer's `max_weight`. */
module Portfolio {
  import opened Utils
  import opened Data
  import opened Base
  import Risk

  /** The manager's configuration (the dataclass fields, never mutated). */
  datatype PortfolioManager = PortfolioManager(name: string, maxGrossExposure: real, minConfidence: real)

  const DefaultManager: PortfolioManager := PortfolioManager("Portfolio Manager", 1.0, 0.1)

  const EntryRule: string := "SMA20>SMA50 & MACD histogram positive"
  const HoldNote: string := "Confidence below threshold; holding cash"
  const DiversifyNote: string := "Diversify across sectors; keep tech exposure <50%"

  /** The position limit used when no Risk Officer report carries one. */
  const DefaultMaxWeight: real := 0.2

  datatype Action = Buy | Hold

  /** One order. The rationale keeps the non-empty agent rationales in report
      order instead of joining them with "; ". */
  datatype Order = Order(
    symbol: string,
    action: Action,
    weight: Num,
    entryRule: string,
    stop: real,
    takeProfit: real,
    rationale: seq<seq<Reason>>)

  datatype Decision = Decision(
    asOf: string,
    symbol: string,
    compositeScore: real,
    orders: seq<Order>,
    maxGrossExposure: real,
    notes: string,
    agentReports: seq<AgentReport>)

  /** The exceptions `synthesize` can raise: an empty report list, a `max_weight`
      that cannot be multiplied by a float, and a context without a last price date. */
  datatype PortfolioError = EmptyReports | MaxWeightNotNumeric(maxWeight: Value) | NoPriceIndex

  // ------------------------------------------------------------- scores

  /** One entry of `scores`: the report's score if it is a finite number, else 0.0. */
  function CleanScore(r: AgentReport): real
  {
    if IsFiniteNumber(r.score) then AsReal(r.score) else 0.0
  }

  function CleanScores(reports: seq<AgentReport>): (s: seq<real>)
    ensures |s| == |reports|
    ensures forall i :: 0 <= i < |reports| ==> s[i] == CleanScore(reports[i])
  {
    seq(|reports|, i requires 0 <= i < |reports| => CleanScore(reports[i]))
  }

  /** The scores as the Python floats handed to `safe_mean`. */
  function AsFloats(s: seq<real>): (v: seq<Value>)
    ensures |v| == |s|
    ensures forall i :: 0 <= i < |s| ==> v[i] == Float(Fin(s[i]))
  {
    seq(|s|, i requires 0 <= i < |s| => Float(Fin(s[i])))
  }

  /** `composite_score`: the mean over every report, so a report without a usable
      score pulls the mean towards 0.0 rather than being ignored. */
  function Composite(reports: seq<AgentReport>): (avg: real)
    requires reports != []
    ensures Min(CleanScores(reports)) <= avg <= Max(CleanScores(reports))
  {
    var s := CleanScores(reports);
    MeanWithin(s, Min(s), Max(s));
    Mean(s)
  }

  /** Every score is finite already, so `safe_mean` filters nothing out and is
      the plain mean: the composite score is always a finite float. */
  lemma SafeMeanOfScores(s: seq<real>)
    requires s != []
    ensures SafeMean(AsFloats(s)) == Mean(s)
  {
    var v := AsFloats(s);
    FiniteEntriesAllFinite(v);
    assert FiniteEntries(v) == s;
  }

  /** A report with a missing or non-finite score adds 0.0 to the sum and one
      to the count: it dilutes the composite score instead of being skipped. */
  lemma MissingScoreDilutes(reports: seq<AgentReport>, r: AgentReport)
    requires reports != [] && !IsFiniteNumber(r.score)
    ensures Composite(reports + [r]) == Sum(CleanScores(reports)) / (|reports| + 1) as real
  {
    var s := CleanScores(reports);
    assert CleanScores(reports + [r]) == s + [0.0];
    SumAppend(s, [0.0]);
    assert Sum(s + [0.0]) == Sum(s);
  }

  /** Scores inside [-1, 1] give a composite score inside [-1, 1]. */
  lemma CompositeWithin(reports: seq<AgentReport>)
    requires reports != []
    requires forall i :: 0 <= i < |reports| ==> -1.0 <= CleanScore(reports[i]) <= 1.0
    ensures -1.0 <= Composite(reports) <= 1.0
  {
    MeanWithin(CleanScores(reports), -1.0, 1.0);
  }

  // --------------------------------------------------------- max_weight

  /** The `next(...)` search: the index of the first report from the Risk Officer. */
  function FirstRiskReport(reports: seq<AgentReport>): (k: Option<nat>)
    ensures k.Some? ==> k.value < |reports| && reports[k.value].agent == Risk.Name
    ensures k.Some? ==> forall j :: 0 <= j < k.value ==> reports[j].agent != Risk.Name
    ensures k.None? ==> forall j :: 0 <= j < |reports| ==> reports[j].agent != Risk.Name
  {
    if reports == [] then None
    else if reports[0].agent == Risk.Name then Some(0)
    else
      var k := FirstRiskReport(reports[1..]);
      if k.Some? then Some(k.value + 1) else None
  }

  /** `max_weight`: the first Risk Officer report's metadata entry, else 0.2. */
  function MaxWeightSetting(reports: seq<AgentReport>): (w: Value)
    ensures (forall j :: 0 <= j < |reports| ==> reports[j].agent != Risk.Name) ==> w == Float(Fin(DefaultMaxWeight))
    ensures forall j ::
      (0 <= j < |reports| && reports[j].agent == Risk.Name && (forall i :: 0 <= i < j ==> reports[i].agent != Risk.Name))
      ==> w == Get(reports[j].metadata, "max_weight", Float(Fin(DefaultMaxWeight)))
  {
    var k := FirstRiskReport(reports);
    if k.Some? then Get(reports[k.value].metadata, "max_weight", Float(Fin(DefaultMaxWeight)))
    else Float(Fin(DefaultMaxWeight))
  }

  /** `clamp(avg_score, 0, 1) * max_weight`: a float times a float, an int or a
      bool (a bool counting as 0 or 1); a NaN or infinite float follows IEEE
      multiplication; any other `max_weight` raises, which is `None` here. */
  function OrderWeight(avg: real, maxWeight: Value): (w: Option<Num>)
    ensures w.None? <==> !(maxWeight.Float? || maxWeight.Int? || maxWeight.Bool?)
    ensures maxWeight.Float? && maxWeight.f.NaN? ==> w == Some(NaN)
    ensures IsFiniteNumber(maxWeight) ==> w == Some(Fin(Clamp(avg, 0.0, 1.0) * AsReal(maxWeight)))
  {
    if IsFiniteNumber(maxWeight) then Some(Fin(Clamp(avg, 0.0, 1.0) * AsReal(maxWeight)))
    else if maxWeight.Float? then Some(Scale(Clamp(avg, 0.0, 1.0), maxWeight.f))
    else None
  }

  /** For a finite `max_weight` the weight is a fraction of it: all of it from
      a composite of 1 up, none of it from 0 down, and between 0 and
      `max_weight` when that is non-negative. */
  lemma OrderWeightWithin(avg: real, maxWeight: Value)
    requires IsFiniteNumber(maxWeight)
    ensures 0.0 <= AsReal(maxWeight) ==> 0.0 <= OrderWeight(avg, maxWeight).value.r <= AsReal(maxWeight)
    ensures 1.0 <= avg ==> OrderWeight(avg, maxWeight) == Some(Fin(AsReal(maxWeight)))
    ensures avg <= 0.0 ==> OrderWeight(avg, maxWeight) == Some(Fin(0.0))
  {
    var c, x := Clamp(avg, 0.0, 1.0), AsReal(maxWeight);
    FractionOf(c, x);
    assert OrderWeight(avg, maxWeight) == Some(Fin(c * x));
  }

  /** A fraction in [0, 1] of a non-negative amount is at most that amount. */
  lemma FractionOf(c: real, x: real)
    requires 0.0 <= c <= 1.0
    ensures 0.0 <= x ==> 0.0 <= c * x <= x
    ensures c == 1.0 ==> c * x == x
    ensures c == 0.0 ==> c * x == 0.0
  {
    if 0.0 <= x {
      ProductNonNegative(c, x);
      ProductNonNegative(1.0 - c, x);
    }
  }

  /** The non-empty rationales, in report order. */
  function JoinedRationales(reports: seq<AgentReport>): (parts: seq<seq<Reason>>)
    ensures |parts| <= |reports|
    ensures forall p :: p in parts ==> p != [] && exists i :: 0 <= i < |reports| && reports[i].rationale == p
    ensures forall i :: 0 <= i < |reports| && reports[i].rationale != [] ==> reports[i].rationale in parts
  {
    if reports == [] then []
    else
      var rest := JoinedRationales(reports[1..]);
      assert forall i :: 1 <= i < |reports| ==> reports[i] == reports[1..][i - 1];
      if reports[0].rationale != [] then [reports[0].rationale] + rest else rest
  }

  /** Joining a concatenation of report lists joins each list in turn, so the
      parts keep report order and each non-empty rationale appears once per report. */
  lemma {:induction false} JoinedRationalesAppend(a: seq<AgentReport>, b: seq<AgentReport>)
    ensures JoinedRationales(a + b) == JoinedRationales(a) + JoinedRationales(b)
  {
    if a != [] {
      assert (a + b)[1..] == a[1..] + b;
      JoinedRationalesAppend(a[1..], b);
    } else {
      assert a + b == b;
    }
  }

  /** One report contributes its rationale when it is non-empty and nothing otherwise. */
  lemma JoinedRationalesOne(r: AgentReport)
    ensures JoinedRationales([r]) == if r.rationale != [] then [r.rationale] else []
  {
    assert [r][1..] == [];
  }

  // ---------------------------------------------------------- synthesize

  /** The order `synthesize` places: for the context's symbol, a buy when the
      composite score is positive and a hold otherwise, weighted by the rounded
      `clamp(avg, 0, 1) * max_weight`, with the fixed entry rule, stop and take
      profit, and the non-empty rationales joined in report order. */
  predicate IsPlacedOrder(o: Order, symbol: string, avg: real, reports: seq<AgentReport>)
  {
    var weight := OrderWeight(avg, MaxWeightSetting(reports));
    && o.symbol == symbol
    && o.action == (if avg > 0.0 then Buy else Hold)
    && weight.Some? && o.weight == RoundNum(weight.value)
    && o.entryRule == EntryRule && o.stop == 0.08 && o.takeProfit == 0.2
    && o.rationale == JoinedRationales(reports)
  }


  /** Sizing an order raises exactly when the score clears the threshold and
      `max_weight` is not a number. */
  predicate SizingRaises(pm: PortfolioManager, reports: seq<AgentReport>, avg: real)
  {
    pm.minConfidence <= avg && OrderWeight(avg, MaxWeightSetting(reports)).None?
  }

  /** What `synthesize` returns or raises, in the order the code checks. */
  function Decide(pm: PortfolioManager, reports: seq<AgentReport>, ctx: AnalysisContext): (res: Result<Decision, PortfolioError>)
    ensures reports == [] <==> res == Err(EmptyReports)
    ensures reports != [] && NoPrices(ctx) ==> res.Err?
    ensures res == Err(NoPriceIndex) ==> NoPrices(ctx)
    ensures res.Err? && res.error.MaxWeightNotNumeric? ==>
      reports != [] && pm.minConfidence <= Composite(reports) && res.error.maxWeight == MaxWeightSetting(reports)
    ensures res.Ok? <==> reports != [] && !NoPrices(ctx) && !SizingRaises(pm, reports, Composite(reports))
    ensures res.Err? && res.error.MaxWeightNotNumeric? <==> reports != [] && SizingRaises(pm, reports, Composite(reports))
    ensures res == Err(NoPriceIndex) <==> reports != [] && NoPrices(ctx) && !SizingRaises(pm, reports, Composite(reports))
    ensures res.Ok? ==>
      && !NoPrices(ctx)
      && res.value.asOf == ctx.priceHistory.value[|ctx.priceHistory.value| - 1].date
      && res.value.symbol == ctx.symbol
      && res.value.compositeScore == Composite(reports)
      && res.value.maxGrossExposure == pm.maxGrossExposure
      && res.value.agentReports == reports
      && |res.value.orders| <= 1
      && (res.value.orders == [] <==> Composite(reports) < pm.minConfidence)
      && (res.value.notes == HoldNote <==> res.value.orders == [])
    ensures res.Ok? && res.value.orders != [] ==>
      IsPlacedOrder(res.value.orders[0], ctx.symbol, Composite(reports), reports)
  {
    if reports == [] then Err(EmptyReports)
    else
      var avg := Composite(reports);
      var placed := Placement(pm, reports, ctx.symbol, avg);
      if placed.Err? then Err(placed.error)
      else if NoPrices(ctx) then Err(NoPriceIndex)
      else
        var history := ctx.priceHistory.value;
        Ok(Decision(history[|history| - 1].date, ctx.symbol, avg, placed.value.0, pm.maxGrossExposure,
                    placed.value.1, reports))
  }

  /** The order and the notes for a composite score `avg`: below the threshold
      no order and the hold note; otherwise one order sized from `max_weight`,
      which raises when that setting is not a number. */
  function Placement(pm: PortfolioManager, reports: seq<AgentReport>, symbol: string, avg: real)
    : (placed: Result<(seq<Order>, string), PortfolioError>)
    ensures placed.Ok? ==> |placed.value.0| <= 1
    ensures placed.Ok? ==> (placed.value.0 == [] <==> avg < pm.minConfidence)
    ensures placed.Ok? ==> (placed.value.1 == HoldNote <==> placed.value.0 == [])
    ensures placed.Err? ==> avg >= pm.minConfidence && placed.error == MaxWeightNotNumeric(MaxWeightSetting(reports))
    ensures placed.Err? <==> SizingRaises(pm, reports, avg)
    ensures placed.Ok? && placed.value.0 != [] ==> IsPlacedOrder(placed.value.0[0], symbol, avg, reports)
  {
    if avg < pm.minConfidence then Ok(([], HoldNote))
    else
      var maxWeight := MaxWeightSetting(reports);
      var weight := OrderWeight(avg, maxWeight);
      if weight.None? then Err(MaxWeightNotNumeric(maxWeight))
      else Ok(([Order(symbol, if avg > 0.0 then Buy else Hold, RoundNum(weight.value),
                      EntryRule, 0.08, 0.2, JoinedRationales(reports))], DiversifyNote))
  }

  /** `PortfolioManager.synthesize` */
  method Synthesize(pm: PortfolioManager, reports: seq<AgentReport>, ctx: AnalysisContext)
    returns (res: Result<Decision, PortfolioError>)
    ensures res == Decide(pm, reports, ctx)
  {
    if reports == [] {
      return Err(EmptyReports);
    }

    var scores := ScoresOf(reports);
    var avgScore := SafeMean(AsFloats(scores));
    SafeMeanOfScores(scores);
    assert avgScore == Composite(reports);

    var placed := PlaceOrders(pm, reports, ctx.symbol, avgScore);
    if placed.Err? {
      return Err(placed.error);
    }
    var (orders, notes) := placed.value;

    if ctx.priceHistory.None? || ctx.priceHistory.value == [] {
      return Err(NoPriceIndex);
    }
    var history := ctx.priceHistory.value;
    res := Ok(Decision(history[|history| - 1].date, ctx.symbol, avgScore, orders,
                       pm.maxGrossExposure, notes, reports));
  }

  /** The order block of `synthesize`. */
  method PlaceOrders(pm: PortfolioManager, reports: seq<AgentReport>, symbol: string, avgScore: real)
    returns (placed: Result<(seq<Order>, string), PortfolioError>)
    ensures placed == Placement(pm, reports, symbol, avgScore)
  {
    if avgScore < pm.minConfidence {
      return Ok(([], HoldNote));
    }
    var maxWeight := MaxWeightSetting(reports);
    var weight := OrderWeight(avgScore, maxWeight);
    if weight.None? {
      return Err(MaxWeightNotNumeric(maxWeight));
    }
    var orders := [Order(symbol, if avgScore > 0.0 then Buy else Hold, RoundNum(weight.value),
                         EntryRule, 0.08, 0.2, JoinedRationales(reports))];
    placed := Ok((orders, DiversifyNote));
  }

  /** The score loop of `synthesize`: a finite score as it is, anything else as 0.0. */
  method ScoresOf(reports: seq<AgentReport>) returns (scores: seq<real>)
    ensures scores == CleanScores(reports)
  {
    scores := [];
    for i := 0 to |reports|
      invariant |scores| == i
      invariant forall j :: 0 <= j < i ==> scores[j] == CleanScore(reports[j])
    {
      var score := reports[i].score;
      if IsFiniteNumber(score) {
        scores := scores + [AsReal(score)];
      } else {
        scores := scores + [0.0];
      }
    }
  }

  // ------------------------------------------------------------ properties

  /** The action is "buy" exactly when the composite score is positive. */
  lemma BuyIffPositive(pm: PortfolioManager, reports: seq<AgentReport>, ctx: AnalysisContext)
    requires Decide(pm, reports, ctx).Ok? && Decide(pm, reports, ctx).value.orders != []
    ensures Decide(pm, reports, ctx).value.orders[0].action == Buy <==> Composite(reports) > 0.0
  {
  }

  /** With a positive confidence threshold every order placed is a "buy". */
  lemma AllOrdersBuy(pm: PortfolioManager, reports: seq<AgentReport>, ctx: AnalysisContext)
    requires 0.0 < pm.minConfidence && Decide(pm, reports, ctx).Ok?
    ensures forall o :: o in Decide(pm, reports, ctx).value.orders ==> o.action == Buy
  {
  }

  /** The order's weight is the clamped score times a non-negative numeric
      `max_weight`, rounded to four decimals: never negative and at most half a
      unit of the fourth decimal above the limit. */
  lemma WeightWithinLimit(pm: PortfolioManager, reports: seq<AgentReport>, ctx: AnalysisContext)
    requires Decide(pm, reports, ctx).Ok? && Decide(pm, reports, ctx).value.orders != []
    requires IsFiniteNumber(MaxWeightSetting(reports)) && 0.0 <= AsReal(MaxWeightSetting(reports))
    ensures var w := Decide(pm, reports, ctx).value.orders[0].weight;
      w.Fin? && 0.0 <= w.r <= AsReal(MaxWeightSetting(reports)) + 0.00005
  {
    OrderWeightWithin(Composite(reports), MaxWeightSetting(reports));
  }

  /** The weight is taken from the first Risk Officer report, when it is the
      risk officer's own report. */
  lemma RiskOfficerSetsLimit(reports: seq<AgentReport>, k: nat, o: Risk.RiskOfficer, c: AnalysisContext, m: MathOps)
    requires ValidContext(c) && k < |reports| && reports[k] == Risk.Analyze(o, c, m)
    requires forall j :: 0 <= j < k ==> reports[j].agent != Risk.Name
    ensures MaxWeightSetting(reports) == Float(Fin(o.maxWeightPerAsset))
  {
  }

  /** Without a Risk Officer report the limit falls back to 0.2. */
  lemma NoRiskOfficerDefault(reports: seq<AgentReport>)
    requires forall j :: 0 <= j < |reports| ==> reports[j].agent != Risk.Name
    ensures MaxWeightSetting(reports) == Float(Fin(DefaultMaxWeight))
  {
  }

  /** With the default risk officer first among the risk reports, or with none,
      the rounded weight never exceeds 0.2. */
  lemma DefaultLimitHolds(pm: PortfolioManager, reports: seq<AgentReport>, ctx: AnalysisContext)
    requires Decide(pm, reports, ctx).Ok? && Decide(pm, reports, ctx).value.orders != []
    requires MaxWeightSetting(reports) == Float(Fin(Risk.DefaultOfficer.maxWeightPerAsset))
    ensures var w := Decide(pm, reports, ctx).value.orders[0].weight;
      w.Fin? && 0.0 <= w.r <= 0.2
  {
    var avg := Composite(reports);
    var pre := OrderWeight(avg, Float(Fin(0.2)));
    OrderWeightWithin(avg, Float(Fin(0.2)));
    assert pre.Some? && pre.value.Fin? && pre.value.r <= 0.2;
    assert (0.2 * 10000.0).Floor as real == 0.2 * 10000.0 by {
      assert 0.2 * 10000.0 == 2000 as real;
    }
    Round4AtMost(pre.value.r, 0.2);
  }

  /** Below the threshold the manager holds cash: no order, the hold note. */
  lemma HoldsBelowThreshold(pm: PortfolioManager, reports: seq<AgentReport>, ctx: AnalysisContext)
    requires reports != [] && !NoPrices(ctx) && Composite(reports) < pm.minConfidence
    ensures Decide(pm, reports, ctx).Ok?
    ensures Decide(pm, reports, ctx).value.orders == []
    ensures Decide(pm, reports, ctx).value.notes == HoldNote
  {
  }
}

=== FILE: reports.dfy ===
/** The backtest evaluator: the effective weight of a decision's buy orders
    applied to the buy-and-hold path of the closes, with total and annualised
    return, Sharpe ratio and maximum drawdown. */
module Reports {
  import opened Utils
  import opened Data
  import opened Base
  import opened Portfolio

  datatype BacktestReport = BacktestReport(
    start: string,
    end: string,
    totalReturn: real,
    annualizedReturn: real,
    sharpeRatio: Num,
    maxDrawdown: real,
    cumulativeReturns: map<string, real>)

  /** `portfolio_curve.iloc[-1]` on an empty history raises. */
  datatype BacktestError = EmptyHistory

  // ---------------------------------------------------------------- weights

  predicate IsBuyOf(o: Order, symbol: string)
  {
    o.action == Buy && o.symbol == symbol
  }

  /** The keys of the `weights` dict, in first-insertion order. */
  function BuySymbols(orders: seq<Order>): (keys: seq<string>)
    ensures forall i, j :: 0 <= i < j < |keys| ==> keys[i] != keys[j]
    ensures forall k :: k in keys <==> exists i :: 0 <= i < |orders| && IsBuyOf(orders[i], k)
  {
    if orders == [] then []
    else
      var n := |orders| - 1;
      var keys := BuySymbols(orders[..n]);
      assert forall i :: 0 <= i < n ==> orders[..n][i] == orders[i];
      if orders[n].action == Buy && orders[n].symbol !in keys then keys + [orders[n].symbol] else keys
  }

  /** Order `i` is the last buy order for `symbol`. */
  predicate LastBuy(orders: seq<Order>, i: int, symbol: string)
  {
    && 0 <= i < |orders|
    && IsBuyOf(orders[i], symbol)
    && forall j :: i < j < |orders| ==> !IsBuyOf(orders[j], symbol)
  }

  /** The values of the `weights` dict: a later buy order for the same symbol
      overwrites an earlier one. */
  function BuyWeights(orders: seq<Order>): (w: map<string, Num>)
    ensures forall k :: k in w <==> exists i :: 0 <= i < |orders| && IsBuyOf(orders[i], k)
  {
    if orders == [] then map[]
    else
      var n := |orders| - 1;
      var rest := BuyWeights(orders[..n]);
      assert forall i :: 0 <= i < n ==> orders[..n][i] == orders[i];
      if orders[n].action == Buy then rest[orders[n].symbol := orders[n].weight] else rest
  }

  /** Each symbol keeps the weight of its last buy order. */
  lemma {:induction false} BuyWeightIsLast(orders: seq<Order>, k: string)
    requires k in BuyWeights(orders)
    ensures exists i :: LastBuy(orders, i, k) && BuyWeights(orders)[k] == orders[i].weight
  {
    var n := |orders| - 1;
    if orders[n].action == Buy && orders[n].symbol == k {
      assert LastBuy(orders, n, k);
    } else {
      assert forall j :: 0 <= j < n ==> orders[..n][j] == orders[j];
      BuyWeightIsLast(orders[..n], k);
      var i :| LastBuy(orders[..n], i, k) && BuyWeights(orders[..n])[k] == orders[..n][i].weight;
      assert orders[..n][i] == orders[i];
      forall j | i < j < |orders|
        ensures !IsBuyOf(orders[j], k)
      {
        if j < n {
          assert i < j < |orders[..n]|;
          assert !IsBuyOf(orders[..n][j], k);
          assert orders[..n][j] == orders[j];
        } else {
          assert j == n;
        }
      }
      assert BuyWeights(orders)[k] == BuyWeights(orders[..n])[k];
    }
  }

  /** `sum(...)` over the given keys, left to right, starting from 0. */
  function SumWeights(keys: seq<string>, w: map<string, Num>): (total: Num)
    requires forall k :: k in keys ==> k in w
    ensures (forall k :: k in keys ==> w[k].Fin?) ==> total.Fin?
  {
    if keys == [] then Fin(0.0)
    else Add(SumWeights(keys[..|keys| - 1], w), w[keys[|keys| - 1]])
  }

  /** `weight = sum(weights.values())`. Without a buy order the dict is
      `{symbol: 0.0}`, whose sum is 0.0 as well. */
  function EffectiveWeight(orders: seq<Order>): (total: Num)
    ensures (forall i :: 0 <= i < |orders| ==> orders[i].action != Buy) ==> total == Fin(0.0)
  {
    SumWeights(BuySymbols(orders), BuyWeights(orders))
  }

  /** A single buy order contributes exactly its own weight. */
  lemma SingleBuy(o: Order)
    requires o.action == Buy
    ensures EffectiveWeight([o]) == o.weight
  {
    assert [o][..0] == [];
    assert BuySymbols([o]) == [o.symbol];
    assert BuyWeights([o]) == map[o.symbol := o.weight];
    assert SumWeights([o.symbol][..0], map[o.symbol := o.weight]) == Fin(0.0);
  }

  /** Two buy orders for one symbol count once, with the later weight. */
  lemma LaterBuyWins(o1: Order, o2: Order)
    requires o1.action == Buy && o2.action == Buy && o1.symbol == o2.symbol
    ensures EffectiveWeight([o1, o2]) == o2.weight
  {
    SameSymbolOnce(o1, o2);
    assert [o1.symbol][..0] == [];
    assert SumWeights([o1.symbol][..0], map[o1.symbol := o2.weight]) == Fin(0.0);
  }

  /** Two buy orders for one symbol give one key, holding the later weight. */
  lemma SameSymbolOnce(o1: Order, o2: Order)
    requires o1.action == Buy && o2.action == Buy && o1.symbol == o2.symbol
    ensures BuySymbols([o1, o2]) == [o1.symbol]
    ensures BuyWeights([o1, o2]) == map[o1.symbol := o2.weight]
  {
    assert [o1, o2][..1] == [o1];
    assert [o1][..0] == [];
    assert BuySymbols([o1]) == [o1.symbol];
    assert BuyWeights([o1]) == map[o1.symbol := o1.weight];
  }

  /** For a decision of the portfolio manager the effective weight is the
      order's weight when it buys, and 0.0 when it holds or places no order. */
  lemma DecisionWeight(pm: PortfolioManager, reports: seq<AgentReport>, ctx: AnalysisContext)
    requires Decide(pm, reports, ctx).Ok?
    ensures var orders := Decide(pm, reports, ctx).value.orders;
      EffectiveWeight(orders) == if orders != [] && orders[0].action == Buy then orders[0].weight else Fin(0.0)
  {
    var orders := Decide(pm, reports, ctx).value.orders;
    if orders != [] && orders[0].action == Buy {
      assert orders == [orders[0]];
      SingleBuy(orders[0]);
    }
  }

  // ---------------------------------------------------------------- returns

  /** `price.pct_change().fillna(0.0)`: 0.0 for the first bar, then the simple returns. */
  function Returns(c: seq<real>): (rets: seq<real>)
    requires forall i :: 0 <= i < |c| ==> c[i] > 0.0
    ensures |rets| == |c|
    ensures c != [] ==> rets[0] == 0.0
  {
    seq(|c|, i requires 0 <= i < |c| => if i == 0 then 0.0 else c[i] / c[i - 1] - 1.0)
  }

  /** Past the filled-in first entry, the returns are the ones the agents use. */
  lemma ReturnsExtendPctChange(c: seq<real>)
    requires forall i :: 0 <= i < |c| ==> c[i] > 0.0
    requires c != []
    ensures Returns(c) == [0.0] + PctChange(c)
  {
  }

  /** `(1 + returns).cumprod()` at position `i`. */
  function Growth(rets: seq<real>, i: nat): (g: real)
    requires i < |rets|
  {
    if i == 0 then 1.0 + rets[0] else Growth(rets, i - 1) * (1.0 + rets[i])
  }

  lemma DrawdownShift(x: real, t: real)
    requires t > 0.0
    ensures (x - t) / t == x / t - 1.0
  {
    assert t / t == 1.0;
    assert (x - t) / t == x / t - t / t;
  }

  lemma RatioChain(a: real, b: real, d: real, g: real, r: real)
    requires a > 0.0 && b > 0.0
    requires g == b / a && r == d / b - 1.0
    ensures g * (1.0 + r) == d / a
  {
    assert 1.0 + (d / b - 1.0) == d / b;
    assert b / a * (d / b) == (b * d) / (a * b);
  }

  /** The cumulative product telescopes: growth up to bar `i` is `close[i] / close[0]`. */
  lemma {:induction false} GrowthIsPriceRatio(c: seq<real>, i: nat)
    requires forall j :: 0 <= j < |c| ==> c[j] > 0.0
    requires i < |c|
    ensures Growth(Returns(c), i) == c[i] / c[0]
  {
    var rets := Returns(c);
    if i > 0 {
      GrowthIsPriceRatio(c, i - 1);
      var g, r := Growth(rets, i - 1), rets[i];
      assert Growth(rets, i) == g * (1.0 + r);
      RatioChain(c[0], c[i - 1], c[i], g, r);
    }
  }

  /** `1 + weight * (cumulative - 1)` */
  function Curve(w: real, rets: seq<real>): (curve: seq<real>)
    ensures |curve| == |rets|
    ensures forall i :: 0 <= i < |rets| ==> curve[i] == 1.0 + w * (Growth(rets, i) - 1.0)
    ensures rets != [] && rets[0] == 0.0 ==> curve[0] == 1.0
  {
    seq(|rets|, i requires 0 <= i < |rets| => 1.0 + w * (Growth(rets, i) - 1.0))
  }

  /** The weighted curve starts at 1 and follows the price ratio. */
  lemma CurveFollowsPrice(w: real, c: seq<real>, i: nat)
    requires forall j :: 0 <= j < |c| ==> c[j] > 0.0
    requires i < |c|
    ensures Curve(w, Returns(c))[i] == 1.0 + w * (c[i] / c[0] - 1.0)
    ensures Curve(w, Returns(c))[0] == 1.0
  {
    GrowthIsPriceRatio(c, i);
  }

  /** A long position of weight in [0, 1] never takes the curve to zero or below. */
  lemma CurvePositive(w: real, c: seq<real>, i: nat)
    requires forall j :: 0 <= j < |c| ==> c[j] > 0.0
    requires 0.0 <= w <= 1.0 && i < |c|
    ensures Curve(w, Returns(c))[i] > 0.0
  {
    CurveFollowsPrice(w, c, i);
    var q := c[i] / c[0];
    assert q > 0.0;
    assert 1.0 + w * (q - 1.0) == (1.0 - w) + w * q;
    assert w * q >= 0.0;
    if w == 1.0 {
      assert (1.0 - w) + w * q == q;
    }
  }

  // ------------------------------------------------------- annualisation

  /** 52 for a weekly index, 252 otherwise. */
  function PeriodsPerYear(weekly: bool): (ppy: real)
    ensures ppy == 52.0 || ppy == 252.0
    ensures ppy == 52.0 <==> weekly
  {
    if weekly then 52.0 else 252.0
  }

  /** `returns.mean() * periods_per_year * weight`: nothing without a
      position, and for a long position it has the sign of the period
      returns when they all agree in sign. */
  function AnnualizedReturn(rets: seq<real>, ppy: real, w: real): (a: real)
    requires rets != []
    ensures w == 0.0 || ppy == 0.0 ==> a == 0.0
    ensures 0.0 <= ppy && 0.0 <= w && 0.0 <= Min(rets) ==> 0.0 <= a
    ensures 0.0 <= ppy && 0.0 <= w && Max(rets) <= 0.0 ==> a <= 0.0
  {
    MeanWithin(rets, Min(rets), Max(rets));
    ProductSign(Mean(rets), ppy, w);
    Mean(rets) * ppy * w
  }

  /** A product with two non-negative factors has the sign of the third. */
  lemma ProductSign(x: real, p: real, q: real)
    ensures 0.0 <= x && 0.0 <= p && 0.0 <= q ==> 0.0 <= x * p * q
    ensures x <= 0.0 && 0.0 <= p && 0.0 <= q ==> x * p * q <= 0.0
  {
    if 0.0 <= p && 0.0 <= q {
      assert 0.0 <= p * q;
      assert x * p * q == x * (p * q);
    }
  }

  /** Python's `max(weight, 1e-9)`. */
  function WeightFloor(w: real): (f: real)
    ensures f >= 0.000000001 && f >= w
    ensures f == w || f == 0.000000001
  {
    if 0.000000001 > w then 0.000000001 else w
  }

  /** `returns.std() * sqrt(periods_per_year) * max(weight, 1e-9)`: pandas'
      sample deviation is NaN for a single observation. */
  function BacktestVolatility(rets: seq<real>, ppy: real, w: real, m: MathOps): (vol: Num)
    ensures vol.NaN? <==> |rets| < 2
    ensures !vol.NaN? ==> vol.Fin?
    ensures Lawful(m) && vol.Fin? && 0.0 <= ppy ==> 0.0 <= vol.r
  {
    if |rets| < 2 then NaN
    else
      var v := m.sqrt(SampleVariance(rets)) * m.sqrt(ppy) * WeightFloor(w);
      assert Lawful(m) && 0.0 <= ppy ==> 0.0 <= v by {
        if Lawful(m) && 0.0 <= ppy {
          var a := m.sqrt(SampleVariance(rets));
          var b := m.sqrt(ppy);
          assert 0.0 <= a * b;
        }
      }
      Fin(v)
  }

  /** `float(avg_return / volatility) if volatility else 0.0`, as written: NaN
      is truthy, so a NaN volatility gives a NaN ratio. */
  function SharpeAsWritten(avg: real, vol: Num): (s: Num)
    requires !vol.PosInf? && !vol.NegInf?
    ensures vol == Fin(0.0) ==> s == Fin(0.0)
    ensures vol.NaN? ==> s.NaN?
    ensures vol.Fin? && vol.r != 0.0 ==> s.Fin? && s.r * vol.r == avg
  {
    if vol == Fin(0.0) then Fin(0.0)
    else if vol.NaN? then NaN
    else Fin(avg / vol.r)
  }

  /** The Sharpe ratio as evidently intended: 0.0 when the volatility is zero
      or undefined, so the ratio is always a finite number. */
  function SharpeGuarded(avg: real, vol: Num): (s: real)
    ensures !vol.Fin? || vol.r == 0.0 ==> s == 0.0
    ensures vol.Fin? && vol.r != 0.0 ==> s * vol.r == avg
  {
    if vol.Fin? && vol.r != 0.0 then avg / vol.r else 0.0
  }

  /** Wherever the as-written ratio is defined, the guarded one agrees with it. */
  lemma SharpeGuardedAgrees(avg: real, vol: Num)
    requires vol.Fin?
    ensures SharpeAsWritten(avg, vol) == Fin(SharpeGuarded(avg, vol))
  {
  }

  // ------------------------------------------------------------- drawdown

  /** `cummax()` at position `i`. */
  function RunningMax(xs: seq<real>, i: nat): (r: real)
    requires i < |xs|
    ensures forall j :: 0 <= j <= i ==> xs[j] <= r
    ensures exists j :: 0 <= j <= i && r == xs[j]
  {
    if i == 0 then xs[0]
    else
      var prev := RunningMax(xs, i - 1);
      if xs[i] > prev then xs[i] else prev
  }

  /** `(curve - rolling_max) / rolling_max`; the running maximum is at least the
      first value, which is 1 for every curve here. */
  function Drawdowns(curve: seq<real>): (dd: seq<real>)
    requires curve != [] && curve[0] > 0.0
    ensures |dd| == |curve|
    ensures forall i :: 0 <= i < |curve| ==> dd[i] <= 0.0
  {
    seq(|curve|, i requires 0 <= i < |curve| =>
      var top := RunningMax(curve, i);
      assert top >= curve[0] && curve[i] - top <= 0.0;
      (curve[i] - top) / top)
  }

  function MaxDrawdown(curve: seq<real>): (d: real)
    requires curve != [] && curve[0] > 0.0
    ensures d <= 0.0
  {
    Min(Drawdowns(curve))
  }

  /** A drawdown never reaches -1 while the curve stays positive. */
  lemma DrawdownAboveMinusOne(curve: seq<real>)
    requires curve != [] && curve[0] > 0.0
    requires forall i :: 0 <= i < |curve| ==> curve[i] > 0.0
    ensures -1.0 < MaxDrawdown(curve)
  {
    var dd := Drawdowns(curve);
    forall i | 0 <= i < |curve|
      ensures -1.0 < dd[i]
    {
      var top := RunningMax(curve, i);
      assert top > 0.0;
      DrawdownShift(curve[i], top);
      assert curve[i] / top > 0.0;
    }
  }

  // ------------------------------------------------------------- backtest

  /** `backtest_portfolio` with the weight already summed; the index frequency
      is the flag `weekly`. */
  function Backtest(d: Decision, history: seq<Bar>, weekly: bool, m: MathOps): (r: Result<BacktestReport, BacktestError>)
    requires PositiveCloses(history)
    requires EffectiveWeight(d.orders).Fin?
    ensures history == [] <==> r == Err(EmptyHistory)
    ensures r.Ok? ==> r.value.start == history[0].date && r.value.end == history[|history| - 1].date
    ensures r.Ok? ==>
      r.value.totalReturn == TotalReturn(EffectiveWeight(d.orders).r, history)
    ensures r.Ok? ==> r.value.cumulativeReturns == map["portfolio" := r.value.totalReturn]
    ensures r.Ok? ==> r.value.maxDrawdown <= 0.0
    ensures r.Ok? ==>
      var w, rets, ppy := EffectiveWeight(d.orders).r, Returns(Closes(history)), PeriodsPerYear(weekly);
      && r.value.annualizedReturn == AnnualizedReturn(rets, ppy, w)
      && r.value.sharpeRatio == SharpeAsWritten(r.value.annualizedReturn, BacktestVolatility(rets, ppy, w, m))
      && r.value.maxDrawdown == MaxDrawdown(Curve(w, rets))
  {
    if history == [] then Err(EmptyHistory)
    else
      var c := Closes(history);
      var w := EffectiveWeight(d.orders).r;
      var rets := Returns(c);
      var curve := Curve(w, rets);
      var total := TotalReturn(w, history);
      var ppy := PeriodsPerYear(weekly);
      var avg := AnnualizedReturn(rets, ppy, w);
      var vol := BacktestVolatility(rets, ppy, w, m);
      Ok(BacktestReport(
        history[0].date,
        history[|history| - 1].date,
        total,
        avg,
        SharpeAsWritten(avg, vol),
        MaxDrawdown(curve),
        map["portfolio" := total]))
  }

  /** `float(portfolio_curve.iloc[-1] - 1)`: the cumulative product telescopes,
      so the total return is the weight times the price return. */
  function TotalReturn(w: real, history: seq<Bar>): (total: real)
    requires PositiveCloses(history) && history != []
    ensures total == w * (history[|history| - 1].close / history[0].close - 1.0)
  {
    var curve := Curve(w, Returns(Closes(history)));
    FinalCurveValue(w, history);
    curve[|curve| - 1] - 1.0
  }

  /** The last point of the curve is one plus the weighted price return. */
  lemma FinalCurveValue(w: real, history: seq<Bar>)
    requires PositiveCloses(history) && history != []
    ensures var curve := Curve(w, Returns(Closes(history)));
      curve[|curve| - 1] == 1.0 + w * (history[|history| - 1].close / history[0].close - 1.0)
  {
    var c := Closes(history);
    CurveFollowsPrice(w, c, |c| - 1);
    assert c[|c| - 1] == history[|history| - 1].close && c[0] == history[0].close;
  }

  /** A zero return over a defined volatility is a zero ratio. */
  lemma ZeroReturnZeroSharpe(vol: Num)
    requires vol.Fin?
    ensures SharpeAsWritten(0.0, vol) == Fin(0.0)
  {
    if vol.r != 0.0 {
      assert 0.0 / vol.r == 0.0;
    }
  }

  /** With weight 0 the curve is flat: no return, no drawdown and, from two
      bars on, a Sharpe ratio of 0. */
  lemma FlatWithoutWeight(d: Decision, history: seq<Bar>, weekly: bool, m: MathOps)
    requires PositiveCloses(history) && history != []
    requires EffectiveWeight(d.orders) == Fin(0.0)
    ensures var r := Backtest(d, history, weekly, m).value;
      && r.totalReturn == 0.0
      && r.annualizedReturn == 0.0
      && r.maxDrawdown == 0.0
      && (|history| >= 2 ==> r.sharpeRatio == Fin(0.0))
  {
    var c := Closes(history);
    var rets := Returns(c);
    var curve := Curve(0.0, rets);
    assert forall i :: 0 <= i < |curve| ==> curve[i] == 1.0;
    var dd := Drawdowns(curve);
    forall i | 0 <= i < |curve|
      ensures dd[i] == 0.0
    {
      assert RunningMax(curve, i) == 1.0;
    }
    assert Min(dd) in dd;
    var ppy := PeriodsPerYear(weekly);
    assert AnnualizedReturn(rets, ppy, 0.0) == 0.0;
    if |history| >= 2 {
      ZeroReturnZeroSharpe(BacktestVolatility(rets, ppy, 0.0, m));
    }
  }

  /** For weights in [0, 1] the maximum drawdown lies in (-1, 0]. */
  lemma DrawdownRange(d: Decision, history: seq<Bar>, weekly: bool, m: MathOps)
    requires PositiveCloses(history) && history != []
    requires EffectiveWeight(d.orders).Fin? && 0.0 <= EffectiveWeight(d.orders).r <= 1.0
    ensures -1.0 < Backtest(d, history, weekly, m).value.maxDrawdown <= 0.0
  {
    var c := Closes(history);
    var w := EffectiveWeight(d.orders).r;
    var curve := Curve(w, Returns(c));
    forall i | 0 <= i < |curve|
      ensures curve[i] > 0.0
    {
      CurvePositive(w, c, i);
    }
    CurveFollowsPrice(w, c, 0);
    DrawdownAboveMinusOne(curve);
  }

  /** Constant prices have zero sample deviation, so the Sharpe ratio is 0. */
  lemma ConstantPricesZeroSharpe(d: Decision, history: seq<Bar>, weekly: bool, m: MathOps)
    requires PositiveCloses(history) && |history| >= 2 && Lawful(m)
    requires EffectiveWeight(d.orders).Fin?
    requires forall i :: 0 <= i < |history| ==> history[i].close == history[0].close
    ensures Backtest(d, history, weekly, m).value.sharpeRatio == Fin(0.0)
  {
    var rets := Returns(Closes(history));
    assert forall i :: 0 <= i < |rets| ==> rets[i] == 0.0;
    ZeroReturnsZeroVariance(rets);
    var ppy := PeriodsPerYear(weekly);
    var w := EffectiveWeight(d.orders).r;
    assert m.sqrt(SampleVariance(rets)) == 0.0;
    assert BacktestVolatility(rets, ppy, w, m) == Fin(0.0);
  }

  /** Returns that are all zero have zero sample variance. */
  lemma ZeroReturnsZeroVariance(rets: seq<real>)
    requires |rets| >= 2
    requires forall i :: 0 <= i < |rets| ==> rets[i] == 0.0
    ensures SampleVariance(rets) == 0.0
  {
    SumBounds(rets, 0.0, 0.0);
    assert Mean(rets) == 0.0;
    var dev := SquaredDeviations(rets, 0.0);
    assert forall i :: 0 <= i < |dev| ==> dev[i] == 0.0;
    SumBounds(dev, 0.0, 0.0);
  }

  /** As written, a single-bar history gives a NaN Sharpe ratio: the sample
      deviation of one return is NaN and NaN passes the `if volatility` test. */
  lemma SingleBarSharpeIsNaN(d: Decision, history: seq<Bar>, weekly: bool, m: MathOps)
    requires PositiveCloses(history) && |history| == 1
    requires EffectiveWeight(d.orders).Fin?
    ensures Backtest(d, history, weekly, m).value.sharpeRatio == NaN
  {
  }

  /** The guarded ratio is 0.0 on a single bar. */
  lemma SingleBarSharpeGuarded(history: seq<Bar>, w: real, weekly: bool, m: MathOps)
    requires PositiveCloses(history) && |history| == 1
    ensures var rets := Returns(Closes(history));
      var ppy := PeriodsPerYear(weekly);
      SharpeGuarded(AnnualizedReturn(rets, ppy, w), BacktestVolatility(rets, ppy, w, m)) == 0.0
  {
  }
}

=== FILE: risk.dfy ===
/** The risk officer: penalises annualised volatility above a target and
    publishes its position limits for the portfolio manager. */
module Risk {
  import opened Utils
  import opened Data
  import opened Base

  const Name: string := "Risk Officer"

  /** The officer's configuration (the dataclass fields, never mutated). */
  datatype RiskOfficer = RiskOfficer(maxWeightPerAsset: real, maxSectorExposure: real, targetVolatility: real)

  const DefaultOfficer: RiskOfficer := RiskOfficer(0.2, 0.5, 0.3)

  /** The annualised volatility of the context's closes: 0.0 without prices or
      without a single return, else the population deviation times sqrt(252). */
  function Volatility(ctx: AnalysisContext, m: MathOps): (vol: real)
    requires ValidContext(ctx)
    ensures NoPrices(ctx) ==> vol == 0.0
    ensures !NoPrices(ctx) && |ctx.priceHistory.value| == 1 ==> vol == 0.0
    ensures Lawful(m) ==> 0.0 <= vol
  {
    if NoPrices(ctx) then 0.0
    else AnnualizedVolatility(PctChange(Closes(ctx.priceHistory.value)), m)
  }

  /** The relative excess of volatility over the target, clamped to [0, 1]. */
  function Penalty(vol: real, target: real): (p: real)
    ensures 0.0 <= p <= 1.0
    ensures target <= 0.0 ==> p == 0.0
    ensures 0.0 < target && vol <= target ==> p == 0.0
    ensures 0.0 < target && 2.0 * target <= vol ==> p == 1.0
    ensures 0.0 < target && target < vol < 2.0 * target ==> p == (vol - target) / target
  {
    var raw := if target > 0.0 then (vol - target) / target else 0.0;
    assert 0.0 < target && 2.0 * target <= vol ==> (vol - target) / target >= 1.0 by {
      if 0.0 < target && 2.0 * target <= vol {
        assert vol - target >= target;
      }
    }
    assert 0.0 < target && vol < 2.0 * target ==> (vol - target) / target < 1.0 by {
      if 0.0 < target && vol < 2.0 * target {
        assert vol - target < target;
        assert (vol - target) / target < target / target;
      }
    }
    Clamp(raw, 0.0, 1.0)
  }

  /** `clamp(0.5 - penalty, -1, 1)`: the clamp never acts, so the score is `0.5 - penalty`. */
  function RiskScore(vol: real, target: real): (s: real)
    ensures -0.5 <= s <= 0.5
    ensures s == 0.5 - Penalty(vol, target)
  {
    Clamp(0.5 - Penalty(vol, target), -1.0, 1.0)
  }

  /** Calm markets: volatility at or under a positive target gives the full 0.5. */
  lemma CalmScore(vol: real, target: real)
    requires 0.0 < target && vol <= target
    ensures RiskScore(vol, target) == 0.5
  {
  }

  /** Volatility at twice a positive target or more gives the floor -0.5. */
  lemma StormScore(vol: real, target: real)
    requires 0.0 < target && 2.0 * target <= vol
    ensures RiskScore(vol, target) == -0.5
  {
  }

  /** A non-positive target switches the penalty off. */
  lemma NoTargetScore(vol: real, target: real)
    requires target <= 0.0
    ensures RiskScore(vol, target) == 0.5
  {
  }

  /** More volatility never raises the score. */
  lemma ScoreMonotone(v1: real, v2: real, target: real)
    requires 0.0 < target && v1 <= v2
    ensures RiskScore(v2, target) <= RiskScore(v1, target)
  {
    var r1 := (v1 - target) / target;
    var r2 := (v2 - target) / target;
    assert r1 <= r2 by {
      assert r2 - r1 == (v2 - v1) / target;
    }
    ClampMonotone(r1, r2, 0.0, 1.0);
  }

  /** `RiskOfficer.analyze` */
  function Analyze(o: RiskOfficer, ctx: AnalysisContext, m: MathOps): (r: AgentReport)
    requires ValidContext(ctx)
    ensures r.agent == Name && r.symbol == ctx.symbol
    ensures FiniteScore(r) && -0.5 <= r.score.f.r <= 0.5
    ensures r.score == Float(Fin(RiskScore(Volatility(ctx, m), o.targetVolatility)))
    ensures NoPrices(ctx) ==> r.score == Float(Fin(0.5))
    ensures r.metadata.Keys == {"max_weight", "max_sector_exposure", "volatility"}
    ensures r.metadata["max_weight"] == Float(Fin(o.maxWeightPerAsset))
    ensures r.metadata["max_sector_exposure"] == Float(Fin(o.maxSectorExposure))
    ensures r.metadata["volatility"] == Float(Fin(Volatility(ctx, m)))
    ensures |r.rationale| == 1 && r.rationale[0].VolatilityPenalty?
    ensures r.rationale[0].volatility == Volatility(ctx, m)
    ensures r.rationale[0].penalty == Penalty(Volatility(ctx, m), o.targetVolatility)
  {
    var vol := Volatility(ctx, m);
    var penalty := Penalty(vol, o.targetVolatility);
    AgentReport(
      Name,
      ctx.symbol,
      Float(Fin(RiskScore(vol, o.targetVolatility))),
      [VolatilityPenalty(vol, penalty)],
      map["max_weight" := Float(Fin(o.maxWeightPerAsset)),
          "max_sector_exposure" := Float(Fin(o.maxSectorExposure)),
          "volatility" := Float(Fin(vol))])
  }
}

=== FILE: sentiment.dfy ===
/** The sentiment analyst: each news item's "title summary" text is lower-cased,
    split on whitespace and scored by keyword hits; the item scores are averaged
    and squashed through tanh. */
module Sentiment {
  import opened Utils
  import opened Base

  const Name: string := "Sentiment Analyst"

  const PositiveKeywords: seq<string> :=
    ["beats", "growth", "surge", "outperform", "bullish", "upgrade", "strong", "record"]

  const NegativeKeywords: seq<string> :=
    ["miss", "decline", "drop", "lawsuit", "bearish", "downgrade", "weak", "fraud", "risk"]

  /** No keyword counts both ways. */
  lemma KeywordsDisjoint()
    ensures forall w :: w in PositiveKeywords ==> w !in NegativeKeywords
    ensures Distinct(PositiveKeywords) && Distinct(NegativeKeywords)
  {
  }

  predicate Distinct(ks: seq<string>)
  {
    forall i, j :: 0 <= i < j < |ks| ==> ks[i] != ks[j]
  }

  // --------------------------------------------------------- characters

  /** Python's `str.isspace`, the separator set of `str.split()` and `str.strip()`. */
  predicate IsSpace(c: char)
  {
    || ('\t' <= c <= '\r')
    || ('\U{1C}' <= c <= '\U{1F}')
    || c == ' ' || c == '\U{85}' || c == '\U{A0}' || c == '\U{1680}'
    || ('\U{2000}' <= c <= '\U{200A}')
    || c == '\U{2028}' || c == '\U{2029}' || c == '\U{202F}' || c == '\U{205F}' || c == '\U{3000}'
  }

  /** `str.lower` on one character, restricted to the mappings that can turn a
      character into part of an ASCII keyword: A to Z, and the Kelvin sign, which
      lower-cases to `k`. Every other case mapping leaves a non-ASCII character in
      the word (U+0130 becomes `i` followed by a combining dot), so it cannot
      create or destroy a keyword hit. */
  function LowerChar(c: char): (d: char)
    ensures !IsSpace(c) ==> !IsSpace(d)
  {
    if 'A' <= c <= 'Z' then (c as int + 32) as char
    else if c == '\U{212A}' then 'k'
    else c
  }

  function Lower(s: string): (t: string)
    ensures |t| == |s|
    ensures forall i :: 0 <= i < |s| ==> t[i] == LowerChar(s[i])
  {
    seq(|s|, i requires 0 <= i < |s| => LowerChar(s[i]))
  }

  lemma LowerIdempotent(s: string)
    ensures Lower(Lower(s)) == Lower(s)
  {
  }

  // -------------------------------------------------------------- split

  /** `s` without its leading whitespace. */
  function DropSpaces(s: string): (t: string)
    ensures |t| <= |s| && t == s[|s| - |t|..]
    ensures t == [] || !IsSpace(t[0])
    ensures forall i :: 0 <= i < |s| - |t| ==> IsSpace(s[i])
  {
    if s == [] || !IsSpace(s[0]) then s else DropSpaces(s[1..])
  }

  /** The longest prefix of `s` holding no whitespace. */
  function WordPrefix(s: string): (w: string)
    ensures |w| <= |s| && w == s[..|w|]
    ensures forall c :: c in w ==> !IsSpace(c)
    ensures |w| < |s| ==> IsSpace(s[|w|])
  {
    if s == [] || IsSpace(s[0]) then [] else [s[0]] + WordPrefix(s[1..])
  }

  /** A token of `str.split()`: non-empty and free of whitespace. */
  predicate IsWord(w: string)
  {
    w != [] && forall c :: c in w ==> !IsSpace(c)
  }

  /** `str.split()` with no argument: the maximal runs of non-whitespace, in order. */
  function Words(s: string): (ws: seq<string>)
    ensures forall w :: w in ws ==> IsWord(w)
    decreases |s|
  {
    var t := DropSpaces(s);
    if t == [] then []
    else
      var w := WordPrefix(t);
      assert IsWord(w) by { assert t[0] == w[0]; }
      [w] + Words(t[|w|..])
  }

  /** The non-whitespace characters of `s`, in order. */
  function NonSpace(s: string): string
  {
    if s == [] then [] else (if IsSpace(s[0]) then [] else [s[0]]) + NonSpace(s[1..])
  }

  function Concat(ws: seq<string>): string
  {
    if ws == [] then [] else ws[0] + Concat(ws[1..])
  }

  lemma {:induction false} NonSpaceAppend(a: string, b: string)
    ensures NonSpace(a + b) == NonSpace(a) + NonSpace(b)
  {
    if a == [] {
      assert a + b == b;
    } else {
      assert (a + b)[1..] == a[1..] + b;
      NonSpaceAppend(a[1..], b);
    }
  }

  lemma {:induction false} NonSpaceOfSpaces(s: string)
    requires forall i :: 0 <= i < |s| ==> IsSpace(s[i])
    ensures NonSpace(s) == []
  {
    if s != [] {
      NonSpaceOfSpaces(s[1..]);
    }
  }

  lemma {:induction false} NonSpaceOfWord(s: string)
    requires forall c :: c in s ==> !IsSpace(c)
    ensures NonSpace(s) == s
  {
    if s != [] {
      assert s[0] in s;
      NonSpaceOfWord(s[1..]);
    }
  }

  lemma NonSpaceDropSpaces(s: string)
    ensures NonSpace(DropSpaces(s)) == NonSpace(s)
  {
    var t := DropSpaces(s);
    assert s == s[..|s| - |t|] + t;
    NonSpaceAppend(s[..|s| - |t|], t);
    NonSpaceOfSpaces(s[..|s| - |t|]);
  }

  lemma NonSpaceWordPrefix(t: string)
    ensures NonSpace(t) == WordPrefix(t) + NonSpace(t[|WordPrefix(t)|..])
  {
    var w := WordPrefix(t);
    assert t == w + t[|w|..];
    NonSpaceAppend(w, t[|w|..]);
    NonSpaceOfWord(w);
  }

  /** Splitting loses only whitespace: the words joined together are exactly the
      non-whitespace characters of the input, in order. */
  lemma {:induction false} WordsKeepEveryOtherCharacter(s: string)
    ensures Concat(Words(s)) == NonSpace(s)
    decreases |s|
  {
    var t := DropSpaces(s);
    NonSpaceDropSpaces(s);
    if t != [] {
      var w := WordPrefix(t);
      var rest := t[|w|..];
      assert Words(s) == [w] + Words(rest);
      NonSpaceWordPrefix(t);
      WordsKeepEveryOtherCharacter(rest);
      assert Concat([w] + Words(rest)) == w + Concat(Words(rest));
    } else {
      assert NonSpace(t) == [];
    }
  }

  // ----------------------------------------------------------- counting

  /** `Counter(words)[k]` */
  function Count(words: seq<string>, k: string): nat
  {
    if words == [] then 0 else (if words[0] == k then 1 else 0) + Count(words[1..], k)
  }

  /** `sum(counts.get(word, 0) for word in keywords)` */
  function CounterSum(words: seq<string>, keywords: seq<string>): nat
  {
    if keywords == [] then 0 else Count(words, keywords[0]) + CounterSum(words, keywords[1..])
  }

  /** The number of tokens that are keywords, with multiplicity. */
  function Hits(words: seq<string>, keywords: seq<string>): (h: nat)
    ensures h <= |words|
    ensures keywords == [] ==> h == 0
  {
    if words == [] then 0 else (if words[0] in keywords then 1 else 0) + Hits(words[1..], keywords)
  }

  /** How many entries of `keywords` equal `w`. */
  function Occurrences(keywords: seq<string>, w: string): nat
  {
    if keywords == [] then 0 else (if keywords[0] == w then 1 else 0) + Occurrences(keywords[1..], w)
  }

  lemma {:induction false} OccurrencesOfDistinct(keywords: seq<string>, w: string)
    requires Distinct(keywords)
    ensures Occurrences(keywords, w) == if w in keywords then 1 else 0
  {
    if keywords != [] {
      OccurrencesOfDistinct(keywords[1..], w);
      if keywords[0] == w {
        assert w !in keywords[1..];
      }
    }
  }

  lemma {:induction false} CounterSumCons(w: string, rest: seq<string>, keywords: seq<string>)
    ensures CounterSum([w] + rest, keywords) == Occurrences(keywords, w) + CounterSum(rest, keywords)
  {
    if keywords != [] {
      assert ([w] + rest)[1..] == rest;
      CounterSumCons(w, rest, keywords[1..]);
    }
  }

  /** Summing the Counter over a set of distinct keywords counts every token that is
      a keyword, once per occurrence. */
  lemma {:induction false} CounterSumIsHits(words: seq<string>, keywords: seq<string>)
    requires Distinct(keywords)
    ensures CounterSum(words, keywords) == Hits(words, keywords)
  {
    if words == [] {
      CounterSumEmpty(keywords);
    } else {
      assert words == [words[0]] + words[1..];
      CounterSumCons(words[0], words[1..], keywords);
      OccurrencesOfDistinct(keywords, words[0]);
      CounterSumIsHits(words[1..], keywords);
    }
  }

  lemma {:induction false} CounterSumEmpty(keywords: seq<string>)
    ensures CounterSum([], keywords) == 0
  {
    if keywords != [] {
      CounterSumEmpty(keywords[1..]);
    }
  }

  // ------------------------------------------------------- _score_headline

  function PositiveHits(headline: string): nat
  {
    CounterSum(Words(Lower(headline)), PositiveKeywords)
  }

  function NegativeHits(headline: string): nat
  {
    CounterSum(Words(Lower(headline)), NegativeKeywords)
  }

  /** `(pos - neg) / max(pos + neg, 1)`, or 0.0 without hits. */
  function HitRatio(pos: nat, neg: nat): (r: real)
    ensures -1.0 <= r <= 1.0
    ensures pos == 0 && neg == 0 ==> r == 0.0
    ensures r == 1.0 <==> pos > 0 && neg == 0
    ensures r == -1.0 <==> neg > 0 && pos == 0
    ensures r > 0.0 <==> pos > neg
    ensures r < 0.0 <==> pos < neg
  {
    if pos == 0 && neg == 0 then 0.0
    else
      var total := if pos + neg > 1 then pos + neg else 1;
      assert total == pos + neg;
      var t := total as real;
      var d := (pos - neg) as real;
      RatioSign(d, t, 1.0);
      RatioSign(d, t, -1.0);
      RatioSign(d, t, 0.0);
      d / t
  }

  /** `_score_headline`: 0.0 without hits, else the balance of positive over
      negative hits relative to all hits. */
  function ScoreHeadline(headline: string): (r: real)
    ensures -1.0 <= r <= 1.0
    ensures PositiveHits(headline) == 0 && NegativeHits(headline) == 0 ==> r == 0.0
    ensures r == 1.0 <==> PositiveHits(headline) > 0 && NegativeHits(headline) == 0
    ensures r == -1.0 <==> NegativeHits(headline) > 0 && PositiveHits(headline) == 0
    ensures r > 0.0 <==> PositiveHits(headline) > NegativeHits(headline)
    ensures r < 0.0 <==> PositiveHits(headline) < NegativeHits(headline)
  {
    HitRatio(PositiveHits(headline), NegativeHits(headline))
  }

  /** Matching ignores case: a headline scores the same as its lower-cased form. */
  lemma CaseInsensitive(headline: string)
    ensures ScoreHeadline(Lower(headline)) == ScoreHeadline(headline)
  {
    LowerIdempotent(headline);
  }

  /** The hit counts are the keyword tokens of the lower-cased headline, with multiplicity. */
  lemma HitsWithMultiplicity(headline: string)
    ensures PositiveHits(headline) == Hits(Words(Lower(headline)), PositiveKeywords)
    ensures NegativeHits(headline) == Hits(Words(Lower(headline)), NegativeKeywords)
  {
    KeywordsDisjoint();
    CounterSumIsHits(Words(Lower(headline)), PositiveKeywords);
    CounterSumIsHits(Words(Lower(headline)), NegativeKeywords);
  }

  // -------------------------------------------------------------- strip

  /** `s` without its trailing whitespace. */
  function DropTrailingSpaces(s: string): (t: string)
    ensures |t| <= |s| && t == s[..|t|]
    ensures t == [] || !IsSpace(t[|t| - 1])
    ensures forall i :: |t| <= i < |s| ==> IsSpace(s[i])
  {
    if s != [] && IsSpace(s[|s| - 1]) then DropTrailingSpaces(s[..|s| - 1]) else s
  }

  /** `str.strip()`; empty exactly when the input is all whitespace. */
  function Strip(s: string): (t: string)
    ensures t == [] <==> forall i :: 0 <= i < |s| ==> IsSpace(s[i])
  {
    var u := DropSpaces(s);
    var t := DropTrailingSpaces(u);
    assert u != [] ==> t != [];
    t
  }

  // ------------------------------------------------------------ analyze

  function TitleOf(item: NewsItem): string
  {
    if item.title.None? then "" else item.title.value
  }

  function SummaryOf(item: NewsItem): string
  {
    if item.summary.None? then "" else item.summary.value
  }

  /** `f"{title} {summary}".strip()` */
  function Combined(item: NewsItem): string
  {
    Strip(TitleOf(item) + " " + SummaryOf(item))
  }

  /** The score of one item, or nothing when its text is blank and it is skipped. */
  function ItemScore(item: NewsItem): (s: Option<real>)
    ensures s.None? <==> Combined(item) == []
    ensures s.Some? ==> -1.0 <= s.value <= 1.0
  {
    var text := Combined(item);
    if text == [] then None else Some(ScoreHeadline(text))
  }

  /** The scores of the items that are not skipped, in order. */
  function ItemScores(items: seq<NewsItem>): (scores: seq<real>)
    ensures |scores| <= |items|
  {
    if items == [] then []
    else
      var rest := ItemScores(items[..|items| - 1]);
      var score := ItemScore(items[|items| - 1]);
      if score.None? then rest else rest + [score.value]
  }

  /** Every article score lies in [-1, 1]. */
  lemma {:induction false} ItemScoresBounded(items: seq<NewsItem>)
    ensures forall i :: 0 <= i < |ItemScores(items)| ==> -1.0 <= ItemScores(items)[i] <= 1.0
  {
    if items != [] {
      var rest := ItemScores(items[..|items| - 1]);
      var score := ItemScore(items[|items| - 1]);
      ItemScoresBounded(items[..|items| - 1]);
      if score.Some? {
        BoundedSnoc(rest, score.value);
        assert ItemScores(items) == rest + [score.value];
      } else {
        assert ItemScores(items) == rest;
      }
    }
  }

  lemma BoundedSnoc(rest: seq<real>, x: real)
    requires forall i :: 0 <= i < |rest| ==> -1.0 <= rest[i] <= 1.0
    requires -1.0 <= x <= 1.0
    ensures forall i :: 0 <= i < |rest + [x]| ==> -1.0 <= (rest + [x])[i] <= 1.0
  {
    forall i | 0 <= i < |rest + [x]|
      ensures -1.0 <= (rest + [x])[i] <= 1.0
    {
      if i < |rest| {
        assert (rest + [x])[i] == rest[i];
      }
    }
  }

  /** The `processed` list: one `{"title", "score"}` entry per item not skipped. */
  function Processed(items: seq<NewsItem>): (processed: seq<Value>)
    ensures |processed| <= |items|
  {
    if items == [] then []
    else
      var last := items[|items| - 1];
      var score := ItemScore(last);
      Processed(items[..|items| - 1])
        + (if score.None? then []
           else [Dict(map["title" := Str(TitleOf(last)), "score" := Float(Fin(score.value))])])
  }

  /** The number of items whose combined text is not blank. */
  function KeptCount(items: seq<NewsItem>): nat
  {
    if items == [] then 0
    else KeptCount(items[..|items| - 1]) + (if Combined(items[|items| - 1]) == [] then 0 else 1)
  }

  /** One more item of the loop: its score and its processed entry, when it is kept. */
  lemma PrefixStep(items: seq<NewsItem>, i: nat)
    requires i < |items|
    ensures var text := Strip(TitleOf(items[i]) + " " + SummaryOf(items[i]));
      && ItemScores(items[..i + 1])
         == ItemScores(items[..i]) + (if text == [] then [] else [ScoreHeadline(text)])
      && Processed(items[..i + 1])
         == Processed(items[..i]) + (if text == [] then [] else
              [Dict(map["title" := Str(TitleOf(items[i])), "score" := Float(Fin(ScoreHeadline(text)))])])
  {
    assert items[..i + 1][..i] == items[..i];
  }

  /** One score and one processed entry per kept item. */
  lemma {:induction false} ScoresPerKeptItem(items: seq<NewsItem>)
    ensures |ItemScores(items)| == KeptCount(items) == |Processed(items)|
  {
    if items != [] {
      ScoresPerKeptItem(items[..|items| - 1]);
    }
  }

  /** An item is skipped exactly when its title and summary are both blank. */
  lemma SkippedIffBlank(item: NewsItem)
    ensures Combined(item) == [] <==>
      (forall i :: 0 <= i < |TitleOf(item)| ==> IsSpace(TitleOf(item)[i]))
      && (forall i :: 0 <= i < |SummaryOf(item)| ==> IsSpace(SummaryOf(item)[i]))
  {
    var t, s := TitleOf(item), SummaryOf(item);
    var text := t + " " + s;
    assert forall i :: 0 <= i < |t| ==> text[i] == t[i];
    assert forall i :: 0 <= i < |s| ==> text[|t| + 1 + i] == s[i];
  }

  /** `tanh(mean(scores))`, or 0.0 when every item was skipped. */
  function Aggregate(scores: seq<real>, m: MathOps): (avg: real)
    ensures scores == [] ==> avg == 0.0
    ensures Lawful(m) ==> -1.0 < avg < 1.0
  {
    if scores == [] then 0.0 else m.tanh(Mean(scores))
  }

  /** The aggregate has the sign of the mean item score. */
  lemma AggregateSign(scores: seq<real>, m: MathOps)
    requires Lawful(m) && scores != []
    ensures Aggregate(scores, m) > 0.0 <==> Mean(scores) > 0.0
    ensures Aggregate(scores, m) < 0.0 <==> Mean(scores) < 0.0
    ensures Aggregate(scores, m) == 0.0 <==> Mean(scores) == 0.0
  {
    var mu := Mean(scores);
    if mu > 0.0 {
      assert m.tanh(0.0) < m.tanh(mu);
    } else if mu < 0.0 {
      assert m.tanh(mu) < m.tanh(0.0);
    }
  }

  predicate NoNews(ctx: AnalysisContext)
  {
    ctx.news.None? || ctx.news.value == []
  }

  /** `SentimentAnalyst.analyze`: a loop over the news items collects the scores of
      the items that are not blank, then their mean is squashed through tanh. */
  method Analyze(ctx: AnalysisContext, m: MathOps) returns (r: AgentReport)
    ensures r.agent == Name && r.symbol == ctx.symbol
    ensures NoNews(ctx) ==>
      r == AgentReport(Name, ctx.symbol, Float(Fin(0.0)), [NoRecentNews], map["news_count" := Int(0)])
    ensures !NoNews(ctx) ==>
      && r.score == Float(Fin(Aggregate(ItemScores(ctx.news.value), m)))
      && r.rationale == [AverageSentiment(Aggregate(ItemScores(ctx.news.value), m), KeptCount(ctx.news.value))]
      && r.metadata == map["articles" := List(Processed(ctx.news.value))]
  {
    var items := if ctx.news.None? then [] else ctx.news.value;
    if items == [] {
      return AgentReport(Name, ctx.symbol, Float(Fin(0.0)), [NoRecentNews], map["news_count" := Int(0)]);
    }
    var scores: seq<real> := [];
    var processed: seq<Value> := [];
    for i := 0 to |items|
      invariant scores == ItemScores(items[..i])
      invariant processed == Processed(items[..i])
    {
      PrefixStep(items, i);
      var title := TitleOf(items[i]);
      var summary := SummaryOf(items[i]);
      var combined := Strip(title + " " + summary);
      if combined == [] {
        assert scores == ItemScores(items[..i + 1]) && processed == Processed(items[..i + 1]);
        continue;
      }
      var score := ScoreHeadline(combined);
      var entry := Dict(map["title" := Str(title), "score" := Float(Fin(score))]);
      assert ItemScores(items[..i + 1]) == scores + [score];
      assert Processed(items[..i + 1]) == processed + [entry];
      scores := scores + [score];
      processed := processed + [entry];
    }
    assert items[..|items|] == items;
    var avg := if scores == [] then 0.0 else m.tanh(Mean(scores));
    ScoresPerKeptItem(items);
    r := AgentReport(Name, ctx.symbol, Float(Fin(avg)), [AverageSentiment(avg, |processed|)],
                     map["articles" := List(processed)]);
  }

  /** The reported score lies in (-1, 1), is 0.0 when every item was skipped, and has
      the sign of the mean item score; the article count is the number of kept items. */
  lemma AnalyzeFacts(items: seq<NewsItem>, m: MathOps)
    requires Lawful(m)
    ensures -1.0 < Aggregate(ItemScores(items), m) < 1.0
    ensures KeptCount(items) == 0 ==> Aggregate(ItemScores(items), m) == 0.0
    ensures ItemScores(items) == [] <==> KeptCount(items) == 0
    ensures ItemScores(items) != [] ==>
      && (Aggregate(ItemScores(items), m) > 0.0 <==> Mean(ItemScores(items)) > 0.0)
      && (Aggregate(ItemScores(items), m) < 0.0 <==> Mean(ItemScores(items)) < 0.0)
    ensures |Processed(items)| == KeptCount(items)
  {
    ScoresPerKeptItem(items);
    if KeptCount(items) > 0 {
      AggregateSign(ItemScores(items), m);
    }
  }
}

=== FILE: technical.dfy ===
/** The technical analyst: two guard paths for missing data, then signed
    contributions from the latest indicator row (SMA cross, MACD histogram, RSI
    band, Bollinger position) plus a volatility term, clamped to [-1, 1]. */
module Technical {
  import opened Utils
  import opened Data
  import opened Base

  const Name: string := "Technical Analyst"

  /** What one block adds to `trend_score`, with the part it appends. */
  datatype Signal = Signal(amount: real, reason: Reason)

  /** SMA20 against SMA50; a tie counts as "below". Skipped if either is missing or NaN. */
  function SmaTerm(cells: map<Column, Option<real>>): (s: Option<Signal>)
    ensures s.Some? <==> Cell(cells, Sma(20)).Some? && Cell(cells, Sma(50)).Some?
    ensures s.Some? ==> (s.value == Signal(0.3, SmaAbove) <==> Cell(cells, Sma(20)).value > Cell(cells, Sma(50)).value)
    ensures s.Some? ==> s.value == Signal(0.3, SmaAbove) || s.value == Signal(-0.3, SmaBelow)
  {
    var fast := Cell(cells, Sma(20));
    var slow := Cell(cells, Sma(50));
    if fast.None? || slow.None? then None
    else if fast.value > slow.value then Some(Signal(0.3, SmaAbove))
    else Some(Signal(-0.3, SmaBelow))
  }

  /** The sign of the MACD histogram; zero counts as negative. */
  function MacdTerm(cells: map<Column, Option<real>>): (s: Option<Signal>)
    ensures s.Some? <==> Cell(cells, MacdHist).Some?
    ensures s.Some? ==> (s.value == Signal(0.2, MacdPositive) <==> Cell(cells, MacdHist).value > 0.0)
    ensures s.Some? ==> s.value == Signal(0.2, MacdPositive) || s.value == Signal(-0.2, MacdNegative)
  {
    var hist := Cell(cells, MacdHist);
    if hist.None? then None
    else if hist.value > 0.0 then Some(Signal(0.2, MacdPositive))
    else Some(Signal(-0.2, MacdNegative))
  }

  /** RSI bands: [45, 70] positive, under 35 oversold, over 75 overbought, silent between. */
  function RsiTerm(cells: map<Column, Option<real>>): (s: Option<Signal>)
    ensures s.None? <==>
      (Cell(cells, Rsi).None? || 35.0 <= Cell(cells, Rsi).value < 45.0 || 70.0 < Cell(cells, Rsi).value <= 75.0)
    ensures s.Some? ==> -0.2 <= s.value.amount <= 0.2
    ensures s.Some? ==> (s.value.amount > 0.0 <==> 45.0 <= Cell(cells, Rsi).value <= 70.0)
  {
    var rsi := Cell(cells, Rsi);
    if rsi.None? then None
    else if 45.0 <= rsi.value <= 70.0 then Some(Signal(0.2, RsiNeutralPositive(rsi.value)))
    else if rsi.value < 35.0 then Some(Signal(-0.1, RsiOversold(rsi.value)))
    else if rsi.value > 75.0 then Some(Signal(-0.2, RsiOverbought(rsi.value)))
    else None
  }

  /** The close against the Bollinger bands: below the lower band +0.1, above the upper -0.1. */
  function BandTerm(cells: map<Column, Option<real>>, close: real): (s: Option<Signal>)
    ensures s.Some? ==> Cell(cells, BbUpper).Some? && Cell(cells, BbLower).Some?
    ensures s.Some? ==> (s.value == Signal(0.1, NearLowerBand) <==> close < Cell(cells, BbLower).value)
    ensures s.Some? ==> s.value == Signal(0.1, NearLowerBand) || s.value == Signal(-0.1, NearUpperBand)
    ensures Cell(cells, BbUpper).Some? && Cell(cells, BbLower).Some? ==>
      (s.None? <==> Cell(cells, BbLower).value <= close <= Cell(cells, BbUpper).value)
  {
    var upper := Cell(cells, BbUpper);
    var lower := Cell(cells, BbLower);
    if upper.None? || lower.None? then None
    else if close < lower.value then Some(Signal(0.1, NearLowerBand))
    else if close > upper.value then Some(Signal(-0.1, NearUpperBand))
    else None
  }

  /** `clamp(0.2 - volatility, -0.2, 0.2)` */
  function VolatilityTerm(vol: real): (t: real)
    ensures -0.2 <= t <= 0.2
    ensures 0.0 <= vol ==> t <= 0.2 - vol || t == -0.2
  {
    Clamp(0.2 - vol, -0.2, 0.2)
  }

  function Amount(s: Option<Signal>): real
  {
    if s.Some? then s.value.amount else 0.0
  }

  function Part(s: Option<Signal>): seq<Reason>
  {
    if s.Some? then [s.value.reason] else []
  }

  /** `trend_score` before the final clamp. */
  function TrendScore(cells: map<Column, Option<real>>, close: real, vol: real): (t: real)
    ensures cells == map[] ==> t == VolatilityTerm(vol)
  {
    Amount(SmaTerm(cells)) + Amount(MacdTerm(cells)) + Amount(RsiTerm(cells))
      + Amount(BandTerm(cells, close)) + VolatilityTerm(vol)
  }

  /** `rationale_parts`: the parts of the blocks that fired, then the volatility note. */
  function TrendReasons(cells: map<Column, Option<real>>, close: real, vol: real): seq<Reason>
  {
    Part(SmaTerm(cells)) + Part(MacdTerm(cells)) + Part(RsiTerm(cells))
      + Part(BandTerm(cells, close)) + [VolatilityNote(vol)]
  }

  /** One cell as a Python float: its value, or NaN for a missing or NaN cell. */
  function CellValue(cells: map<Column, Option<real>>, c: Column): (v: Value)
    ensures Cell(cells, c).Some? ==> v == Float(Fin(Cell(cells, c).value))
    ensures Cell(cells, c).None? ==> v == Float(NaN)
  {
    var x := Cell(cells, c);
    if x.Some? then Float(Fin(x.value)) else Float(NaN)
  }

  /** `latest_ind.to_dict()`: each column's name mapped to its value, NaN for a
      missing cell; when two columns share a name the later one is kept. */
  function RowDict(columns: seq<Column>, cells: map<Column, Option<real>>): (d: map<string, Value>)
    ensures d.Keys == set c | c in columns :: ColumnName(c)
  {
    if columns == [] then map[]
    else
      var c := columns[|columns| - 1];
      RowDict(columns[..|columns| - 1], cells)[ColumnName(c) := CellValue(cells, c)]
  }

  /** Each column's name maps to that column's cell, unless a later column has the same name. */
  lemma {:induction false} RowDictValue(columns: seq<Column>, cells: map<Column, Option<real>>, i: int)
    requires 0 <= i < |columns| && LastWithName(columns, i)
    ensures ColumnName(columns[i]) in RowDict(columns, cells)
    ensures RowDict(columns, cells)[ColumnName(columns[i])] == CellValue(cells, columns[i])
  {
    var n := |columns| - 1;
    if i < n {
      var prefix := columns[..n];
      assert prefix[i] == columns[i];
      forall j | i < j < n
        ensures ColumnName(prefix[j]) != ColumnName(prefix[i])
      {
        assert prefix[j] == columns[j];
      }
      RowDictValue(prefix, cells, i);
      RowDictOther(columns, cells, ColumnName(columns[i]));
    }
  }

  /** The last column only writes its own name. */
  lemma RowDictOther(columns: seq<Column>, cells: map<Column, Option<real>>, key: string)
    requires columns != [] && key != ColumnName(columns[|columns| - 1])
    requires key in RowDict(columns[..|columns| - 1], cells)
    ensures key in RowDict(columns, cells)
    ensures RowDict(columns, cells)[key] == RowDict(columns[..|columns| - 1], cells)[key]
  {
  }

  /** No later column has the name of column `i`. */
  predicate LastWithName(columns: seq<Column>, i: int)
    requires 0 <= i < |columns|
  {
    forall j :: i < j < |columns| ==> ColumnName(columns[j]) != ColumnName(columns[i])
  }

  /** The table-level flag the guard reads; a table's `attrs` is always a dict here. */
  function AttrsOf(ctx: AnalysisContext): map<string, Value>
  {
    if ctx.indicators.Some? then ctx.indicators.value.attrs else map[]
  }

  /** The second guard: no indicators, an empty table, or a truthy `insufficient_history`. */
  predicate InsufficientIndicators(ctx: AnalysisContext)
    ensures ctx.indicators.None? ==> InsufficientIndicators(ctx)
    ensures ctx.indicators.Some? && "insufficient_history" !in AttrsOf(ctx) ==>
      (InsufficientIndicators(ctx) <==> IsEmpty(ctx.indicators.value))
    ensures "insufficient_history" in AttrsOf(ctx) && AttrsOf(ctx)["insufficient_history"] == Bool(true) ==>
      InsufficientIndicators(ctx)
  {
    || ctx.indicators.None?
    || IsEmpty(ctx.indicators.value)
    || Truthy(Get(ctx.indicators.value.attrs, "insufficient_history", Bool(false)))
  }

  /** The report of the second guard. */
  function InsufficientReport(ctx: AnalysisContext): AgentReport
    requires !NoPrices(ctx)
  {
    AgentReport(Name, ctx.symbol, Float(Fin(0.0)), [InsufficientHistory],
      map["indicators_available" := Bool(false),
          "price_points" := Int(|ctx.priceHistory.value|),
          "required_points" := Get(AttrsOf(ctx), "min_required", Null)])
  }

  /** The annualised volatility of the closes, as `analyze` computes it. */
  function PriceVolatility(history: seq<Bar>, m: MathOps): real
    requires PositiveCloses(history)
  {
    AnnualizedVolatility(PctChange(Closes(history)), m)
  }

  /** `TechnicalAnalyst.analyze` */
  method Analyze(ctx: AnalysisContext, m: MathOps) returns (r: AgentReport)
    requires ValidContext(ctx)
    ensures r.agent == Name && r.symbol == ctx.symbol
    ensures NoPrices(ctx) ==>
      r == AgentReport(Name, ctx.symbol, Float(Fin(0.0)), [NoPriceHistory], map[])
    ensures !NoPrices(ctx) && InsufficientIndicators(ctx) ==> r == InsufficientReport(ctx)
    ensures !NoPrices(ctx) && !InsufficientIndicators(ctx) ==>
      var history := ctx.priceHistory.value;
      var table := ctx.indicators.value;
      var cells := table.rows[|table.rows| - 1].cells;
      var close := history[|history| - 1].close;
      var vol := PriceVolatility(history, m);
      && r.score == Float(Fin(Clamp(TrendScore(cells, close, vol), -1.0, 1.0)))
      && r.rationale == TrendReasons(cells, close, vol)
      && r.metadata == map["close" := Float(Fin(close)), "volatility" := Float(Fin(vol)),
                           "latest_indicators" := Dict(RowDict(table.columns, cells))]
  {
    if ctx.priceHistory.None? || ctx.priceHistory.value == [] {
      return AgentReport(Name, ctx.symbol, Float(Fin(0.0)), [NoPriceHistory], map[]);
    }
    var price := ctx.priceHistory.value;

    var insufficient := false;
    var attrs: map<string, Value> := map[];
    if ctx.indicators.Some? {
      attrs := ctx.indicators.value.attrs;
      insufficient := Truthy(Get(attrs, "insufficient_history", Bool(false)));
    }
    if ctx.indicators.None? || IsEmpty(ctx.indicators.value) || insufficient {
      return AgentReport(Name, ctx.symbol, Float(Fin(0.0)), [InsufficientHistory],
        map["indicators_available" := Bool(false),
            "price_points" := Int(|price|),
            "required_points" := Get(attrs, "min_required", Null)]);
    }

    r := Scored(ctx.symbol, price, ctx.indicators.value, m);
  }

  /** `analyze` past both guards: score the latest indicator row and report it. */
  method Scored(symbol: string, price: seq<Bar>, table: IndicatorTable, m: MathOps) returns (r: AgentReport)
    requires PositiveCloses(price) && price != [] && !IsEmpty(table)
    ensures
      var cells := table.rows[|table.rows| - 1].cells;
      var close := price[|price| - 1].close;
      var vol := PriceVolatility(price, m);
      && r == AgentReport(Name, symbol, Float(Fin(Clamp(TrendScore(cells, close, vol), -1.0, 1.0))),
                          TrendReasons(cells, close, vol),
                          map["close" := Float(Fin(close)), "volatility" := Float(Fin(vol)),
                              "latest_indicators" := Dict(RowDict(table.columns, cells))])
  {
    var close := price[|price| - 1].close;
    var latest := table.rows[|table.rows| - 1].cells;
    var trendScore, parts, volatility := Trend(latest, close, price, m);
    var score := Clamp(trendScore, -1.0, 1.0);
    r := AgentReport(Name, symbol, Float(Fin(score)), parts,
      map["close" := Float(Fin(close)), "volatility" := Float(Fin(volatility)),
          "latest_indicators" := Dict(RowDict(table.columns, latest))]);
  }

  /** The scoring part of `analyze`: the four indicator blocks, then the volatility term. */
  method Trend(latest: map<Column, Option<real>>, close: real, price: seq<Bar>, m: MathOps)
    returns (trendScore: real, parts: seq<Reason>, volatility: real)
    requires PositiveCloses(price)
    ensures volatility == PriceVolatility(price, m)
    ensures trendScore == TrendScore(latest, close, volatility)
    ensures parts == TrendReasons(latest, close, volatility)
  {
    trendScore := 0.0;
    parts := [];
    trendScore, parts := SmaStep(trendScore, parts, latest);
    assert parts == Part(SmaTerm(latest)) && trendScore == Amount(SmaTerm(latest));
    trendScore, parts := MacdStep(trendScore, parts, latest);
    trendScore, parts := RsiStep(trendScore, parts, latest);
    trendScore, parts := BandStep(trendScore, parts, latest, close);

    volatility := ReturnsVolatility(price, m);
    var volatilityScore := Clamp(0.2 - volatility, -0.2, 0.2);
    trendScore := trendScore + volatilityScore;
    parts := parts + [VolatilityNote(volatility)];
  }

  /** The volatility computation of `analyze`: 0.0 without returns, else the
      population standard deviation of the returns times sqrt(252). */
  method ReturnsVolatility(price: seq<Bar>, m: MathOps) returns (volatility: real)
    requires PositiveCloses(price)
    ensures volatility == PriceVolatility(price, m)
  {
    var rets := PctChange(Closes(price));
    if rets == [] {
      volatility := 0.0;
    } else {
      volatility := m.sqrt(PopVariance(rets)) * m.sqrt(252.0);
    }
  }

  /** The SMA block of `analyze`. */
  method SmaStep(score: real, parts: seq<Reason>, latest: map<Column, Option<real>>)
    returns (score': real, parts': seq<Reason>)
    ensures score' == score + Amount(SmaTerm(latest)) && parts' == parts + Part(SmaTerm(latest))
  {
    score', parts' := score, parts;
    var smaFast := Cell(latest, Sma(20));
    var smaSlow := Cell(latest, Sma(50));
    if smaFast.Some? && smaSlow.Some? {
      if smaFast.value > smaSlow.value {
        score' := score' + 0.3;
        parts' := parts' + [SmaAbove];
      } else {
        score' := score' - 0.3;
        parts' := parts' + [SmaBelow];
      }
    }
  }

  /** The MACD block of `analyze`. */
  method MacdStep(score: real, parts: seq<Reason>, latest: map<Column, Option<real>>)
    returns (score': real, parts': seq<Reason>)
    ensures score' == score + Amount(MacdTerm(latest)) && parts' == parts + Part(MacdTerm(latest))
  {
    score', parts' := score, parts;
    var hist := Cell(latest, MacdHist);
    if hist.Some? {
      if hist.value > 0.0 {
        score' := score' + 0.2;
        parts' := parts' + [MacdPositive];
      } else {
        score' := score' - 0.2;
        parts' := parts' + [MacdNegative];
      }
    }
  }

  /** The RSI block of `analyze`. */
  method RsiStep(score: real, parts: seq<Reason>, latest: map<Column, Option<real>>)
    returns (score': real, parts': seq<Reason>)
    ensures score' == score + Amount(RsiTerm(latest)) && parts' == parts + Part(RsiTerm(latest))
  {
    score', parts' := score, parts;
    var rsi := Cell(latest, Rsi);
    if rsi.Some? {
      if 45.0 <= rsi.value <= 70.0 {
        score' := score' + 0.2;
        parts' := parts' + [RsiNeutralPositive(rsi.value)];
      } else if rsi.value < 35.0 {
        score' := score' - 0.1;
        parts' := parts' + [RsiOversold(rsi.value)];
      } else if rsi.value > 75.0 {
        score' := score' - 0.2;
        parts' := parts' + [RsiOverbought(rsi.value)];
      }
    }
  }

  /** The Bollinger block of `analyze`. */
  method BandStep(score: real, parts: seq<Reason>, latest: map<Column, Option<real>>, close: real)
    returns (score': real, parts': seq<Reason>)
    ensures score' == score + Amount(BandTerm(latest, close)) && parts' == parts + Part(BandTerm(latest, close))
  {
    score', parts' := score, parts;
    var upper := Cell(latest, BbUpper);
    var lower := Cell(latest, BbLower);
    if upper.Some? && lower.Some? {
      if close < lower.value {
        score' := score' + 0.1;
        parts' := parts' + [NearLowerBand];
      } else if close > upper.value {
        score' := score' - 0.1;
        parts' := parts' + [NearUpperBand];
      }
    }
  }

  // ------------------------------------------------------------ properties

  /** SMA: +0.3 when SMA20 is above SMA50, -0.3 otherwise (ties included),
      nothing when either is missing or NaN. */
  lemma SmaBands(cells: map<Column, Option<real>>)
    ensures Cell(cells, Sma(20)).None? || Cell(cells, Sma(50)).None? <==> SmaTerm(cells).None?
    ensures SmaTerm(cells).Some? ==>
      (SmaTerm(cells).value.amount == 0.3 <==> Cell(cells, Sma(20)).value > Cell(cells, Sma(50)).value)
    ensures SmaTerm(cells).Some? ==>
      (SmaTerm(cells).value.amount == -0.3 <==> Cell(cells, Sma(20)).value <= Cell(cells, Sma(50)).value)
  {
  }

  /** MACD: +0.2 for a positive histogram, -0.2 for zero or negative, nothing when NaN. */
  lemma MacdBands(cells: map<Column, Option<real>>)
    ensures Cell(cells, MacdHist).None? <==> MacdTerm(cells).None?
    ensures MacdTerm(cells).Some? ==> (MacdTerm(cells).value.amount == 0.2 <==> Cell(cells, MacdHist).value > 0.0)
    ensures MacdTerm(cells).Some? ==> (MacdTerm(cells).value.amount == -0.2 <==> Cell(cells, MacdHist).value <= 0.0)
  {
  }

  /** RSI: +0.2 on [45, 70], -0.1 under 35, -0.2 over 75, nothing on [35, 45) or (70, 75]. */
  lemma RsiBands(x: real)
    ensures 45.0 <= x <= 70.0 <==> RsiTerm(map[Rsi := Some(x)]) == Some(Signal(0.2, RsiNeutralPositive(x)))
    ensures x < 35.0 <==> RsiTerm(map[Rsi := Some(x)]) == Some(Signal(-0.1, RsiOversold(x)))
    ensures x > 75.0 <==> RsiTerm(map[Rsi := Some(x)]) == Some(Signal(-0.2, RsiOverbought(x)))
    ensures (35.0 <= x < 45.0 || 70.0 < x <= 75.0) <==> RsiTerm(map[Rsi := Some(x)]).None?
  {
  }

  /** Bollinger: +0.1 below the lower band, -0.1 above the upper band, nothing in between. */
  lemma BandBands(lower: real, upper: real, close: real)
    requires lower <= upper
    ensures var cells := map[BbUpper := Some(upper), BbLower := Some(lower)];
      && (close < lower <==> BandTerm(cells, close) == Some(Signal(0.1, NearLowerBand)))
      && (close > upper <==> BandTerm(cells, close) == Some(Signal(-0.1, NearUpperBand)))
      && (lower <= close <= upper <==> BandTerm(cells, close).None?)
  {
  }

  /** Every block's amount is bounded, so the sum lies in [-1, 1] and the final clamp
      never changes it; the volatility note is always the last part. */
  lemma TrendWithinRange(cells: map<Column, Option<real>>, close: real, vol: real)
    ensures -1.0 <= TrendScore(cells, close, vol) <= 1.0
    ensures Clamp(TrendScore(cells, close, vol), -1.0, 1.0) == TrendScore(cells, close, vol)
    ensures |TrendReasons(cells, close, vol)| >= 1
    ensures TrendReasons(cells, close, vol)[|TrendReasons(cells, close, vol)| - 1] == VolatilityNote(vol)
  {
    assert -0.3 <= Amount(SmaTerm(cells)) <= 0.3;
    assert -0.2 <= Amount(MacdTerm(cells)) <= 0.2;
    assert -0.2 <= Amount(RsiTerm(cells)) <= 0.2;
    assert -0.1 <= Amount(BandTerm(cells, close)) <= 0.1;
  }

  /** A single bar has no return, so its volatility is 0.0 and the volatility term the full 0.2. */
  lemma SingleBarVolatility(history: seq<Bar>, m: MathOps)
    requires PositiveCloses(history) && |history| == 1
    ensures PriceVolatility(history, m) == 0.0
    ensures VolatilityTerm(PriceVolatility(history, m)) == 0.2
  {
  }

  /** Indicator tables built by `ComputeIndicators` never carry the
      `insufficient_history` flag, so for them only an empty table takes the guard. */
  lemma ComputedTablesNeverFlagged(ctx: AnalysisContext)
    requires ctx.indicators.Some? && ctx.indicators.value.attrs == map[]
    ensures InsufficientIndicators(ctx) <==> IsEmpty(ctx.indicators.value)
  {
  }
}

=== FILE: utils.dfy ===
/** Numeric helpers shared by every agent (clamp, the finiteness test and the
    mean that ignores non-finite entries), together with the small part of
    Python's value and float semantics that the agents rely on. */
module Utils {

  datatype Option<+T> = None | Some(value: T)

  datatype Result<+T, +E> = Ok(value: T) | Err(error: E)

  /** A Python float: a finite real, NaN, or one of the two infinities. */
  datatype Num = Fin(r: real) | NaN | PosInf | NegInf

  /** A dynamically typed Python value, as it appears in report scores and metadata.
      `bool` is a subclass of `int` in Python, which matters for `IsFiniteNumber`. */
  datatype Value =
    | Null
    | Bool(b: bool)
    | Int(i: int)
    | Float(f: Num)
    | Str(s: string)
    | List(items: seq<Value>)
    | Dict(entries: map<string, Value>)

  /** `d.get(key, default)` on a Python dict. */
  function Get(d: map<string, Value>, key: string, default: Value): (v: Value)
    ensures key in d ==> v == d[key]
    ensures key !in d ==> v == default
  {
    if key in d then d[key] else default
  }

  /** Python truthiness, `bool(v)`; NaN is truthy because it is not zero. */
  predicate Truthy(v: Value)
  {
    match v
    case Null => false
    case Bool(b) => b
    case Int(i) => i != 0
    case Float(f) => f != Fin(0.0)
    case Str(s) => s != []
    case List(items) => items != []
    case Dict(entries) => entries != map[]
  }

  /** The square root and hyperbolic tangent of the Python math library, passed
      in as parameters; `Lawful` states the only facts the model relies on. */
  datatype MathOps = MathOps(sqrt: real -> real, tanh: real -> real)

  ghost predicate Lawful(m: MathOps)
  {
    && (forall x :: 0.0 <= x ==> 0.0 <= m.sqrt(x))
    && m.sqrt(0.0) == 0.0
    && (forall x :: -1.0 < m.tanh(x) < 1.0)
    && m.tanh(0.0) == 0.0
    && (forall x, y :: x < y ==> m.tanh(x) < m.tanh(y))
  }

  // ---------------------------------------------------------------- clamp

  /** `clamp(value, lower, upper)`: the two guards are checked in this order, so
      with `lower > upper` a value below `lower` still yields `lower`. */
  function Clamp(value: real, lower: real, upper: real): (r: real)
    ensures value < lower ==> r == lower
    ensures lower <= value && upper < value ==> r == upper
    ensures lower <= value <= upper ==> r == value
    ensures lower <= upper ==> lower <= r <= upper
  {
    if value < lower then lower
    else if value > upper then upper
    else value
  }

  lemma ClampIdempotent(value: real, lower: real, upper: real)
    requires lower <= upper
    ensures Clamp(Clamp(value, lower, upper), lower, upper) == Clamp(value, lower, upper)
  {
  }

  lemma ClampMonotone(x: real, y: real, lower: real, upper: real)
    requires lower <= upper && x <= y
    ensures Clamp(x, lower, upper) <= Clamp(y, lower, upper)
  {
  }

  /** `clamp` applied to a Python float with finite bounds: every comparison
      with NaN is false, so NaN falls through both guards unchanged. */
  function ClampNum(value: Num, lower: real, upper: real): (r: Num)
    ensures r.NaN? <==> value.NaN?
    ensures lower <= upper && !value.NaN? ==> r.Fin? && lower <= r.r <= upper
    ensures value.Fin? ==> r == Fin(Clamp(value.r, lower, upper))
    ensures value.PosInf? ==> r == Fin(upper)
    ensures value.NegInf? ==> r == Fin(lower)
  {
    match value
    case Fin(x) => Fin(Clamp(x, lower, upper))
    case NaN => NaN
    case PosInf => Fin(upper)
    case NegInf => Fin(lower)
  }

  // ------------------------------------------------------ float arithmetic

  /** IEEE addition. */
  function Add(a: Num, b: Num): (r: Num)
    ensures a.Fin? && b.Fin? ==> r == Fin(a.r + b.r)
    ensures a.NaN? || b.NaN? ==> r.NaN?
    ensures r.NaN? ==> a.NaN? || b.NaN? || (a.PosInf? && b.NegInf?) || (a.NegInf? && b.PosInf?)
  {
    match (a, b)
    case (Fin(x), Fin(y)) => Fin(x + y)
    case (NaN, _) => NaN
    case (_, NaN) => NaN
    case (PosInf, NegInf) => NaN
    case (NegInf, PosInf) => NaN
    case (PosInf, _) => PosInf
    case (_, PosInf) => PosInf
    case (NegInf, _) => NegInf
    case (_, NegInf) => NegInf
  }

  /** IEEE product of a finite factor `k` and a float. */
  function Scale(k: real, v: Num): (r: Num)
    ensures v.Fin? ==> r.Fin? && r.r == k * v.r
    ensures r.NaN? <==> v.NaN? || (k == 0.0 && !v.Fin?)
  {
    match v
    case Fin(x) => Fin(k * x)
    case NaN => NaN
    case PosInf => if k > 0.0 then PosInf else if k < 0.0 then NegInf else NaN
    case NegInf => if k > 0.0 then NegInf else if k < 0.0 then PosInf else NaN
  }

  /** `v < c` for a finite `c`; false for NaN. */
  predicate Below(v: Num, c: real)
  {
    match v
    case Fin(x) => x < c
    case NaN => false
    case PosInf => false
    case NegInf => true
  }

  /** `v > c` for a finite `c`; false for NaN. */
  predicate Above(v: Num, c: real)
  {
    match v
    case Fin(x) => x > c
    case NaN => false
    case PosInf => true
    case NegInf => false
  }

  /** `v >= c` for a finite `c`; false for NaN. */
  predicate AtLeast(v: Num, c: real)
  {
    match v
    case Fin(x) => x >= c
    case NaN => false
    case PosInf => true
    case NegInf => false
  }

  /** Python's `min(v, c)`: the first argument is kept unless the second is
      strictly smaller, so `min(nan, c)` is NaN. */
  function MinNum(v: Num, c: real): (r: Num)
    ensures r.NaN? <==> v.NaN?
    ensures !v.NaN? ==> r.Fin? ==> r.r <= c
    ensures v.Fin? ==> r.Fin? && r.r <= c && r.r <= v.r && (r.r == c || r.r == v.r)
  {
    if Above(v, c) then Fin(c) else v
  }

  // --------------------------------------------------- is_finite_number

  /** `is_finite_number`: an `int` or `float` (bools included) that is neither NaN nor infinite. */
  predicate IsFiniteNumber(v: Value)
    ensures v.Float? ==> (IsFiniteNumber(v) <==> !v.f.NaN? && !v.f.PosInf? && !v.f.NegInf?)
    ensures v.Null? || v.Str? || v.List? || v.Dict? ==> !IsFiniteNumber(v)
    ensures v.Bool? || v.Int? ==> IsFiniteNumber(v)
  {
    v.Bool? || v.Int? || (v.Float? && v.f.Fin?)
  }

  /** `float(v)` for a finite number. */
  function AsReal(v: Value): real
    requires IsFiniteNumber(v)
  {
    match v
    case Bool(b) => if b then 1.0 else 0.0
    case Int(i) => i as real
    case Float(f) => f.r
  }

  // ------------------------------------------------------------- sums

  function Sum(s: seq<real>): real
  {
    if s == [] then 0.0 else s[0] + Sum(s[1..])
  }

  function Mean(s: seq<real>): real
    requires s != []
  {
    Sum(s) / |s| as real
  }

  function Min(s: seq<real>): (r: real)
    requires s != []
    ensures r in s
    ensures forall i :: 0 <= i < |s| ==> r <= s[i]
  {
    if |s| == 1 then s[0]
    else var m := Min(s[1..]); if s[0] <= m then s[0] else m
  }

  function Max(s: seq<real>): (r: real)
    requires s != []
    ensures r in s
    ensures forall i :: 0 <= i < |s| ==> s[i] <= r
  {
    if |s| == 1 then s[0]
    else var m := Max(s[1..]); if s[0] >= m then s[0] else m
  }

  lemma {:induction false} SumBounds(s: seq<real>, lo: real, hi: real)
    requires forall i :: 0 <= i < |s| ==> lo <= s[i] <= hi
    ensures |s| as real * lo <= Sum(s) <= |s| as real * hi
  {
    if s != [] {
      SumBounds(s[1..], lo, hi);
    }
  }

  lemma {:induction false} SumAppend(a: seq<real>, b: seq<real>)
    ensures Sum(a + b) == Sum(a) + Sum(b)
  {
    if a == [] {
      assert a + b == b;
    } else {
      assert (a + b)[1..] == a[1..] + b;
      SumAppend(a[1..], b);
    }
  }

  /** The mean of a non-empty sequence lies between its least and greatest element. */
  lemma MeanWithin(s: seq<real>, lo: real, hi: real)
    requires s != []
    requires forall i :: 0 <= i < |s| ==> lo <= s[i] <= hi
    ensures lo <= Mean(s) <= hi
  {
    SumBounds(s, lo, hi);
    var n := |s| as real;
    assert Sum(s) / n >= lo by { assert Sum(s) >= n * lo; }
    assert Sum(s) / n <= hi by { assert Sum(s) <= n * hi; }
  }

  /** Comparing a quotient with a constant is comparing the dividend with the
      constant times the divisor. */
  lemma RatioSign(d: real, t: real, c: real)
    requires t > 0.0
    ensures d / t < c <==> d < c * t
    ensures d / t == c <==> d == c * t
    ensures d / t > c <==> d > c * t
  {
    var q := d / t;
    assert q * t == d;
    assert (q - c) * t == d - c * t;
    if q > c {
      ProductPositive(q - c, t);
    } else if q < c {
      ProductPositive(c - q, t);
    }
  }

  lemma ProductPositive(a: real, b: real)
    requires a > 0.0 && b > 0.0
    ensures a * b > 0.0
  {
  }

  // ------------------------------------------------------------ safe_mean

  /** The list comprehension `[float(v) for v in values if is_finite_number(v)]`. */
  function FiniteEntries(values: seq<Value>): (cleaned: seq<real>)
    ensures |cleaned| <= |values|
  {
    if values == [] then []
    else (if IsFiniteNumber(values[0]) then [AsReal(values[0])] else []) + FiniteEntries(values[1..])
  }

  /** `safe_mean`: the arithmetic mean of the finite entries, 0.0 when there are none. */
  function SafeMean(values: seq<Value>): (m: real)
    ensures FiniteEntries(values) == [] ==> m == 0.0
    ensures FiniteEntries(values) != [] ==> Min(FiniteEntries(values)) <= m <= Max(FiniteEntries(values))
  {
    var cleaned := FiniteEntries(values);
    if cleaned == [] then 0.0
    else
      MeanWithin(cleaned, Min(cleaned), Max(cleaned));
      Mean(cleaned)
  }

  lemma {:induction false} FiniteEntriesEmpty(values: seq<Value>)
    ensures FiniteEntries(values) == [] <==> forall i :: 0 <= i < |values| ==> !IsFiniteNumber(values[i])
  {
    if values != [] {
      FiniteEntriesEmpty(values[1..]);
      assert forall i :: 1 <= i < |values| ==> values[i] == values[1..][i - 1];
    }
  }

  /** With no finite entry (in particular for the empty input) the mean is 0.0. */
  lemma SafeMeanNoFinite(values: seq<Value>)
    requires forall i :: 0 <= i < |values| ==> !IsFiniteNumber(values[i])
    ensures SafeMean(values) == 0.0
  {
    FiniteEntriesEmpty(values);
  }

  /** When every entry is finite nothing is filtered out. */
  lemma {:induction false} FiniteEntriesAllFinite(values: seq<Value>)
    requires forall i :: 0 <= i < |values| ==> IsFiniteNumber(values[i])
    ensures |FiniteEntries(values)| == |values|
    ensures forall i :: 0 <= i < |values| ==> FiniteEntries(values)[i] == AsReal(values[i])
  {
    if values != [] {
      FiniteEntriesAllFinite(values[1..]);
    }
  }

  /** `safe_mean` is the mean of the finite sub-sequence, hence between its minimum and maximum. */
  lemma SafeMeanWithinFinite(values: seq<Value>)
    requires exists i :: 0 <= i < |values| && IsFiniteNumber(values[i])
    ensures FiniteEntries(values) != []
    ensures Min(FiniteEntries(values)) <= SafeMean(values) <= Max(FiniteEntries(values))
  {
    FiniteEntriesEmpty(values);
    var cleaned := FiniteEntries(values);
    MeanWithin(cleaned, Min(cleaned), Max(cleaned));
  }

  // ------------------------------------------------------------ variance

  function SquaredDeviations(s: seq<real>, mu: real): (d: seq<real>)
    ensures |d| == |s|
    ensures forall i :: 0 <= i < |s| ==> d[i] == (s[i] - mu) * (s[i] - mu)
  {
    seq(|s|, i requires 0 <= i < |s| => (s[i] - mu) * (s[i] - mu))
  }

  /** Population variance (pandas `std(ddof=0)` squared). */
  function PopVariance(s: seq<real>): (v: real)
    requires s != []
    ensures 0.0 <= v
  {
    var d := SquaredDeviations(s, Mean(s));
    SquaresNonNegative(s, Mean(s));
    SumBounds(d, 0.0, Max(d));
    Sum(d) / |s| as real
  }

  /** Sample variance (pandas `std()`, ddof=1, squared); needs two observations. */
  function SampleVariance(s: seq<real>): (v: real)
    requires |s| >= 2
    ensures 0.0 <= v
  {
    var d := SquaredDeviations(s, Mean(s));
    SquaresNonNegative(s, Mean(s));
    SumBounds(d, 0.0, Max(d));
    Sum(d) / (|s| - 1) as real
  }

  lemma SquaresNonNegative(s: seq<real>, mu: real)
    ensures forall i :: 0 <= i < |s| ==> 0.0 <= SquaredDeviations(s, mu)[i]
  {
    forall i | 0 <= i < |s|
      ensures 0.0 <= SquaredDeviations(s, mu)[i]
    {
      var x := s[i] - mu;
      if x < 0.0 {
        assert x * x == (-x) * (-x);
      }
    }
  }

  // -------------------------------------------------------- round(x, 4)

  /** The integer nearest to `y`, ties to the even one. */
  function RoundHalfEven(y: real): (k: int)
    ensures -0.5 <= k as real - y <= 0.5
    ensures 0.0 <= y ==> 0 <= k
  {
    var n := y.Floor;
    var frac := y - n as real;
    if frac < 0.5 then n
    else if frac > 0.5 then n + 1
    else if n % 2 == 0 then n else n + 1
  }

  /** Python's `round(x, 4)`: to the nearest multiple of 1/10000, ties to even. */
  function Round4(x: real): (r: real)
    ensures -0.00005 <= r - x <= 0.00005
    ensures 0.0 <= x ==> 0.0 <= r
    ensures (r * 10000.0).Floor as real == r * 10000.0
  {
    var k := RoundHalfEven(x * 10000.0);
    var r := k as real / 10000.0;
    assert r * 10000.0 == k as real;
    assert r - x == (k as real - x * 10000.0) / 10000.0;
    r
  }

  /** Rounding never crosses an integer bound. */
  lemma RoundHalfEvenAtMost(y: real, n: int)
    requires y <= n as real
    ensures RoundHalfEven(y) <= n
  {
    var f := y.Floor;
    if f == n {
      assert y == n as real;
    }
  }

  /** `round(x, 4)` stays at or under a bound that is itself a multiple of 1/10000. */
  lemma Round4AtMost(x: real, c: real)
    requires x <= c && (c * 10000.0).Floor as real == c * 10000.0
    ensures Round4(x) <= c
  {
    RoundHalfEvenAtMost(x * 10000.0, (c * 10000.0).Floor);
    assert RoundHalfEven(x * 10000.0) as real <= c * 10000.0;
  }

  /** `round(v, 4)` on a float: NaN and the infinities are returned unchanged. */
  function RoundNum(v: Num): (r: Num)
    ensures v.Fin? <==> r.Fin?
    ensures v.Fin? ==> r == Fin(Round4(v.r))
    ensures !v.Fin? ==> r == v
  {
    if v.Fin? then Fin(Round4(v.r)) else v
  }
}
